=== FILE: README.md ===
# rext-core in Dafny

This project models rext-core, the crate behind the `rext` command that scaffolds a new full-stack Rust application, and proves properties of the model.

The central part is the scaffolding engine in `src/files/mod.rs`:

- a fixed catalogue of 69 template files;
- the module filter;
- the `{app_name}` renderer;
- directory creation and file writing over a filesystem;
- the guard that refuses to overwrite an existing project.

Around it, the model covers the self-contained logic of the backend templates that rext ships:

- the permission algebra and the permission service;
- the input validators;
- pagination and the guards of the admin service;
- Bearer-token extraction and the token expiry rule;
- email templates and `{{key}}` substitution;
- uptime formatting;
- the `.env` loader and the frontend-build decision in the generated `build.rs`.

Each part is one Dafny module, in its own file:

| file | module | models |
|---|---|---|
| `basics.dfy` | `Basics` | `Option`, `Result`, UUIDs, HTTP status codes, `AppError` |
| `text.dfy` | `Text` | the `str` operations the sources use: `replace`, `split`, `trim`, `split_once`, `len` (UTF-8 bytes), decimal `{}` |
| `scaffold.dfy` | `Scaffold` | the file catalogue, `get_rext_files`, `process_template`, `full_path`/`directory_path`, the default config |
| `materialise.dfy` | `Materialise` | `create_directories`, `create_files` and `create_rext_app` over an abstract filesystem |
| `permissions.dfy` | `Permissions` | `Permission`, `PermissionSet`, `DefaultPermissions` |
| `permission_service.dfy` | `PermissionService` | the permission checks against the user and role tables, the permission catalogue and validation |
| `validation.dfy` | `Validation` | email and password validation |
| `admin_service.dfy` | `AdminService` | pagination arithmetic, `delete_user`, the table browser, the role store guards, `check_permission` |
| `token_service.dfy` | `TokenService` | Authorization header parsing and token checks |
| `email.dfy` | `Email` | the service type, the template table, variable substitution, the template lookup in sending |
| `system_monitor.dfy` | `SystemMonitor` | `format_uptime` |
| `build_script.dfy` | `BuildScript` | the `.env` loader and the frontend-build decision of `build.rs` |

## How the outside world appears in the model

Everything the sources obtain from outside is a parameter of the model:

- **Filesystem.** It is a value `Fs`: a map from path to file contents, plus a set of directories.
- **Operating-system failures.** Errors that the filesystem's own state explains are computed from the `Fs` value: "File exists", "Not a directory" when an ancestor is a file, "No such file or directory", and "Is a directory". A `Faults` value names the paths where `create_dir_all` or `write` fail for any other reason, and with which message.
- **Template bodies.** The bodies loaded with `include_str!` come from a function `templates`.
- **Database.** It is a value `Db` holding the users and roles tables, plus an optional fault with which every query fails.
- **Other parameters.** JWT decoding, the clock, UUID parsing, the session service, SMTP delivery and each table's `COUNT(*)` query are each a parameter. The count query either fails with a driver message or returns an optional count. So is the contents of `.env`, or its absence.

`HashSet` and `HashMap` iteration order is unspecified in Rust:

- In `create_directories` and `PermissionSet::to_vec`, the model's methods pick elements with `:|`. What they prove therefore holds for every order.
- In `process_template_variables`, the order is an explicit parameter `order`. It must list each key once.

Checked `u64` arithmetic that would panic in a debug build yields `None` in the model.

## Model

| member | source | states |
|---|---|---|
| Scaffold.CatalogSize | src/files/mod.rs:412-904 | the file table has 69 rows |
| Scaffold.CatalogAllCore | src/files/mod.rs:412-904 | every row belongs to `RextModule::RextCore` |
| Scaffold.CatalogNeedsDirectory | src/files/mod.rs:412-904 | a row asks for its directory to be created exactly when its relative directory is not the project root `.` |
| Scaffold.CatalogPathsDistinct | src/files/mod.rs:412-904 | no two rows share a (directory, name) pair |
| Scaffold.DirectoryPath | src/files/mod.rs:187-189 | `directory_path(base)` is `base` followed by the file's relative directory |
| Scaffold.FullPath | src/files/mod.rs:182-184 | `full_path(base)` is the directory path followed by the file name, under `base` |
| Scaffold.ProcessTemplate | src/files/mod.rs:403-405 | rendering equals splitting the template at every non-overlapping `{app_name}` and joining with the app name; a template without the token is unchanged |
| Scaffold.ProcessTemplateSelfNamed | src/files/mod.rs:403-405 | an app named `{app_name}` leaves every template unchanged, because inserted text is not scanned again |
| Scaffold.ProcessTemplateCanLeaveToken | src/files/mod.rs:403-405 | one pass can produce a fresh token: with an empty name, `{app_{app_name}name}` renders to `{app_name}` |
| Scaffold.SelectedIndices | src/files/mod.rs:907-908 | the rows whose module is enabled: increasing positions, each one enabled, and every enabled row among them |
| Scaffold.SelectFiles | src/files/mod.rs:907-920 | the output has one file per selected row, in table order, each rendered from its row and the configuration |
| Scaffold.GetRextFiles | src/files/mod.rs:408-923 | `get_rext_files` is the catalogue filtered by module, in table order, each entry rendered |
| Scaffold.AllRowsSelected | src/files/mod.rs:907-908 | when every row's module is enabled, every position is selected, in order |
| Scaffold.NoRowSelected | src/files/mod.rs:907-908 | when no row's module is enabled, nothing is selected |
| Scaffold.NoCoreNoFiles | src/files/mod.rs:907-920 | a module list without `RextCore` generates no files |
| Scaffold.CoreSelectsWholeCatalog | src/files/mod.rs:907-920 | with `RextCore` enabled, the i-th generated file is the i-th catalogue row, rendered |
| Scaffold.DefaultConfigGeneratesAll | src/files/mod.rs:200-207 | the default configuration (`my-rext-app`, `[RextCore]`) generates all 69 files |
| Scaffold.GeneratedPathsDistinct | src/files/mod.rs:182-184 | under any base directory and configuration, no two generated files share a full path |
| Materialise.CreateDirAll | src/files/mod.rs:938-940 | `create_dir_all` leaves files alone and adds only `p` and its ancestors; on success `p` is a directory; nothing in the way means success |
| Materialise.CreateDirAllValid | src/files/mod.rs:938-940 | creating directories keeps the filesystem well-formed: no path is both file and directory, and every file's parent is a directory |
| Materialise.CreateDirAllExisting | src/files/mod.rs:938-940 | an existing directory is not an error, and nothing changes |
| Materialise.CollectDirectories | src/files/mod.rs:926-935 | the first loop collects exactly the directory paths of the files that need a directory, each once |
| Materialise.CreateEach | src/files/mod.rs:937-941 | in any order, success leaves every needed directory present and adds only them and their ancestors; a failure is `DirectoryCreation` |
| Materialise.CreateDirectories | src/files/mod.rs:926-942 | `create_directories` creates exactly the deduplicated needed directories, or fails with `DirectoryCreation`, and never touches files |
| Materialise.Write | src/files/mod.rs:952-953 | `fs::write` creates or overwrites one file; it needs its parent directory and a path that is not a directory, and keeps the filesystem well formed |
| Materialise.AfterWritesDistinct | src/files/mod.rs:950-954 | with distinct paths, each written file holds its own content and every other path keeps its old content |
| Materialise.WriteFiles | src/files/mod.rs:949-954 | the writes go in order; if one fails, every earlier write succeeded, the files are those after the earlier writes, and the error is `FileWrite` with the displayed path and the OS error of that write; when nothing is in any write's way, all succeed |
| Materialise.CreateFiles | src/files/mod.rs:945-957 | directories come first; a directory failure writes nothing; a write failure is at a write `k` that failed, after writes that succeeded, and its `FileWrite` message is `k`'s displayed path and OS error; success holds every file's content at its full path; creatable directories and unobstructed, fault-free file paths guarantee success |
| Materialise.CreateRextApp | src/files/mod.rs:960-978 | an existing `rext.toml` or `Cargo.toml` gives `AppAlreadyExists` with the filesystem untouched. Otherwise it behaves as `create_files` on the selected files: success leaves every selected file, rendered, at its full path and every other file as it was; a directory failure writes nothing; a `FileWrite` failure is tied to a write `k` that failed after earlier writes that succeeded; creatable directories and unobstructed, fault-free file paths guarantee success |
| Materialise.GeneratedFilesWritten | src/files/mod.rs:949-954 | writing the generated files leaves each at its own full path with its rendered content, and every other file unchanged |
| Materialise.FileInTheWay | src/files/mod.rs:938-953 | with a file named `backend` in the project directory, creating `backend/bridge` and writing `backend/bridge` both fail with "Not a directory" |
| Permissions.ToString | src/files/templates/backend/domain/permissions.rs:43-66 | a custom permission prints its own name; every other permission prints one of the 19 reserved names |
| Permissions.FromString | src/files/templates/backend/domain/permissions.rs:69-92 | for every string `s`, `from_string(s).to_string() == s`; the result is `Custom` exactly when `s` is not reserved |
| Permissions.FromStringToString | src/files/templates/backend/domain/permissions.rs:43-92 | parsing a printed permission gives it back, except for `Custom` carrying a reserved name |
| Permissions.FromStringAll | src/files/templates/backend/domain/permissions.rs:69-72 | only `"*"` parses to `All` |
| Permissions.Category | src/files/templates/backend/domain/permissions.rs:95-118 | "super" exactly for `All`; "custom" exactly for custom permissions; every other permission's printed name starts with its category and ':' |
| Permissions.KindNameInjective | src/files/templates/backend/domain/permissions.rs:95-118 | the five category names are pairwise distinct |
| Permissions.ContainsViaIncludes | src/files/templates/backend/domain/permissions.rs:147-152 | `contains(p)` holds exactly when some member `includes` `p`; `All` includes everything, any other permission only itself |
| Permissions.FromVec | src/files/templates/backend/domain/permissions.rs:170-174 | the set holds exactly the listed permissions, so duplicates collapse |
| Permissions.FromVecDistinct | src/files/templates/backend/domain/permissions.rs:170-174 | a list without duplicates loses nothing: the set has as many members as the list |
| Permissions.FromStrings | src/files/templates/backend/domain/permissions.rs:177-184 | the set holds exactly the parses of the strings |
| Permissions.ContainsFromStrings | src/files/templates/backend/domain/permissions.rs:177-199 | a string list grants `p` exactly when it holds `"*"` or a string that parses to `p` |
| Permissions.Add | src/files/templates/backend/domain/permissions.rs:187-189 | `add` is set insertion; afterwards what is granted is the old grants plus what the new permission includes |
| Permissions.Remove | src/files/templates/backend/domain/permissions.rs:192-194 | `remove` is set deletion; it never grants more, and removing a permission other than `All` changes only that permission's grant |
| Permissions.Merge | src/files/templates/backend/domain/permissions.rs:222-226 | `merge` is set union; its grants are the union of the two sets' grants |
| Permissions.ContainsAny | src/files/templates/backend/domain/permissions.rs:202-204 | some listed permission is granted, so `contains_any([])` is false |
| Permissions.ContainsAll | src/files/templates/backend/domain/permissions.rs:207-209 | every listed permission is granted, so `contains_all([])` is true |
| Permissions.ToVec | src/files/templates/backend/domain/permissions.rs:212-214 | `to_vec` lists every member exactly once, in some order |
| Permissions.ToStrings | src/files/templates/backend/domain/permissions.rs:217-219 | one string per member, each printing a member, and every member printed |
| Permissions.SuperAdminGrantsEverything | src/files/templates/backend/domain/permissions.rs:240-242 | the super-admin set is `{All}` and grants every permission |
| Permissions.AdminPermissionCount | src/files/templates/backend/domain/permissions.rs:245-260 | the admin set has 12 members |
| Permissions.AdminPermissionGaps | src/files/templates/backend/domain/permissions.rs:245-260 | the admin set lacks `All`, `AdminDelete` and `UserProfile`, and does not grant `AdminDelete` |
| Permissions.AdminReadonlyWithinAdmin | src/files/templates/backend/domain/permissions.rs:268-276 | the read-only admin set is a subset of the admin set, and grants nothing the admin set does not |
| Permissions.UserPermissionFacts | src/files/templates/backend/domain/permissions.rs:263-265 | the user set is `{UserProfile, UserRead}` and does not grant `UserWrite` |
| PermissionService.HasPermission | src/files/templates/backend/control/services/permission_service.rs:26-68 | a database error is 500; a missing user is 404; no role or a missing role row gives `false`; otherwise `true` exactly when the role's list holds `"*"` or a string that parses to the permission |
| PermissionService.HasAnyPermission | src/files/templates/backend/control/services/permission_service.rs:72-117 | as written: with a role the answer is whether the role's list is non-empty, whatever was asked |
| PermissionService.HasAllPermissions | src/files/templates/backend/control/services/permission_service.rs:121-166 | as written: with a role the answer is `true`, whatever was asked |
| PermissionService.HasAnyPermissionIntended | src/files/templates/backend/control/services/permission_service.rs:72-117 | corrected: `true` exactly when some requested permission passes `has_permission` |
| PermissionService.HasAllPermissionsIntended | src/files/templates/backend/control/services/permission_service.rs:121-166 | corrected: `true` exactly when the user has a role and every requested permission passes `has_permission` |
| PermissionService.MultiChecksIgnoreRequest | src/files/templates/backend/control/services/permission_service.rs:75-110 | for a role granting only `user:read`, both checks as written approve `system:database`; `has_permission` and the corrected checks refuse it |
| PermissionService.GetUserPermissions | src/files/templates/backend/control/services/permission_service.rs:170-209 | same errors as `has_permission`; no role gives the empty set; otherwise the parses of the role's strings |
| PermissionService.HasPermissionViaUserPermissions | src/files/templates/backend/control/services/permission_service.rs:26-68 | `has_permission(p)` agrees with `get_user_permissions().contains(p)`, errors included |
| PermissionService.FromStringInjective | src/files/templates/backend/domain/permissions.rs:69-92 | two strings parse to the same permission only when they are equal |
| PermissionService.GetAllPermissions | src/files/templates/backend/control/services/permission_service.rs:213-235 | 19 permissions, no `Custom`, and every non-custom permission among them |
| PermissionService.AllPermissionsDistinct | src/files/templates/backend/control/services/permission_service.rs:213-235 | each permission appears once |
| PermissionService.PermissionsByCategoryKeys | src/files/templates/backend/control/services/permission_service.rs:239-251 | the grouping has exactly the keys "super", "admin", "user" and "system" |
| PermissionService.PermissionsByCategory | src/files/templates/backend/control/services/permission_service.rs:239-251 | the groups hold `[All]`, the 9 admin, the 5 user and the 4 system permissions, in catalogue order |
| PermissionService.GroupEntries | src/files/templates/backend/control/services/permission_service.rs:242-248 | after the loop, a category's entry is the subsequence of permissions in that category, in order |
| PermissionService.ValidatePermissionStrings | src/files/templates/backend/control/services/permission_service.rs:255-265 | every input is accepted and returned unchanged, in order, because any string parses |
| PermissionService.IsValidPermission | src/files/templates/backend/control/services/permission_service.rs:269-277 | `true` exactly for a reserved name or a string containing ':' |
| PermissionService.ValidityOfPrintedPermissions | src/files/templates/backend/control/services/permission_service.rs:269-277 | the printed name of every named permission is valid |
| Validation.ValidateEmail | src/files/templates/backend/domain/validation.rs:5-22 | empty gives 400 "Email is required"; otherwise `Ok` exactly when it contains '@' and '.', anywhere; else 400 "Invalid email format" |
| Validation.EmailCheckIgnoresOrder | src/files/templates/backend/domain/validation.rs:14-21 | rearranging the characters of an address never changes the result |
| Validation.EmailCheckExamples | src/files/templates/backend/domain/validation.rs:14-21 | every `local@domain.tld` passes, ".@" passes, "user.example.com" fails |
| Validation.ValidatePassword | src/files/templates/backend/domain/validation.rs:25-41 | empty gives "Password is required"; `Ok` exactly when the UTF-8 byte length is at least 6; else "Password must be at least 6 characters" |
| Validation.PasswordLengthIsBytes | src/files/templates/backend/domain/validation.rs:32 | for ASCII the limit is 6 characters; any 6 characters pass; three two-byte letters already pass |
| Validation.ValidateRegistrationInput | src/files/templates/backend/domain/validation.rs:44-48 | `Ok` exactly when both checks pass; the email error comes first |
| Validation.ValidateLoginInput | src/files/templates/backend/domain/validation.rs:51-55 | `Ok` exactly when both checks pass; the email error comes first |
| Validation.LoginMatchesRegistration | src/files/templates/backend/domain/validation.rs:44-55 | login and registration validation agree on every input |
| AdminService.PageOffset | src/files/templates/backend/control/services/admin_service.rs:183 | `(page-1)*limit` is defined exactly when `page >= 1` and the product fits in a u64, and it is the start of page `page` |
| AdminService.PageWindowsTile | src/files/templates/backend/control/services/admin_service.rs:183 | record `i` lies in page `page`'s window exactly when `page == i/limit + 1`, so pages tile the records |
| AdminService.TotalPages | src/files/templates/backend/control/services/admin_service.rs:229 | `(total+limit-1)/limit` is defined exactly when `limit >= 1` and `total + limit` fits in a u64, because that sum is formed before the `- 1`; the value is the ceiling of `total/limit` |
| AdminService.TotalPagesAtLimit | src/files/templates/backend/control/services/admin_service.rs:229 | one record with the largest u64 limit overflows the sum and panics, while zero records give 0 pages |
| AdminService.TotalPagesMatchesOffsets | src/files/templates/backend/control/services/admin_service.rs:183-229 | every page up to `total_pages` starts before `total`, and the page after it starts at or past `total` |
| AdminService.DeleteUser | src/files/templates/backend/control/services/admin_service.rs:310-323 | deleting yourself is 400 "Cannot delete your own account" with the store untouched; anything else is the user service's deletion |
| AdminService.ListTables | src/files/templates/backend/control/services/admin_service.rs:343-399 | every error of the per-row loop is a 500, and a listing has at most one entry per row |
| AdminService.ListTablesError | src/files/templates/backend/control/services/admin_service.rs:343-369 | the listing fails exactly when some row fails, either with an unreadable name or with a user table whose `COUNT(*)` query fails; the error is that of the first such row, "Failed to parse table name" or "Database error: …" |
| AdminService.ListTablesListing | src/files/templates/backend/control/services/admin_service.rs:343-399 | a successful listing is the user tables in `ORDER BY name` order, one entry per such row, each with the count its query returned or 0 |
| AdminService.ListTablesNames | src/files/templates/backend/control/services/admin_service.rs:345-356 | the listed names are exactly the readable names that do not start with `sqlite_`, `_sqlx_` or `seaql_` |
| AdminService.CountFailureStopsListing | src/files/templates/backend/control/services/admin_service.rs:358-369 | a table whose count query fails, such as one named `a"b`, stops the listing with a database error |
| AdminService.GetDatabaseTables | src/files/templates/backend/control/services/admin_service.rs:327-400 | a failing listing query is a database error, after which the per-row listing decides; no listed table is a system table, and every error is a 500 |
| AdminService.SystemTableExamples | src/files/templates/backend/control/services/admin_service.rs:351-356 | `sqlite_sequence`, `_sqlx_migrations` and `seaql_migrations` are system tables, and `users` is not |
| AdminService.CreateRole | src/files/templates/backend/control/services/admin_service.rs:672-720 | a taken name is 409 with nothing written; the call succeeds exactly when the database answers and the name is free; success adds exactly the new row and keeps every other row |
| AdminService.UpdateRole | src/files/templates/backend/control/services/admin_service.rs:724-802 | a missing role is 404; a name held by another role is 409; the call succeeds exactly when the database answers, the role exists and any new name is free; success changes only that row and only the given fields, and stamps `updated_at` |
| AdminService.DeleteRole | src/files/templates/backend/control/services/admin_service.rs:805-846 | a missing role is 404; a role some user holds is 409; the call succeeds exactly when the database answers, the role exists and no user holds it; success removes exactly that row |
| AdminService.RoleWritesKeepNamesUnique | src/files/templates/backend/control/services/admin_service.rs:686-691 | the three role writes keep role names unique |
| AdminService.DeleteRoleKeepsReferences | src/files/templates/backend/control/services/admin_service.rs:829-834 | deletion never leaves a user pointing at a missing role |
| AdminService.CheckPermission | src/files/templates/backend/control/services/admin_service.rs:849-894 | a malformed id is 400; with a role, `has_permission` holds exactly when the role's list holds `"*"` or the exact requested string; without one it is `false` with no role |
| AdminService.CheckPermissionAgreesWithService | src/files/templates/backend/control/services/admin_service.rs:853-894 | the admin check agrees with `PermissionService::has_permission` on the parsed permission |
| TokenService.HeaderText | src/files/templates/backend/control/services/token_service.rs:68 | a header reads as text exactly when every byte is visible ASCII or tab |
| TokenService.ExtractTokenFromHeader | src/files/templates/backend/control/services/token_service.rs:62-80 | absent or non-text header gives 401 "Missing Authorization header"; no exact "Bearer " prefix gives 401 "Invalid Authorization header format"; otherwise "Bearer " + token is the header |
| TokenService.ExtractTokenRoundTrip | src/files/templates/backend/control/services/token_service.rs:74-79 | a header built as "Bearer " + token gives the token back, unaltered |
| TokenService.ExtractTokenExamples | src/files/templates/backend/control/services/token_service.rs:199-222 | a missing header, the lower-case "bearer", a prefix without its space, and a non-ASCII byte are all refused |
| TokenService.ValidateTokenClaims | src/files/templates/backend/control/services/token_service.rs:121-148 | an undecodable token is "Invalid token"; claims with `exp < now` are "Token expired"; otherwise the claims |
| TokenService.ValidateToken | src/files/templates/backend/control/services/token_service.rs:84-117 | the claims checks, then `sub` must parse, and valid claims whose `sub` does not parse give 401 "Invalid user ID in token"; the result is the parsed `sub`; every error is 401 |
| TokenService.ExpiryIsMonotone | src/files/templates/backend/control/services/token_service.rs:103-108 | a token valid now was valid at every earlier time, and it is accepted in its `exp` second |
| TokenService.ExtractAndValidateToken | src/files/templates/backend/control/services/token_service.rs:21-31 | header extraction then token validation, stopping at the first error; every error is 401 |
| TokenService.ExtractAndValidateTokenWithSession | src/files/templates/backend/control/services/token_service.rs:35-58 | `Ok` exactly when the claims are valid, both ids parse and the session is accepted; the result is the two parsed ids |
| TokenService.SessionCheckRefinesTokenCheck | src/files/templates/backend/control/services/token_service.rs:35-58 | when the session check succeeds, `validate_token` yields the same user id |
| Email.FromStr | src/files/templates/backend/infrastructure/email.rs:44-50 | parsing a service type never fails and always gives SMTP |
| Email.ServiceTypeSupported | src/files/templates/backend/infrastructure/email.rs:127-132 | every configured service type passes the transport's "smtp" check |
| Email.GetEmailTemplate | src/files/templates/backend/infrastructure/email.rs:307-331 | `Ok` exactly for the four names, all plain text; otherwise "Unknown email template: " followed by the name |
| Email.ApplyVariables | src/files/templates/backend/infrastructure/email.rs:294-299 | content holding none of the keys' placeholders comes back unchanged |
| Email.ProcessTemplateVariables | src/files/templates/backend/infrastructure/email.rs:289-303 | `None`, an empty map, or a map none of whose placeholders occur leave the content unchanged |
| Email.SingleVariable | src/files/templates/backend/infrastructure/email.rs:294-299 | with one variable, every occurrence of `{{key}}` is replaced: the content split at the placeholder and joined with the value |
| Email.SendEmail | src/files/templates/backend/infrastructure/email.rs:180-219 | without variables, subject and body are delivered as the template has them |
| Email.SendTemplateEmail | src/files/templates/backend/infrastructure/email.rs:159-176 | an unknown template gives `Failed("Template error: Unknown email template: <name>")`; a known one is sent |
| Email.UnknownTemplateNeverDelivers | src/files/templates/backend/infrastructure/email.rs:166-172 | for an unknown template the result does not depend on the transport |
| Email.NotificationOrder | src/files/templates/backend/infrastructure/email.rs:480-482 | both iteration orders of the two-key map list each key once |
| Email.SendNotificationEmail | src/files/templates/backend/infrastructure/email.rs:473-486 | the delivered subject and body are exactly the given subject and message, unless one quotes the other's placeholder |
| Email.NotificationFills | src/files/templates/backend/infrastructure/email.rs:324-328 | for either iteration order the notification template yields the subject and the message |
| Email.NotificationDependsOnOrder | src/files/templates/backend/infrastructure/email.rs:294-299 | a subject reading `{{message}}` becomes the message when the subject key comes first and stays `{{message}}` when the message key comes first |
| SystemMonitor.UptimeParts | src/files/templates/backend/control/services/system_monitor.rs:236-238 | hours < 24, minutes < 60, and days, hours and minutes account for the seconds up to less than a minute |
| SystemMonitor.PartsFromMinutes | src/files/templates/backend/control/services/system_monitor.rs:236-238 | the three quotients are the split of the whole minutes into days and hours |
| SystemMonitor.Render | src/files/templates/backend/control/services/system_monitor.rs:240-246 | a 'd' appears exactly when there are days, an 'h' exactly when there are days or hours, and the text ends in 'm' |
| SystemMonitor.FormatUptime | src/files/templates/backend/control/services/system_monitor.rs:235-247 | a 'd' appears exactly from one day up, an 'h' exactly from one hour up, and the text ends in 'm' |
| SystemMonitor.RenderInjective | src/files/templates/backend/control/services/system_monitor.rs:240-246 | the text determines the days, hours and minutes |
| SystemMonitor.FormatUptimeInjective | src/files/templates/backend/control/services/system_monitor.rs:235-247 | two uptimes print the same exactly when they agree in whole minutes |
| SystemMonitor.UnderAMinute | src/files/templates/backend/control/services/system_monitor.rs:244-245 | anything under a minute prints "0m" |
| SystemMonitor.FormatUptimeExamples | src/files/templates/backend/control/services/system_monitor.rs:329-334 | 3661 prints "1h 1m", 86400 prints "1d 0h 0m", 3600 prints "1h 0m", 120 prints "2m" |
| BuildScript.ParseEnvLine | src/files/templates/build.rs:15-21 | an assignment needs a '='; the key has no '='; key and value are trimmed; a trimmed line starting with '#' is skipped |
| BuildScript.EnvLineRoundTrip | src/files/templates/build.rs:15-21 | a line `key=value` reads back as that pair, even when the value holds further '=' |
| BuildScript.CommentLineSkipped | src/files/templates/build.rs:16-17 | a line starting with '#' sets nothing |
| BuildScript.BlankLineSkipped | src/files/templates/build.rs:16-18 | a blank line, or one without '=', sets nothing |
| BuildScript.LastAssignment | src/files/templates/build.rs:15-26 | reference reading: the value of the last line that sets the key, if any |
| BuildScript.ApplyAssignments | src/files/templates/build.rs:15-26 | every key the file sets ends up with its last value; every other key keeps its inherited value; the load fails exactly when some assignment would make `set_var` panic (empty key, or a NUL in key or value) |
| BuildScript.LoadDotEnv | src/files/templates/build.rs:14-27 | a missing `.env` changes nothing; otherwise the file's lines are applied in order |
| BuildScript.LaterAssignmentWins | src/files/templates/build.rs:15-26 | of two assignments to one key, the later one wins over the earlier and over the environment |
| BuildScript.LastLineWins | src/files/templates/build.rs:15-26 | two lines setting the same key leave the second value |
| BuildScript.SkippedLinesSetNothing | src/files/templates/build.rs:15-26 | a file of skipped lines leaves the environment as it was |
| BuildScript.FrontendDecision | src/files/templates/build.rs:30-42 | the frontend is built exactly when `ENVIRONMENT` is "production" or `BUILD_FRONTEND` is "true"; with neither set there is no build |
| Text.ReplaceIsSplitJoin | src/files/mod.rs:404 | `str::replace` equals split at the pattern and join with the replacement |
| Text.ReplaceBySelf | src/files/mod.rs:404 | replacing a pattern by itself changes nothing |
| Text.Trim | src/files/templates/build.rs:15 | `trim` cuts only whitespace, and the result has none at either end |
| Text.TrimTrimmed | src/files/templates/build.rs:19-20 | trimming is idempotent |
| Text.SplitOnce | src/files/templates/build.rs:18 | `split_once` is `None` exactly when the character is absent; otherwise the text around its first occurrence |
| Text.NatToStringRoundTrip | src/files/templates/backend/control/services/system_monitor.rs:240-246 | reading back the decimal digits of a number gives the number |

## Findings

| source | as written | input that shows it | evidently intended | confidence | as-written member | corrected member |
|---|---|---|---|---|---|---|
| src/files/templates/backend/control/services/permission_service.rs:72-117 | `has_any_permission` never reads its `_permissions` argument; it tests the role's own parsed list against the role's own set | a user whose role lists only `"user:read"`, asked about `[SystemDatabase]`, gets `Ok(true)` | `Ok(true)` exactly when some requested permission is granted | high (not executed) | PermissionService.HasAnyPermission, PermissionService.MultiChecksIgnoreRequest | PermissionService.HasAnyPermissionIntended |
| src/files/templates/backend/control/services/permission_service.rs:121-166 | `has_all_permissions` never reads its `_permissions` argument, so every user whose role row exists passes | the same user, asked about `[SystemDatabase]`, gets `Ok(true)` | `Ok(true)` exactly when every requested permission is granted | high (not executed) | PermissionService.HasAllPermissions, PermissionService.MultiChecksIgnoreRequest | PermissionService.HasAllPermissionsIntended |

## Left out

- Project teardown ("destroy"): its implementation is not part of this model; only its error variants appear in `src/error.rs`.
- `load_template_content` (`src/files/mod.rs:210-400`): template bodies are `include_str!` text, a parameter `templates` here.
- Real I/O. `create_dir_all`, `write` and `exists` act on the `Fs` value. Failures the filesystem state does not explain come from `Faults`.
- Real I/O: a path's display text in `FileWrite` messages is its components joined by '/'. A root-level row keeps its `.` component (`base/./rext.toml`), as `Path::join` does. Platform-specific display, such as '\\' separators or lossy non-UTF-8 names, is not modelled.
- The server in `src/lib.rs`, the handlers, routes, middleware, database plumbing, websocket, job queue and scheduler.
- The database: a `Db` snapshot with one optional fault. A driver error on the second query of a request is the same as on the first, because every lookup fails with the same fault.
- JWT decoding, the clock, UUID parsing and the session service are parameters.
- TokenService.ValidateTokenClaims: `decode` does not see the clock. The JWT library's own expiry check (with its leeway) happens inside `decode`, so the model states the explicit `exp < now` rule only.
- SMTP: building and sending the message (`email.rs:180-283`), `create_transport`'s relay set-up and `EmailConfig::from_env` are the parameter `deliver` or are not modelled. Only the "smtp" check of `create_transport` is kept.
- The convenience senders `send_welcome_email`, `send_password_reset_email` and `send_verification_email` are not modelled separately. Each is `SendTemplateEmail` with a fixed template name and variable map.
- `test_connection` is left out: it is `SendEmail` of a fixed template without variables.
- Email.ProcessTemplateVariables: results are stated only for content without the placeholders, for one variable, and for the notification template. With several variables, `HashMap` order decides the outcome when a value contains another key's placeholder, as `NotificationDependsOnOrder` shows.
- `format_bytes`, the usage percentages, `get_health_status`, and the f64 `ceil` page count in `get_roles` (`admin_service.rs:631`) are floating point.
- AdminService.PageOffset: models debug-build checked arithmetic, where overflow is a panic (`None`). A release build would wrap modulo 2^64 instead.
- AdminService.TotalPages: models debug-build checked arithmetic, where overflow is a panic (`None`). A release build would wrap modulo 2^64 instead.
- AdminService.CreateRole: the id the database assigns is a parameter and must be fresh. The database guarantees this.
- `get_user`, `create_user`, `update_user`, `get_audit_logs`, `get_table_records`, `get_health_status`, `user_can_perform_action` and the session listing in `admin_service.rs` are database plumbing without their own decisions.
- `authenticate_admin` in `admin_service.rs` is left out: its only logic is a lookup and password verification, which are foreign calls.
- The "Invalid permissions format" error of `create_role` and `update_role` cannot occur, because serialising a list of strings to JSON does not fail. It is not modelled.
- `Permission::description` is left out: it is display text without decisions.
- `str::lines` differs from splitting at '\n' only by dropping a trailing '\r' and a final empty line. Both disappear in the trim and the emptiness check, so the model splits at '\n'.
- `env::set_var` panics on an empty key or a NUL character. The model turns this into a failed load (`None`); it does not model the other platform-specific error.
- The npm, `which` and copy steps of `build_frontend` in `build.rs` are process and filesystem calls; only the decision to build is modelled.
- Text.NatToStringRoundTrip: `u64` values are modelled as unbounded naturals. `format_uptime` never overflows, so the width does not matter there.

=== FILE: admin_service.dfy ===
// The decisions of the generated backend's admin service: pagination
// arithmetic on u64, the self-delete guard, the system-table filter of the
// table browser, the role store guards and the permission check.

module AdminService {
  import opened Basics
  import opened Text
  import opened Permissions
  import opened PermissionService

  // ---------------------------------------------------------------------
  // Pagination (u64 arithmetic; overflow panics, modelled as None)
  // ---------------------------------------------------------------------

  const U64_LIMIT: nat := 0x1_0000_0000_0000_0000

  type U64 = x: nat | x < U64_LIMIT

  /** `(page - 1) * limit`, as the listing handlers compute the offset.
      `None` is the arithmetic panic: page 0 underflows, a huge product
      overflows. */
  function PageOffset(page: U64, limit: U64): (r: Option<U64>)
    ensures r.Some? <==> page >= 1 && (page - 1) * limit < U64_LIMIT
    ensures r.Some? && limit > 0 ==> r.value % limit == 0 && r.value / limit == page - 1
  {
    if page == 0 then None
    else if (page - 1) * limit >= U64_LIMIT then None
    else
      if limit > 0 then
        DivWindow((page - 1) * limit, page - 1, limit);
        Some((page - 1) * limit)
      else Some((page - 1) * limit)
  }

  /** With a positive limit the page windows tile the records: record `i`
      lies in the window of page `i / limit + 1` and no other. */
  lemma PageWindowsTile(i: nat, page: U64, limit: U64)
    requires limit > 0 && PageOffset(page, limit).Some?
    ensures PageOffset(page, limit).value <= i < PageOffset(page, limit).value + limit <==> page == i / limit + 1
  {
    var o := PageOffset(page, limit).value;
    assert o == (page - 1) * limit;
    if o <= i < o + limit {
      DivWindow(i, page - 1, limit);
    }
    if page == i / limit + 1 {
      assert o == (i / limit) * limit;
    }
  }

  lemma DivWindow(i: nat, q: nat, limit: nat)
    requires limit > 0 && q * limit <= i < q * limit + limit
    ensures i / limit == q
  {
    var d := i / limit;
    assert i == d * limit + i % limit;
    var e: int := d - q;
    assert e * limit == d * limit - q * limit;
    assert -(limit as int) < e * limit < limit;
  }

  /** `(total + limit - 1) / limit`, the page count the listing handlers
      report. Evaluated left to right, `total + limit` is formed before
      the `- 1`, so that sum alone must fit in a u64. `None` is the
      arithmetic panic: the sum overflows, or a zero limit divides by zero
      (or underflows when `total` is 0). The result is the ceiling of
      `total / limit`. */
  function TotalPages(total: U64, limit: U64): (r: Option<U64>)
    ensures r.Some? <==> limit >= 1 && total + limit < U64_LIMIT
    ensures r.Some? ==> r.value * limit >= total
    ensures r.Some? && total > 0 ==> (r.value - 1) * limit < total
    ensures r.Some? && total == 0 ==> r.value == 0
  {
    if total + limit >= U64_LIMIT || limit == 0 then None
    else
      CeilingDivision(total, limit);
      Some((total + limit - 1) / limit)
  }

  /** At the top of the u64 range the sum `total + limit` is what
      overflows: one record with the largest limit panics, none does not. */
  lemma TotalPagesAtLimit()
    ensures TotalPages(1, U64_LIMIT - 1) == None
    ensures TotalPages(0, U64_LIMIT - 1) == Some(0)
    ensures TotalPages(U64_LIMIT - 2, 1) == Some(U64_LIMIT - 2)
  {
  }

  /** `(total + limit - 1) / limit` is the least page count whose pages
      hold `total` records. */
  lemma CeilingDivision(total: nat, limit: nat)
    requires limit > 0
    ensures ((total + limit - 1) / limit) * limit >= total
    ensures total > 0 ==> ((total + limit - 1) / limit - 1) * limit < total
    ensures total == 0 ==> (total + limit - 1) / limit == 0
  {
    var n := total + limit - 1;
    var q := n / limit;
    var rem := n % limit;
    assert n == q * limit + rem && 0 <= rem < limit;
    assert (q - 1) * limit == q * limit - limit;
    if total == 0 {
      DivWindow(n, 0, limit);
    }
  }

  /** Every reported page holds records and the page after the last is
      empty: pages 1..total_pages start before `total`, page
      total_pages + 1 starts at or after it. */
  lemma TotalPagesMatchesOffsets(total: U64, limit: U64, page: U64)
    requires TotalPages(total, limit).Some?
    requires PageOffset(page, limit).Some?
    ensures 1 <= page <= TotalPages(total, limit).value ==> PageOffset(page, limit).value < total
    ensures page == TotalPages(total, limit).value + 1 ==> PageOffset(page, limit).value >= total
  {
    var t := TotalPages(total, limit).value;
    if 1 <= page <= t {
      assert (page - 1) * limit <= (t - 1) * limit;
    }
  }

  // ---------------------------------------------------------------------
  // Deleting users
  // ---------------------------------------------------------------------

  const CannotDeleteSelf := AppError("Cannot delete your own account", BAD_REQUEST)

  /** `delete_user`: an admin may not delete their own account; any other
      id goes to the user service's delete, passed in as `deleteUser`. */
  function DeleteUser(db: Db, userId: Uuid, currentAdminId: Uuid,
                      deleteUser: (Db, Uuid) -> (Db, Result<(), AppError>)): (r: (Db, Result<(), AppError>))
    ensures userId == currentAdminId ==> r.0 == db && r.1 == Err(CannotDeleteSelf)
    ensures userId != currentAdminId ==> r == deleteUser(db, userId)
  {
    if userId == currentAdminId then (db, Err(CannotDeleteSelf)) else deleteUser(db, userId)
  }

  // ---------------------------------------------------------------------
  // Table browser
  // ---------------------------------------------------------------------

  /** Tables the database engine or the migration tooling owns. */
  predicate IsSystemTable(name: string) {
    StartsWith(name, "sqlite_") || StartsWith(name, "_sqlx_") || StartsWith(name, "seaql_")
  }

  datatype TableInfo = TableInfo(name: string, recordCount: nat)

  const TableNameUnreadable := AppError("Failed to parse table name", INTERNAL_SERVER_ERROR)

  /** The outcome of a table's `SELECT COUNT(*)` query: `Err` when the
      query itself fails, `Ok(None)` when it returns no row or no readable
      count, `Ok(Some(n))` for a count of `n`. */
  type CountQuery = string -> Result<Option<nat>, string>

  /** A listing row stops the listing: its name cannot be read, or it
      names a user table whose count query fails. */
  predicate RowFails(row: Option<string>, countOf: CountQuery) {
    row.None? || (!IsSystemTable(row.value) && countOf(row.value).Err?)
  }

  /** The error a failing row is reported with. */
  function RowError(row: Option<string>, countOf: CountQuery): (e: AppError)
    requires RowFails(row, countOf)
    ensures e.status == INTERNAL_SERVER_ERROR
  {
    if row.None? then TableNameUnreadable else DatabaseError(countOf(row.value).error)
  }

  /** A listed table carries the count its query returned, or 0 when the
      query returned no readable count; its query did not fail. */
  predicate Counted(t: TableInfo, countOf: CountQuery) {
    countOf(t.name).Ok? && t.recordCount == countOf(t.name).value.GetOr(0)
  }

  /** The user tables among the listing rows, in listing order. */
  function UserTables(rows: seq<Option<string>>): (names: seq<string>)
    ensures |names| <= |rows|
    ensures forall i :: 0 <= i < |names| ==> !IsSystemTable(names[i])
  {
    if |rows| == 0 then []
    else if rows[0].Some? && !IsSystemTable(rows[0].value) then [rows[0].value] + UserTables(rows[1..])
    else UserTables(rows[1..])
  }

  /** The rows of the table listing in `ORDER BY name` order (`None` for a
      row whose name column cannot be read), and the count query of each
      table. Rows are handled in order and the first failing row stops the
      listing; otherwise every user table appears once, in listing order,
      with its count or 0. */
  function ListTables(rows: seq<Option<string>>, countOf: CountQuery): (r: Result<seq<TableInfo>, AppError>)
    ensures r.Ok? ==> |r.value| <= |rows|
    ensures r.Err? ==> r.error.status == INTERNAL_SERVER_ERROR
    decreases |rows|
  {
    if |rows| == 0 then Ok([])
    else if RowFails(rows[0], countOf) then Err(RowError(rows[0], countOf))
    else
      var rest := ListTables(rows[1..], countOf);
      if rest.Err? then rest
      else
        var n := rows[0].value;
        if IsSystemTable(n) then rest
        else Ok([TableInfo(n, countOf(n).value.GetOr(0))] + rest.value)
  }

  /** A successful listing is the user tables in listing order, each with
      the count its query returned. */
  lemma {:induction false} ListTablesListing(rows: seq<Option<string>>, countOf: CountQuery)
    requires ListTables(rows, countOf).Ok?
    ensures |ListTables(rows, countOf).value| == |UserTables(rows)|
    ensures forall i :: 0 <= i < |UserTables(rows)| ==> ListTables(rows, countOf).value[i].name == UserTables(rows)[i]
    ensures forall i :: 0 <= i < |UserTables(rows)| ==> Counted(ListTables(rows, countOf).value[i], countOf)
    decreases |rows|
  {
    if |rows| > 0 {
      ListTablesListing(rows[1..], countOf);
      var rest := ListTables(rows[1..], countOf).value;
      var n := rows[0].value;
      if !IsSystemTable(n) {
        var v := ListTables(rows, countOf).value;
        assert v == [TableInfo(n, countOf(n).value.GetOr(0))] + rest;
        assert UserTables(rows) == [n] + UserTables(rows[1..]);
        assert Counted(v[0], countOf);
        assert forall i :: 0 <= i < |rest| ==> v[i + 1] == rest[i];
      }
    }
  }

  /** The listing fails exactly when some row fails, and then with the
      error of the first failing row. */
  lemma {:induction false} ListTablesError(rows: seq<Option<string>>, countOf: CountQuery)
    ensures ListTables(rows, countOf).Err? <==> exists i :: 0 <= i < |rows| && RowFails(rows[i], countOf)
    ensures ListTables(rows, countOf).Err? ==>
      exists i :: FirstFailure(rows, countOf, i) && ListTables(rows, countOf).error == RowError(rows[i], countOf)
    decreases |rows|
  {
    if |rows| > 0 && !RowFails(rows[0], countOf) {
      ListTablesError(rows[1..], countOf);
      if exists i :: 0 <= i < |rows| && RowFails(rows[i], countOf) {
        var i :| 0 <= i < |rows| && RowFails(rows[i], countOf);
        assert rows[1..][i - 1] == rows[i];
      }
      if ListTables(rows, countOf).Err? {
        var i :| FirstFailure(rows[1..], countOf, i) && ListTables(rows[1..], countOf).error == RowError(rows[1..][i], countOf);
        assert FirstFailure(rows, countOf, i + 1) by {
          forall j | 0 <= j < i + 1
            ensures !RowFails(rows[j], countOf)
          {
            if j > 0 { assert rows[j] == rows[1..][j - 1]; }
          }
        }
      }
    } else if |rows| > 0 {
      assert FirstFailure(rows, countOf, 0);
    }
  }

  /** Row `i` is the first row that fails. */
  predicate FirstFailure(rows: seq<Option<string>>, countOf: CountQuery, i: int) {
    0 <= i < |rows| && RowFails(rows[i], countOf) && forall j :: 0 <= j < i ==> !RowFails(rows[j], countOf)
  }

  /** The user tables are the readable names that are not system tables. */
  lemma {:induction false} UserTablesMembers(rows: seq<Option<string>>)
    ensures forall n :: n in UserTables(rows) <==> Some(n) in rows && !IsSystemTable(n)
    decreases |rows|
  {
    if |rows| > 0 {
      UserTablesMembers(rows[1..]);
      assert forall x :: x in rows <==> x == rows[0] || x in rows[1..];
    }
  }

  /** A successful listing names exactly the user tables among the rows. */
  lemma ListTablesNames(rows: seq<Option<string>>, countOf: CountQuery)
    requires ListTables(rows, countOf).Ok?
    ensures forall n :: (exists i :: 0 <= i < |ListTables(rows, countOf).value| && ListTables(rows, countOf).value[i].name == n) <==>
      (Some(n) in rows && !IsSystemTable(n))
  {
    var v := ListTables(rows, countOf).value;
    var names := UserTables(rows);
    ListTablesListing(rows, countOf);
    UserTablesMembers(rows);
    forall n
      ensures (exists i :: 0 <= i < |v| && v[i].name == n) <==> n in names
    {
      if n in names {
        var i :| 0 <= i < |names| && names[i] == n;
        assert v[i].name == n;
      }
    }
  }

  /** A user table whose count query fails stops the listing with a
      database error, even when later tables could be counted. */
  lemma CountFailureStopsListing(msg: string)
    ensures ListTables([Some("a\"b"), Some("users")],
                       n => if n == "a\"b" then Err(msg) else Ok(Some(3))) == Err(DatabaseError(msg))
  {
    var countOf: CountQuery := n => if n == "a\"b" then Err(msg) else Ok(Some(3));
    assert !IsSystemTable("a\"b") by {
      assert "a\"b"[0] != "sqlite_"[0] && "a\"b"[0] != "_sqlx_"[0] && "a\"b"[0] != "seaql_"[0];
    }
    assert RowFails(Some("a\"b"), countOf);
  }

  /** `get_database_tables`: a failed listing query is a database error;
      otherwise the listing without system tables. */
  function GetDatabaseTables(fault: Option<string>, rows: seq<Option<string>>,
                             countOf: CountQuery): (r: Result<seq<TableInfo>, AppError>)
    ensures fault.Some? ==> r == Err(DatabaseError(fault.value))
    ensures fault.None? ==> r == ListTables(rows, countOf)
    ensures r.Ok? ==> forall i :: 0 <= i < |r.value| ==> !IsSystemTable(r.value[i].name)
    ensures r.Err? ==> r.error.status == INTERNAL_SERVER_ERROR
  {
    if fault.Some? then Err(DatabaseError(fault.value))
    else
      var listing := ListTables(rows, countOf);
      if listing.Ok? then ListTablesListing(rows, countOf); listing else listing
  }

  /** The migration bookkeeping table is hidden, the users table is not. */
  lemma SystemTableExamples()
    ensures IsSystemTable("seaql_migrations")
    ensures IsSystemTable("sqlite_sequence")
    ensures IsSystemTable("_sqlx_migrations")
    ensures !IsSystemTable("users")
  {
    assert "seaql_migrations"[..6] == "seaql_";
    assert "sqlite_sequence"[..7] == "sqlite_";
    assert "_sqlx_migrations"[..6] == "_sqlx_";
    assert "users"[0] != "sqlite_"[0] && "users"[0] != "_sqlx_"[0] && "users"[0] != "seaql_"[0];
  }

  // ---------------------------------------------------------------------
  // The role store
  // ---------------------------------------------------------------------

  const RoleNotFound := AppError("Role not found", NOT_FOUND)
  const RoleNameTaken := AppError("Role name already exists", CONFLICT)
  const RoleInUse := AppError("Cannot delete role: it is assigned to users", CONFLICT)

  /** Some role other than `except` is called `name`. */
  predicate NameTaken(db: Db, name: string, except: Option<int>) {
    exists id :: id in db.roles && db.roles[id].name == name && Some(id) != except
  }

  /** No two roles share a name. */
  predicate UniqueRoleNames(db: Db) {
    forall a, b :: a in db.roles && b in db.roles && db.roles[a].name == db.roles[b].name ==> a == b
  }

  /** Every user's role id names an existing role. */
  predicate RoleReferencesValid(db: Db) {
    forall u :: u in db.users && db.users[u].roleId.Some? ==> db.users[u].roleId.value in db.roles
  }

  /** `create_role`: refuses a name already in use; otherwise stores the
      role under `newId`, the key the database generates (never one in use),
      with the permissions serialised as a JSON list. */
  function CreateRole(db: Db, name: string, description: Option<string>, permissions: seq<string>,
                      newId: int): (r: (Db, Result<(int, RoleRow), AppError>))
    requires newId !in db.roles
    ensures db.fault.Some? ==> r == (db, Err(DatabaseError(db.fault.value)))
    ensures db.fault.None? && NameTaken(db, name, None) ==> r == (db, Err(RoleNameTaken))
    ensures r.1.Ok? <==> db.fault.None? && !NameTaken(db, name, None)
    ensures r.1.Ok? ==> r.0.users == db.users && r.0.roles.Keys == db.roles.Keys + {newId}
    ensures r.1.Ok? ==> r.1.value.0 == newId && r.0.roles[newId] == r.1.value.1
    ensures r.1.Ok? ==> r.1.value.1.name == name && r.1.value.1.description == description
    ensures r.1.Ok? ==> Decoded(r.1.value.1.permissions) == permissions
    ensures r.1.Ok? ==> forall id :: id in db.roles ==> r.0.roles[id] == db.roles[id]
    ensures r.1.Err? ==> r.0 == db
  {
    if db.fault.Some? then (db, Err(DatabaseError(db.fault.value)))
    else if NameTaken(db, name, None) then (db, Err(RoleNameTaken))
    else
      var row := RoleRow(name, description, JsonList(permissions), None);
      (db.(roles := db.roles[newId := row]), Ok((newId, row)))
  }

  /** `update_role`: the role must exist and a new name must not belong to
      another role; then only the fields given change, and the update time
      is set. */
  function UpdateRole(db: Db, roleId: int, name: Option<string>, description: Option<string>,
                      permissions: Option<seq<string>>, now: int): (r: (Db, Result<RoleRow, AppError>))
    ensures db.fault.Some? ==> r == (db, Err(DatabaseError(db.fault.value)))
    ensures db.fault.None? && roleId !in db.roles ==> r == (db, Err(RoleNotFound))
    ensures db.fault.None? && roleId in db.roles && name.Some? && NameTaken(db, name.value, Some(roleId)) ==>
      r == (db, Err(RoleNameTaken))
    ensures r.1.Ok? <==> (db.fault.None? && roleId in db.roles &&
                          !(name.Some? && NameTaken(db, name.value, Some(roleId))))
    ensures r.1.Ok? ==> roleId in db.roles && r.0.users == db.users && r.0.roles.Keys == db.roles.Keys
    ensures r.1.Ok? ==> forall id :: id in db.roles && id != roleId ==> r.0.roles[id] == db.roles[id]
    ensures r.1.Ok? ==> r.0.roles[roleId] == r.1.value
    ensures r.1.Ok? ==> r.1.value.name == (if name.Some? then name.value else db.roles[roleId].name)
    ensures r.1.Ok? ==> r.1.value.description == (if description.Some? then description else db.roles[roleId].description)
    ensures r.1.Ok? ==> r.1.value.permissions == (if permissions.Some? then JsonList(permissions.value) else db.roles[roleId].permissions)
    ensures r.1.Ok? ==> r.1.value.updatedAt == Some(now)
    ensures r.1.Err? ==> r.0 == db
  {
    if db.fault.Some? then (db, Err(DatabaseError(db.fault.value)))
    else if roleId !in db.roles then (db, Err(RoleNotFound))
    else if name.Some? && NameTaken(db, name.value, Some(roleId)) then (db, Err(RoleNameTaken))
    else
      var prior := db.roles[roleId];
      var row := RoleRow(
        if name.Some? then name.value else prior.name,
        if description.Some? then description else prior.description,
        if permissions.Some? then JsonList(permissions.value) else prior.permissions,
        Some(now));
      (db.(roles := db.roles[roleId := row]), Ok(row))
  }

  /** `delete_role`: the role must exist and no user may hold it. */
  function DeleteRole(db: Db, roleId: int): (r: (Db, Result<(), AppError>))
    ensures db.fault.Some? ==> r == (db, Err(DatabaseError(db.fault.value)))
    ensures db.fault.None? && roleId !in db.roles ==> r == (db, Err(RoleNotFound))
    ensures (db.fault.None? && roleId in db.roles &&
             exists u :: u in db.users && db.users[u].roleId == Some(roleId)) ==> r == (db, Err(RoleInUse))
    ensures r.1.Ok? <==> (db.fault.None? && roleId in db.roles &&
                          forall u :: u in db.users ==> db.users[u].roleId != Some(roleId))
    ensures r.1.Ok? ==> r.0 == db.(roles := db.roles - {roleId}) && roleId in db.roles
    ensures r.1.Err? ==> r.0 == db
  {
    if db.fault.Some? then (db, Err(DatabaseError(db.fault.value)))
    else if roleId !in db.roles then (db, Err(RoleNotFound))
    else if exists u :: u in db.users && db.users[u].roleId == Some(roleId) then (db, Err(RoleInUse))
    else (db.(roles := db.roles - {roleId}), Ok(()))
  }

  /** The guards keep role names unique. */
  lemma RoleWritesKeepNamesUnique(db: Db, roleId: int, newId: int, name: string, newName: Option<string>,
                                  description: Option<string>, permissions: seq<string>,
                                  newPermissions: Option<seq<string>>, now: int)
    requires UniqueRoleNames(db)
    ensures newId !in db.roles ==> UniqueRoleNames(CreateRole(db, name, description, permissions, newId).0)
    ensures UniqueRoleNames(UpdateRole(db, roleId, newName, description, newPermissions, now).0)
    ensures UniqueRoleNames(DeleteRole(db, roleId).0)
  {
    if newId !in db.roles {
      CreateKeepsNamesUnique(db, name, description, permissions, newId);
    }
    UpdateKeepsNamesUnique(db, roleId, newName, description, newPermissions, now);
  }

  lemma CreateKeepsNamesUnique(db: Db, name: string, description: Option<string>, permissions: seq<string>, newId: int)
    requires UniqueRoleNames(db) && newId !in db.roles
    ensures UniqueRoleNames(CreateRole(db, name, description, permissions, newId).0)
  {
    var r := CreateRole(db, name, description, permissions, newId);
    if r.1.Ok? {
      assert forall id :: id in db.roles ==> db.roles[id].name != name;
    }
  }

  lemma UpdateKeepsNamesUnique(db: Db, roleId: int, newName: Option<string>, description: Option<string>,
                               newPermissions: Option<seq<string>>, now: int)
    requires UniqueRoleNames(db)
    ensures UniqueRoleNames(UpdateRole(db, roleId, newName, description, newPermissions, now).0)
  {
    var u := UpdateRole(db, roleId, newName, description, newPermissions, now);
    if u.1.Ok? && newName.Some? {
      assert forall id :: id in db.roles && id != roleId ==> db.roles[id].name != newName.value;
    }
  }


  /** Deleting a role never leaves a user pointing at a missing role. */
  lemma DeleteRoleKeepsReferences(db: Db, roleId: int)
    requires RoleReferencesValid(db)
    ensures RoleReferencesValid(DeleteRole(db, roleId).0)
  {
    var r := DeleteRole(db, roleId);
    if r.1.Ok? {
      forall u | u in r.0.users && r.0.users[u].roleId.Some?
        ensures r.0.users[u].roleId.value in r.0.roles
      {
        assert db.users[u].roleId != Some(roleId);
      }
    }
  }

  // ---------------------------------------------------------------------
  // Permission check
  // ---------------------------------------------------------------------

  datatype PermissionCheck = PermissionCheck(hasPermission: bool, userRole: Option<string>, requiredPermission: string)

  const InvalidUserId := AppError("Invalid user ID", BAD_REQUEST)

  /** `check_permission`: parse the id (`parseUuid` stands for the UUID
      parser), load the user with its role, and grant when the role's list
      holds "*" or exactly the requested string. A user without a role row
      is refused and reported without a role. */
  function CheckPermission(db: Db, userId: string, permission: string,
                           parseUuid: string -> Option<Uuid>): (r: Result<PermissionCheck, AppError>)
    ensures parseUuid(userId).None? ==> r == Err(InvalidUserId)
    ensures parseUuid(userId).Some? && db.fault.Some? ==> r == Err(DatabaseError(db.fault.value))
    ensures parseUuid(userId).Some? && db.fault.None? && parseUuid(userId).value !in db.users ==> r == Err(UserNotFound)
    ensures r.Ok? ==> r.value.requiredPermission == permission
    ensures r.Ok? ==> parseUuid(userId).Some? && parseUuid(userId).value in db.users
    ensures r.Ok? ==> (r.value.userRole.Some? <==> HasRole(db, parseUuid(userId).value))
    ensures r.Ok? && HasRole(db, parseUuid(userId).value) ==>
      r.value.userRole == Some(db.roles[db.users[parseUuid(userId).value].roleId.value].name) &&
      (r.value.hasPermission <==> "*" in RoleStrings(db, parseUuid(userId).value) ||
                                  permission in RoleStrings(db, parseUuid(userId).value))
    ensures r.Ok? && !HasRole(db, parseUuid(userId).value) ==> !r.value.hasPermission
  {
    match parseUuid(userId)
    case None => Err(InvalidUserId)
    case Some(id) =>
      if db.fault.Some? then Err(DatabaseError(db.fault.value))
      else if id !in db.users then Err(UserNotFound)
      else if HasRole(db, id) then
        var role := db.roles[db.users[id].roleId.value];
        var list := Decoded(role.permissions);
        Ok(PermissionCheck("*" in list || permission in list, Some(role.name), permission))
      else Ok(PermissionCheck(false, None, permission))
  }

  /** The admin check on strings agrees with the permission service's check
      on the parsed permission, errors included (the admin check first
      rejects an unparseable id). */
  lemma CheckPermissionAgreesWithService(db: Db, userId: string, permission: string,
                                         parseUuid: string -> Option<Uuid>)
    requires parseUuid(userId).Some?
    ensures CheckPermission(db, userId, permission, parseUuid).Ok? <==>
      HasPermission(db, parseUuid(userId).value, FromString(permission)).Ok?
    ensures CheckPermission(db, userId, permission, parseUuid).Ok? ==>
      CheckPermission(db, userId, permission, parseUuid).value.hasPermission ==
      HasPermission(db, parseUuid(userId).value, FromString(permission)).value
  {
    var id := parseUuid(userId).value;
    if db.fault.None? && HasRole(db, id) {
      var list := RoleStrings(db, id);
      if permission in list {
        var i :| 0 <= i < |list| && list[i] == permission;
        assert FromString(list[i]) == FromString(permission);
      }
      if exists i :: 0 <= i < |list| && FromString(list[i]) == FromString(permission) {
        var i :| 0 <= i < |list| && FromString(list[i]) == FromString(permission);
        FromStringInjective(list[i], permission);
      }
    }
  }
}

=== FILE: basics.dfy ===
/** Shared result types and the HTTP-flavoured application error used by the
    generated backend's services. */
module Basics {

  datatype Option<+T> = None | Some(value: T) {
    function GetOr(default: T): T {
      match this
      case Some(v) => v
      case None => default
    }
  }

  datatype Result<+T, +E> = Ok(value: T) | Err(error: E)

  /** A 128-bit UUID, kept opaque: the model never looks inside one. */
  newtype Uuid = x: int | 0 <= x < 0x1_0000_0000_0000_0000_0000_0000_0000_0000

  /** The HTTP status codes the services report. */
  const BAD_REQUEST: nat := 400
  const UNAUTHORIZED: nat := 401
  const NOT_FOUND: nat := 404
  const CONFLICT: nat := 409
  const INTERNAL_SERVER_ERROR: nat := 500

  /** The backend's error value: a message and the status it is served with. */
  datatype AppError = AppError(message: string, status: nat)
}

=== FILE: build_script.dfy ===
// The generated project's build script: loading `.env` into the process
// environment and deciding whether to build the frontend. Reading the file
// and running npm are outside the model; the file's contents (or its
// absence) are a parameter.

module BuildScript {
  import opened Basics
  import opened Text

  type Env = map<string, string>

  /** One line of `.env` read as an assignment: the line is trimmed; empty
      lines and lines starting with '#' are skipped, as are lines without
      '='; otherwise the key is the trimmed text before the first '=' and
      the value the trimmed text after it. */
  function ParseEnvLine(line: string): (r: Option<(string, string)>)
    ensures r.Some? ==> '=' in line && '=' !in r.value.0
    ensures r.Some? ==> IsTrimmed(r.value.0) && IsTrimmed(r.value.1)
    ensures '=' !in line ==> r.None?
    ensures |Trim(line)| > 0 && Trim(line)[0] == '#' ==> r.None?
  {
    var t := Trim(line);
    TrimContains(line, '=');
    if |t| == 0 || t[0] == '#' then None
    else
      match SplitOnce(t, '=')
      case None => None
      case Some((k, v)) =>
        TrimTrimmed(k);
        TrimTrimmed(v);
        TrimContains(k, '=');
        Some((Trim(k), Trim(v)))
  }

  /** A character of the trim is a character of the text. */
  lemma TrimContains(s: string, c: char)
    ensures c in Trim(s) ==> c in s
  {
    var r := Trim(s);
    var pre, post :| AllWhitespace(pre) && AllWhitespace(post) && s == pre + r + post;
    if c in r {
      var i :| 0 <= i < |r| && r[i] == c;
      assert s[|pre| + i] == c;
    }
  }

  /** A line written as `key=value` reads back as that assignment when the
      key is non-empty, has no '=', does not start with '#', and neither
      part has whitespace at its ends; the value may hold further '='. */
  lemma EnvLineRoundTrip(key: string, value: string)
    requires |key| > 0 && '=' !in key && key[0] != '#'
    requires IsTrimmed(key) && IsTrimmed(value)
    ensures ParseEnvLine(key + "=" + value) == Some((key, value))
  {
    var line := key + "=" + value;
    assert line[0] == key[0];
    assert line[|line| - 1] == if |value| == 0 then '=' else value[|value| - 1];
    assert !IsWhitespace('=');
    TrimTrimmed(line);
    SplitAtFirst(key, '=', value);
    TrimTrimmed(key);
    TrimTrimmed(value);
  }

  /** Splitting at the first `c` recovers the parts when the first part has
      no `c`. */
  lemma {:induction false} SplitAtFirst(a: string, c: char, b: string)
    requires c !in a
    ensures SplitOnce(a + [c] + b, c) == Some((a, b))
    decreases |a|
  {
    var s := a + [c] + b;
    if |a| == 0 {
      assert s == [c] + b;
      assert s[1..] == b;
    } else {
      assert s[0] == a[0];
      assert s[1..] == a[1..] + [c] + b;
      SplitAtFirst(a[1..], c, b);
      assert [a[0]] + a[1..] == a;
    }
  }

  /** What one line does: `None` for a skipped line, otherwise the key
      and value it sets. */
  type Assignment = Option<(string, string)>

  /** Every line of the file read with `ParseEnvLine`. */
  function ParseLines(lines: seq<string>): (asg: seq<Assignment>)
    ensures |asg| == |lines|
    ensures forall i :: 0 <= i < |lines| ==> asg[i] == ParseEnvLine(lines[i])
    decreases |lines|
  {
    if |lines| == 0 then [] else [ParseEnvLine(lines[0])] + ParseLines(lines[1..])
  }

  /** `a` sets `key`. */
  predicate Sets(a: Assignment, key: string) {
    a.Some? && a.value.0 == key
  }

  /** Position `i` is the last one that sets `key`. */
  predicate LastSetAt(asg: seq<Assignment>, key: string, i: int) {
    0 <= i < |asg| && Sets(asg[i], key) && forall j :: i < j < |asg| ==> !Sets(asg[j], key)
  }

  /** Reference reading of a file: the value of the last line that sets
      `key`, if any. */
  function LastAssignment(asg: seq<Assignment>, key: string): (v: Option<string>)
    ensures v.None? <==> forall i :: 0 <= i < |asg| ==> !Sets(asg[i], key)
    ensures v.Some? ==> exists i :: LastSetAt(asg, key, i) && asg[i].value.1 == v.value
    decreases |asg|
  {
    if |asg| == 0 then None
    else
      var last := asg[|asg| - 1];
      if Sets(last, key) then Some(last.value.1)
      else
        var front := asg[..|asg| - 1];
        assert forall i :: 0 <= i < |asg| - 1 ==> front[i] == asg[i];
        var v := LastAssignment(front, key);
        assert forall i :: LastSetAt(front, key, i) ==> LastSetAt(asg, key, i);
        v
  }

  /** The variables the build script sets may make `set_var` panic: an
      empty name, or a NUL in the name or the value, as the standard
      library documents. */
  predicate SetVarPanics(a: Assignment) {
    a.Some? && (|a.value.0| == 0 || '\0' in a.value.0 || '\0' in a.value.1)
  }

  /** `set_var` for every assignment in file order; `None` when one of
      them panics and aborts the build. */
  function ApplyAssignments(env: Env, asg: seq<Assignment>): (r: Option<Env>)
    ensures r.None? <==> exists i :: 0 <= i < |asg| && SetVarPanics(asg[i])
    ensures r.Some? ==> forall key :: LastAssignment(asg, key).Some? ==>
      key in r.value && r.value[key] == LastAssignment(asg, key).value
    ensures r.Some? ==> forall key :: LastAssignment(asg, key).None? ==>
      (key in r.value <==> key in env) && (key in env ==> r.value[key] == env[key])
    decreases |asg|
  {
    if |asg| == 0 then Some(env)
    else
      var front := asg[..|asg| - 1];
      var last := asg[|asg| - 1];
      assert forall i :: 0 <= i < |asg| - 1 ==> front[i] == asg[i];
      match ApplyAssignments(env, front)
      case None => None
      case Some(e) =>
        if last.None? then Some(e)
        else if SetVarPanics(last) then None
        else Some(e[last.value.0 := last.value.1])
  }

  /** The lines of the file, as `str::lines` yields them up to a trailing
      carriage return, which the trim removes anyway. */
  function Lines(contents: string): (lines: seq<string>)
    ensures Join(lines, "\n") == contents
  {
    SplitJoinRoundTrip(contents, "\n");
    Split(contents, "\n")
  }

  /** Loading `.env`: nothing when the file cannot be read, otherwise
      every assignment line in file order. */
  function LoadDotEnv(env: Env, contents: Option<string>): (r: Option<Env>)
    ensures contents.None? ==> r == Some(env)
    ensures contents.Some? ==> r == ApplyAssignments(env, ParseLines(Lines(contents.value)))
  {
    match contents
    case None => Some(env)
    case Some(text) => ApplyAssignments(env, ParseLines(Lines(text)))
  }

  /** A later assignment of the same key wins over an earlier one and
      over the inherited environment. */
  lemma LaterAssignmentWins(env: Env, key: string, first: string, second: string)
    requires !SetVarPanics(Some((key, first))) && !SetVarPanics(Some((key, second)))
    ensures ApplyAssignments(env, [Some((key, first)), Some((key, second))]) == Some(env[key := second])
  {
    var asg := [Some((key, first)), Some((key, second))];
    assert asg[..1] == [Some((key, first))];
    assert asg[..1][..0] == [];
    assert ApplyAssignments(env, asg[..1][..0]) == Some(env);
    assert ApplyAssignments(env, asg[..1]) == Some(env[key := first]);
    assert env[key := first][key := second] == env[key := second];
  }

  /** Two lines that set the same key, such as `key=first` and
      `key=second` (see `EnvLineRoundTrip`): the second value is the one
      set. */
  lemma LastLineWins(env: Env, line1: string, line2: string, key: string, first: string, second: string)
    requires ParseEnvLine(line1) == Some((key, first)) && ParseEnvLine(line2) == Some((key, second))
    requires |key| > 0 && '\0' !in key && '\0' !in first && '\0' !in second
    ensures ApplyAssignments(env, ParseLines([line1, line2])) == Some(env[key := second])
  {
    ParseTwoLines(line1, line2, Some((key, first)), Some((key, second)));
    LaterAssignmentWins(env, key, first, second);
  }

  lemma ParseTwoLines(line1: string, line2: string, a1: Assignment, a2: Assignment)
    requires ParseEnvLine(line1) == a1 && ParseEnvLine(line2) == a2
    ensures ParseLines([line1, line2]) == [a1, a2]
  {
    var ls := [line1, line2];
    assert ls[0] == line1 && ls[1] == line2;
  }

  /** Skipped lines set nothing. */
  lemma SkippedLinesSetNothing(env: Env, asg: seq<Assignment>)
    requires forall i :: 0 <= i < |asg| ==> asg[i].None?
    ensures ApplyAssignments(env, asg) == Some(env)
  {
    forall key
      ensures LastAssignment(asg, key).None?
    {
    }
    var r := ApplyAssignments(env, asg);
    assert r.Some?;
    assert r.value.Keys == env.Keys;
  }

  /** A comment line is skipped, whatever follows the '#'. */
  lemma CommentLineSkipped(text: string)
    ensures ParseEnvLine("#" + text).None?
  {
    var c := "#" + text;
    assert !IsWhitespace('#');
    assert LeadingWhitespace(c) == 0;
    assert TrailingWhitespace(c) < |c|;
    assert c[0..] == c;
  }

  /** A blank line, or one without '=', is skipped. */
  lemma BlankLineSkipped(line: string)
    requires AllWhitespace(line) || '=' !in line
    ensures ParseEnvLine(line).None?
  {
    if AllWhitespace(line) {
      TrimOfWhitespace(line);
    }
  }

  /** Text made of whitespace trims to nothing. */
  lemma TrimOfWhitespace(s: string)
    requires AllWhitespace(s)
    ensures Trim(s) == ""
  {
    assert LeadingWhitespace(s) == |s|;
  }

  // ---------------------------------------------------------------------
  // The frontend build decision
  // ---------------------------------------------------------------------

  const EnvironmentVar := "ENVIRONMENT"
  const BuildFrontendVar := "BUILD_FRONTEND"

  /** `env::var(name).unwrap_or_else(default)`. */
  function VarOr(env: Env, name: string, default: string): (v: string)
    ensures name in env ==> v == env[name]
    ensures name !in env ==> v == default
  {
    if name in env then env[name] else default
  }

  /** The frontend is built in production or on explicit request; an
      unset ENVIRONMENT counts as "development", an unset BUILD_FRONTEND as
      "false". */
  predicate ShouldBuildFrontend(env: Env) {
    VarOr(env, EnvironmentVar, "development") == "production" || VarOr(env, BuildFrontendVar, "false") == "true"
  }

  /** Exactly the two settings trigger the build; with neither variable
      set there is no build. */
  lemma FrontendDecision(env: Env)
    ensures ShouldBuildFrontend(env) <==>
      (EnvironmentVar in env && env[EnvironmentVar] == "production") ||
      (BuildFrontendVar in env && env[BuildFrontendVar] == "true")
    ensures EnvironmentVar !in env && BuildFrontendVar !in env ==> !ShouldBuildFrontend(env)
  {
    assert "development" != "production" by { assert "development"[0] != "production"[0]; }
    assert "false" != "true" by { assert "false"[0] != "true"[0]; }
  }
}

=== FILE: email.dfy ===
// The email service of the generated backend, without its SMTP transport:
// the service type, the built-in templates, `{{key}}` substitution, and the
// template-lookup path of sending. Message building and delivery are one
// parameter, `deliver`.

module Email {
  import opened Basics
  import opened Text

  // ---------------------------------------------------------------------
  // Service type
  // ---------------------------------------------------------------------

  datatype EmailServiceType = SMTP

  /** The `Display` text of a service type (its `Debug` name). */
  function ServiceTypeName(t: EmailServiceType): string {
    match t
    case SMTP => "SMTP"
  }

  /** `EmailServiceType::from_str`: whatever the configured text, the
      service is SMTP. */
  function FromStr(s: string): (r: Result<EmailServiceType, string>)
    ensures r == Ok(SMTP)
  {
    Ok(SMTP)
  }

  /** ASCII lower-casing; every string it is applied to here is ASCII. */
  function LowerAscii(s: string): (r: string)
    ensures |r| == |s|
    ensures forall i :: 0 <= i < |s| ==> ('A' <= s[i] <= 'Z' ==> r[i] as int == s[i] as int + 32)
    ensures forall i :: 0 <= i < |s| ==> (!('A' <= s[i] <= 'Z') ==> r[i] == s[i])
  {
    seq(|s|, i requires 0 <= i < |s| => if 'A' <= s[i] <= 'Z' then (s[i] as int + 32) as char else s[i])
  }

  /** The guard of `create_transport`: the service type, printed and
      lower-cased, must read "smtp". */
  predicate TransportAccepts(t: EmailServiceType) {
    LowerAscii(ServiceTypeName(t)) == "smtp"
  }

  /** Whatever EMAIL_SERVICE_TYPE says, the parsed service type passes the
      transport's check, so the "Unsupported email service type" error
      cannot arise. */
  lemma ServiceTypeSupported(configured: string)
    ensures FromStr(configured).Ok? && TransportAccepts(FromStr(configured).value)
  {
    var l := LowerAscii("SMTP");
    assert l[0] == 's' && l[1] == 'm' && l[2] == 't' && l[3] == 'p';
    assert l == "smtp";
  }

  // ---------------------------------------------------------------------
  // Templates
  // ---------------------------------------------------------------------

  datatype EmailContentType = Text | Html

  datatype EmailTemplate = EmailTemplate(subject: string, body: string, contentType: EmailContentType)

  const UnknownTemplatePrefix := "Unknown email template: "
  const TemplateErrorPrefix := "Template error: "

  lemma Concat3(a: string, b: string, c: string)
    ensures a + (b + c) == a + b + c
  {
  }

  /** The names `get_email_template` knows. */
  const TemplateNames: set<string> := {"welcome", "password_reset", "verification", "notification"}

  const WelcomeTemplate := EmailTemplate(
    "Welcome to {{app_name}}!",
    "Hello {{user_name}},\n\nWelcome to {{app_name}}! We're excited to have you on board.\n\nBest regards,\nThe {{app_name}} Team",
    Text)

  const PasswordResetTemplate := EmailTemplate(
    "Password Reset Request",
    "Hello {{user_name}},\n\nYou have requested a password reset. Click the link below to reset your password:\n\n{{reset_link}}\n\nIf you didn't request this, please ignore this email.\n\nBest regards,\nThe {{app_name}} Team",
    Text)

  const VerificationTemplate := EmailTemplate(
    "Please verify your email address",
    "Hello {{user_name}},\n\nPlease click the link below to verify your email address:\n\n{{verification_link}}\n\nBest regards,\nThe {{app_name}} Team",
    Text)

  const NotificationTemplate := EmailTemplate("{{subject}}", "{{message}}", Text)

  /** `get_email_template`: the four built-in plain-text templates; any
      other name is an error naming it. */
  function GetEmailTemplate(name: string): (r: Result<EmailTemplate, string>)
    ensures r.Ok? <==> name in TemplateNames
    ensures r.Ok? ==> r.value.contentType == Text
    ensures r.Err? ==> r.error == UnknownTemplatePrefix + name
    ensures name == "notification" ==> r == Ok(NotificationTemplate)
  {
    if name == "welcome" then Ok(WelcomeTemplate)
    else if name == "password_reset" then Ok(PasswordResetTemplate)
    else if name == "verification" then Ok(VerificationTemplate)
    else if name == "notification" then Ok(NotificationTemplate)
    else Err(UnknownTemplatePrefix + name)
  }

  // ---------------------------------------------------------------------
  // Variable substitution
  // ---------------------------------------------------------------------

  /** The placeholder written for `key`: "{{key}}". */
  function Placeholder(key: string): (p: string)
    ensures |p| == |key| + 4
  {
    "{{" + key + "}}"
  }

  /** `order` lists the keys of a map once each: one possible iteration
      order of a `HashMap`, which Rust leaves unspecified. */
  predicate IsEnumeration(order: seq<string>, keys: set<string>) {
    (forall i, j :: 0 <= i < j < |order| ==> order[i] != order[j]) &&
    (forall k :: k in keys ==> k in order) &&
    (forall i :: 0 <= i < |order| ==> order[i] in keys)
  }

  /** Substitution of each key of `order` in turn, every pass working on
      the previous pass's output. Content that holds none of the
      placeholders comes back unchanged. */
  function ApplyVariables(content: string, vars: map<string, string>, order: seq<string>): (r: string)
    requires forall i :: 0 <= i < |order| ==> order[i] in vars
    ensures (forall i :: 0 <= i < |order| ==> !Contains(content, Placeholder(order[i]))) ==> r == content
    decreases |order|
  {
    if |order| == 0 then content
    else
      var next := ReplaceAll(content, Placeholder(order[0]), vars[order[0]]);
      assert !Contains(content, Placeholder(order[0])) ==> next == content by {
        if !Contains(content, Placeholder(order[0])) {
          ReplaceAbsent(content, Placeholder(order[0]), vars[order[0]]);
        }
      }
      ApplyVariables(next, vars, order[1..])
  }

  /** `process_template_variables`: without variables the content is
      returned as it is; otherwise every key's placeholder is replaced by
      its value, one key after another in the map's iteration `order`. */
  function ProcessTemplateVariables(content: string, variables: Option<map<string, string>>,
                                    order: seq<string>): (r: string)
    requires variables.Some? ==> IsEnumeration(order, variables.value.Keys)
    ensures variables.None? ==> r == content
    ensures variables.Some? && (forall k :: k in variables.value ==> !Contains(content, Placeholder(k))) ==> r == content
  {
    match variables
    case None => content
    case Some(vars) => ApplyVariables(content, vars, order)
  }

  /** With one variable, every occurrence of its placeholder is replaced:
      the result is the text between the occurrences joined by the value. */
  lemma SingleVariable(content: string, key: string, value: string)
    ensures ProcessTemplateVariables(content, Some(map[key := value]), [key]) ==
      Join(Split(content, Placeholder(key)), value)
  {
    ReplaceIsSplitJoin(content, Placeholder(key), value);
    assert [key][1..] == [];
  }

  /** An empty map changes nothing. */
  lemma NoVariables(content: string)
    ensures ProcessTemplateVariables(content, Some(map[]), []) == content
  {
  }

  // ---------------------------------------------------------------------
  // Sending
  // ---------------------------------------------------------------------

  datatype EmailResult = Success | Failed(message: string)

  /** `send_email`: the subject and body are processed with the same
      variables, then `deliver` builds and sends the message (the SMTP part,
      a parameter here). */
  function SendEmail(template: EmailTemplate, variables: Option<map<string, string>>, order: seq<string>,
                     deliver: (string, string, EmailContentType) -> EmailResult): (r: EmailResult)
    requires variables.Some? ==> IsEnumeration(order, variables.value.Keys)
    ensures variables.None? ==> r == deliver(template.subject, template.body, template.contentType)
  {
    deliver(ProcessTemplateVariables(template.subject, variables, order),
            ProcessTemplateVariables(template.body, variables, order),
            template.contentType)
  }

  /** `send_template_email`: an unknown template fails before anything is
      built or sent; a known one goes to `send_email`. */
  function SendTemplateEmail(templateName: string, variables: Option<map<string, string>>, order: seq<string>,
                             deliver: (string, string, EmailContentType) -> EmailResult): (r: EmailResult)
    requires variables.Some? ==> IsEnumeration(order, variables.value.Keys)
    ensures templateName !in TemplateNames ==>
      r == Failed(TemplateErrorPrefix + UnknownTemplatePrefix + templateName)
    ensures templateName in TemplateNames ==>
      r == SendEmail(GetEmailTemplate(templateName).value, variables, order, deliver)
  {
    match GetEmailTemplate(templateName)
    case Err(e) =>
      Concat3(TemplateErrorPrefix, UnknownTemplatePrefix, templateName);
      Failed(TemplateErrorPrefix + e)
    case Ok(template) => SendEmail(template, variables, order, deliver)
  }

  /** The failure for an unknown template does not depend on the
      transport at all. */
  lemma UnknownTemplateNeverDelivers(templateName: string, variables: Option<map<string, string>>, order: seq<string>,
                                     d1: (string, string, EmailContentType) -> EmailResult,
                                     d2: (string, string, EmailContentType) -> EmailResult)
    requires variables.Some? ==> IsEnumeration(order, variables.value.Keys)
    requires templateName !in TemplateNames
    ensures SendTemplateEmail(templateName, variables, order, d1) == SendTemplateEmail(templateName, variables, order, d2)
    ensures SendTemplateEmail(templateName, variables, order, d1).Failed?
  {
  }

  // ---------------------------------------------------------------------
  // Notifications
  // ---------------------------------------------------------------------

  const SubjectKey := "subject"
  const MessageKey := "message"

  function NotificationVariables(subject: string, message: string): map<string, string> {
    map[SubjectKey := subject, MessageKey := message]
  }

  /** The two iteration orders a two-key map can take. */
  function NotificationOrder(subjectFirst: bool): (order: seq<string>)
    ensures IsEnumeration(order, {SubjectKey, MessageKey})
  {
    assert SubjectKey[0] != MessageKey[0];
    if subjectFirst then [SubjectKey, MessageKey] else [MessageKey, SubjectKey]
  }

  /** `send_notification_email`: the notification template filled with the
      subject and message. */
  function SendNotificationEmail(subject: string, message: string, subjectFirst: bool,
                                 deliver: (string, string, EmailContentType) -> EmailResult): (r: EmailResult)
    ensures !Contains(subject, Placeholder(MessageKey)) && !Contains(message, Placeholder(SubjectKey)) ==>
      r == deliver(subject, message, Text)
  {
    var vars := NotificationVariables(subject, message);
    assert vars.Keys == {SubjectKey, MessageKey};
    var order := NotificationOrder(subjectFirst);
    NotificationFills(subject, message, subjectFirst);
    SendTemplateEmail("notification", Some(vars), order, deliver)
  }

  /** A whole-pattern text is replaced by the replacement. */
  lemma ReplaceWhole(p: string, rep: string)
    requires |p| > 0
    ensures ReplaceAll(p, p, rep) == rep
  {
    assert p[|p|..] == [];
  }

  /** Two texts of one length contain each other only when equal. */
  lemma SameLengthContains(a: string, b: string)
    requires |a| == |b|
    ensures Contains(a, b) <==> a == b
  {
    if a == b {
      assert OccursAt(a, b, 0);
    }
  }

  /** Filling one placeholder-only template text: its own key gives its
      value, and the other key, applied before or after, has no effect as
      long as the value does not hold the other placeholder. */
  lemma FillSlot(own: string, other: string, value: string, otherValue: string, ownFirst: bool)
    requires |own| == |other| && own != other
    requires !Contains(value, Placeholder(other))
    ensures var vars := map[own := value, other := otherValue];
      var order := if ownFirst then [own, other] else [other, own];
      ApplyVariables(Placeholder(own), vars, order) == value
  {
    var po, pt := Placeholder(own), Placeholder(other);
    var vars := map[own := value, other := otherValue];
    assert po != pt by { assert po[2..|po| - 2] == own && pt[2..|pt| - 2] == other; }
    SameLengthContains(po, pt);
    ReplaceWhole(po, value);
    if ownFirst {
      ReplaceAbsent(value, pt, otherValue);
      assert ApplyVariables(po, vars, [own, other]) == ApplyVariables(value, vars, [other]);
      assert ApplyVariables(value, vars, [other]) == ApplyVariables(value, vars, []);
    } else {
      ReplaceAbsent(po, pt, otherValue);
      assert ApplyVariables(po, vars, [other, own]) == ApplyVariables(po, vars, [own]);
      assert ApplyVariables(po, vars, [own]) == ApplyVariables(value, vars, []);
    }
  }

  /** Either iteration order fills the notification template with exactly
      the given subject and message, when neither holds the other's
      placeholder. */
  lemma NotificationFills(subject: string, message: string, subjectFirst: bool)
    ensures var vars := NotificationVariables(subject, message);
      var order := NotificationOrder(subjectFirst);
      !Contains(subject, Placeholder(MessageKey)) ==>
      ProcessTemplateVariables(NotificationTemplate.subject, Some(vars), order) == subject
    ensures var vars := NotificationVariables(subject, message);
      var order := NotificationOrder(subjectFirst);
      !Contains(message, Placeholder(SubjectKey)) ==>
      ProcessTemplateVariables(NotificationTemplate.body, Some(vars), order) == message
  {
    var vars := NotificationVariables(subject, message);
    assert SubjectKey[0] != MessageKey[0];
    assert NotificationTemplate.subject == Placeholder(SubjectKey);
    assert NotificationTemplate.body == Placeholder(MessageKey);
    assert vars == map[MessageKey := message, SubjectKey := subject];
    if !Contains(subject, Placeholder(MessageKey)) {
      FillSlot(SubjectKey, MessageKey, subject, message, subjectFirst);
    }
    if !Contains(message, Placeholder(SubjectKey)) {
      FillSlot(MessageKey, SubjectKey, message, subject, !subjectFirst);
    }
  }

  /** The condition matters: a subject that quotes the message placeholder
      is rewritten to the message when the subject key comes first, and
      keeps the placeholder text when the message key comes first. */
  lemma NotificationDependsOnOrder(message: string)
    ensures ProcessTemplateVariables(NotificationTemplate.subject,
      Some(NotificationVariables(Placeholder(MessageKey), message)), NotificationOrder(true)) == message
    ensures ProcessTemplateVariables(NotificationTemplate.subject,
      Some(NotificationVariables(Placeholder(MessageKey), message)), NotificationOrder(false)) == Placeholder(MessageKey)
  {
    assert NotificationTemplate.subject == Placeholder(SubjectKey);
    SubjectFirstQuoted(message);
    MessageFirstQuoted(message);
  }

  /** Subject key first: "{{subject}}" becomes "{{message}}", which the
      message key then replaces. */
  lemma SubjectFirstQuoted(message: string)
    ensures ApplyVariables(Placeholder(SubjectKey), NotificationVariables(Placeholder(MessageKey), message),
                           [SubjectKey, MessageKey]) == message
  {
    var vars := NotificationVariables(Placeholder(MessageKey), message);
    var pm, ps := Placeholder(MessageKey), Placeholder(SubjectKey);
    ReplaceWhole(ps, pm);
    ReplaceWhole(pm, message);
    assert ApplyVariables(ps, vars, [SubjectKey, MessageKey]) == ApplyVariables(pm, vars, [MessageKey]);
    assert ApplyVariables(pm, vars, [MessageKey]) == ApplyVariables(message, vars, []);
  }

  /** Message key first: "{{subject}}" holds no "{{message}}", so only the
      subject key acts, and it inserts "{{message}}" too late to be
      replaced. */
  lemma MessageFirstQuoted(message: string)
    ensures ApplyVariables(Placeholder(SubjectKey), NotificationVariables(Placeholder(MessageKey), message),
                           [MessageKey, SubjectKey]) == Placeholder(MessageKey)
  {
    var vars := NotificationVariables(Placeholder(MessageKey), message);
    var pm, ps := Placeholder(MessageKey), Placeholder(SubjectKey);
    assert ps[2] != pm[2];
    SameLengthContains(ps, pm);
    ReplaceAbsent(ps, pm, message);
    ReplaceWhole(ps, pm);
    assert ApplyVariables(ps, vars, [MessageKey, SubjectKey]) == ApplyVariables(ps, vars, [SubjectKey]);
    assert ApplyVariables(ps, vars, [SubjectKey]) == ApplyVariables(pm, vars, []);
  }
}

=== FILE: materialise.dfy ===
// Writing a generated project to disk: `create_directories`, `create_files`
// and the pre-flight guard of `create_rext_app`, over an abstract
// filesystem. The errors the filesystem's own state explains (an entry
// already there, a file where a directory is needed, a missing parent, a
// directory where a file is written) are computed from it; every other
// operating-system failure comes from a fault oracle.

module Materialise {
  import opened Basics
  import opened Text
  import opened Scaffold

  /** An operating-system error, by its display text. */
  datatype IoError = IoError(message: string)

  // Display texts of the errors the filesystem itself raises (Linux).
  const FileExistsText: string := "File exists (os error 17)"
  const NotFoundText: string := "No such file or directory (os error 2)"
  const NotADirectoryText: string := "Not a directory (os error 20)"
  const IsADirectoryText: string := "Is a directory (os error 21)"

  /** The variants of `RextCoreError` the scaffolding engine can return. */
  datatype RextCoreError =
    | DirectoryCreation(cause: IoError)
    | FileWrite(message: string)
    | AppAlreadyExists

  /** The filesystem: regular files with their contents, and directories.
      The empty path is the filesystem root, which always exists. */
  datatype Fs = Fs(files: map<Path, string>, dirs: set<Path>)

  /** Injected failures: creating the directory `p` fails with
      `mkdir[p]`, writing the file `p` fails with `write[p]`. They stand for
      every cause the model does not track (permissions, a full disk, ...). */
  datatype Faults = Faults(mkdir: map<Path, string>, write: map<Path, string>)

  /** The filesystem after an operation, and the error it stopped with, if
      any. Effects made before an error stay. */
  datatype Effect<E> = Effect(fs: Fs, failure: Option<E>)

  function Parent(p: Path): Path
    requires |p| > 0
  {
    p[..|p| - 1]
  }

  predicate IsDir(fs: Fs, p: Path) {
    p == [] || p in fs.dirs
  }

  /** `Path::exists`: something, file or directory, is at `p`. */
  predicate Exists(fs: Fs, p: Path) {
    IsDir(fs, p) || p in fs.files
  }

  /** A filesystem where nothing is both a file and a directory and every
      entry sits in an existing directory. */
  predicate Valid(fs: Fs) {
    && (forall p :: p in fs.dirs ==> p !in fs.files)
    && (forall p :: p in fs.dirs ==> |p| > 0 && IsDir(fs, Parent(p)))
    && (forall p :: p in fs.files ==> |p| > 0 && IsDir(fs, Parent(p)))
  }

  /** The non-empty prefixes of `p`: `p` and all its ancestors below the root. */
  function Prefixes(p: Path): set<Path> {
    set k | 0 < k <= |p| :: p[..k]
  }

  function AllPrefixes(ps: set<Path>): set<Path> {
    set p, k | p in ps && 0 < k <= |p| :: p[..k]
  }

  /** In a valid filesystem the ancestors of a directory are directories. */
  lemma {:induction false} AncestorsAreDirs(fs: Fs, p: Path)
    requires Valid(fs) && IsDir(fs, p)
    ensures Prefixes(p) <= fs.dirs
    decreases |p|
  {
    if |p| > 0 {
      AncestorsAreDirs(fs, Parent(p));
      forall q | q in Prefixes(p)
        ensures q in fs.dirs
      {
        var k :| 0 < k <= |p| && q == p[..k];
        if k < |p| {
          assert q == Parent(p)[..k];
          assert q in Prefixes(Parent(p));
        } else {
          assert q == p;
        }
      }
    }
  }

  // ---------------------------------------------------------------------
  // create_dir_all
  // ---------------------------------------------------------------------

  /** Some proper ancestor of `p` is a regular file, so resolving `p`
      fails with "Not a directory" before anything else is looked at. */
  predicate AncestorFile(fs: Fs, p: Path) {
    exists k :: 0 < k < |p| && p[..k] in fs.files
  }

  /** Nothing in the way of creating `p`: no prefix is a file, and no
      missing prefix has an injected failure. */
  predicate CanCreate(fs: Fs, faults: Faults, p: Path) {
    forall k :: 0 < k <= |p| ==> p[..k] !in fs.files && (p[..k] !in fs.dirs ==> p[..k] !in faults.mkdir)
  }

  /** `std::fs::create_dir_all`: make `p` and its missing ancestors, from the
      root down. An existing directory is not an error. The first `mkdir(p)`
      decides the errors the filesystem explains: `p` itself a file is
      "File exists", a file among its ancestors is "Not a directory"; only a
      missing ancestor leads to the recursion. */
  function CreateDirAll(fs: Fs, faults: Faults, p: Path): (e: Effect<IoError>)
    ensures e.fs.files == fs.files
    ensures fs.dirs <= e.fs.dirs <= fs.dirs + Prefixes(p)
    ensures e.failure.None? ==> IsDir(e.fs, p)
    ensures CanCreate(fs, faults, p) ==> e.failure.None?
    decreases |p|
  {
    if IsDir(fs, p) then Effect(fs, None)
    else if p in fs.files then
      assert p[..|p|] == p;
      Effect(fs, Some(IoError(FileExistsText)))
    else if AncestorFile(fs, p) then Effect(fs, Some(IoError(NotADirectoryText)))
    else
      var up := CreateDirAll(fs, faults, Parent(p));
      CanCreateParent(fs, faults, p);
      PrefixesOfParent(p);
      if up.failure.Some? then up
      else if p in faults.mkdir then Effect(up.fs, Some(IoError(faults.mkdir[p])))
      else Effect(up.fs.(dirs := up.fs.dirs + {p}), None)
  }

  /** A file standing where a directory of the project should go: both
      creating a directory below it and writing a file below it fail with
      "Not a directory", and nothing changes. */
  lemma FileInTheWay(faults: Faults, content: string)
    requires ["backend", "bridge"] !in faults.write
    ensures CreateDirAll(Fs(map[["backend"] := ""], {}), faults, ["backend", "bridge"])
      == Effect(Fs(map[["backend"] := ""], {}), Some(IoError(NotADirectoryText)))
    ensures Write(Fs(map[["backend"] := ""], {}), faults, ["backend", "bridge"], content)
      == Err(IoError(NotADirectoryText))
  {
    var p: Path := ["backend", "bridge"];
    assert p[..1] == ["backend"];
    assert AncestorFile(Fs(map[["backend"] := ""], {}), p);
  }

  /** Creating directories keeps the filesystem valid. */
  lemma {:induction false} CreateDirAllValid(fs: Fs, faults: Faults, p: Path)
    requires Valid(fs)
    ensures Valid(CreateDirAll(fs, faults, p).fs)
    decreases |p|
  {
    if !IsDir(fs, p) && p !in fs.files && !AncestorFile(fs, p) {
      var up := CreateDirAll(fs, faults, Parent(p));
      CreateDirAllValid(fs, faults, Parent(p));
      if up.failure.None? && p !in faults.mkdir {
        assert CreateDirAll(fs, faults, p).fs == up.fs.(dirs := up.fs.dirs + {p});
        AddDirValid(up.fs, p);
      } else {
        assert CreateDirAll(fs, faults, p).fs == up.fs;
      }
    } else {
      assert CreateDirAll(fs, faults, p).fs == fs;
    }
  }

  /** Adding a directory whose parent exists, where no file is, keeps the
      filesystem valid. */
  lemma AddDirValid(fs: Fs, p: Path)
    requires Valid(fs) && |p| > 0 && p !in fs.files && IsDir(fs, Parent(p))
    ensures Valid(fs.(dirs := fs.dirs + {p}))
  {
  }

  lemma CanCreateParent(fs: Fs, faults: Faults, p: Path)
    requires |p| > 0
    ensures CanCreate(fs, faults, p) ==> CanCreate(fs, faults, Parent(p))
  {
    forall k | 0 < k <= |p| - 1
      ensures Parent(p)[..k] == p[..k]
    {
    }
  }

  lemma PrefixesOfParent(p: Path)
    requires |p| > 0
    ensures Prefixes(p) == Prefixes(Parent(p)) + {p}
  {
    forall k | 0 < k <= |p| - 1
      ensures Parent(p)[..k] == p[..k]
    {
    }
    assert p[..|p|] == p;
  }

  /** A directory that is already there is left alone. */
  lemma CreateDirAllExisting(fs: Fs, faults: Faults, p: Path)
    requires IsDir(fs, p)
    ensures CreateDirAll(fs, faults, p) == Effect(fs, None)
  {
  }

  /** More directories and the same files keep a path creatable. */
  lemma CanCreateMonotone(fs: Fs, fs': Fs, faults: Faults, p: Path)
    requires fs'.files == fs.files && fs.dirs <= fs'.dirs
    ensures CanCreate(fs, faults, p) ==> CanCreate(fs', faults, p)
  {
  }

  // ---------------------------------------------------------------------
  // create_directories
  // ---------------------------------------------------------------------

  /** The directories the files ask for, each once. */
  function NeededDirectories(files: seq<RextFile>, base: Path): set<Path> {
    set i | 0 <= i < |files| && files[i].needsDirectory :: DirectoryPath(files[i], base)
  }

  /** The first loop of `create_directories`: the set of directories of
      the files that need one. */
  method CollectDirectories(files: seq<RextFile>, base: Path) returns (needed: set<Path>)
    ensures needed == NeededDirectories(files, base)
  {
    needed := {};
    var i := 0;
    while i < |files|
      invariant 0 <= i <= |files|
      invariant needed == NeededDirectories(files[..i], base)
    {
      if files[i].needsDirectory {
        needed := needed + {DirectoryPath(files[i], base)};
      }
      i := i + 1;
    }
    assert files[..i] == files;
  }

  /** The second loop of `create_directories`: `create_dir_all` for each
      directory of the set, in no particular order, stopping at the first
      failure. The order cannot change a successful result. */
  method CreateEach(needed: set<Path>, fs: Fs, faults: Faults) returns (out: Effect<RextCoreError>)
    ensures out.fs.files == fs.files
    ensures fs.dirs <= out.fs.dirs <= fs.dirs + AllPrefixes(needed)
    ensures out.failure.None? ==> forall d :: d in needed ==> IsDir(out.fs, d)
    ensures Valid(fs) && out.failure.None? ==> out.fs.dirs == fs.dirs + AllPrefixes(needed)
    ensures out.failure.Some? ==> out.failure.value.DirectoryCreation?
    ensures Valid(fs) ==> Valid(out.fs)
    ensures (forall d :: d in needed ==> CanCreate(fs, faults, d)) ==> out.failure.None?
  {
    var todo := needed;
    var cur := fs;
    while todo != {}
      invariant todo <= needed
      invariant cur.files == fs.files
      invariant fs.dirs <= cur.dirs <= fs.dirs + AllPrefixes(needed)
      invariant forall d :: d in needed - todo ==> IsDir(cur, d)
      invariant Valid(fs) ==> Valid(cur)
      invariant (forall d :: d in needed ==> CanCreate(fs, faults, d)) ==>
        forall d :: d in todo ==> CanCreate(cur, faults, d)
      decreases |todo|
    {
      var d :| d in todo;
      var e := CreateDirAll(cur, faults, d);
      CreateDirAllWithin(cur, faults, d, needed);
      if e.failure.Some? {
        return Effect(e.fs, Some(DirectoryCreation(e.failure.value)));
      }
      forall d' | d' in todo - {d}
        ensures CanCreate(cur, faults, d') ==> CanCreate(e.fs, faults, d')
      {
        CanCreateMonotone(cur, e.fs, faults, d');
      }
      forall d' | d' in needed - (todo - {d})
        ensures IsDir(e.fs, d')
      {
        if d' != d {
          assert d' in needed - todo;
        }
      }
      cur := e.fs;
      todo := todo - {d};
    }
    if Valid(fs) {
      PrefixesCovered(cur, needed);
    }
    return Effect(cur, None);
  }

  /** One step of `CreateEach`: the directories `create_dir_all` adds are
      prefixes of the requested set, and validity is kept. */
  lemma CreateDirAllWithin(fs: Fs, faults: Faults, d: Path, needed: set<Path>)
    requires d in needed
    ensures fs.dirs <= CreateDirAll(fs, faults, d).fs.dirs <= fs.dirs + AllPrefixes(needed)
    ensures Valid(fs) ==> Valid(CreateDirAll(fs, faults, d).fs)
  {
    if Valid(fs) {
      CreateDirAllValid(fs, faults, d);
    }
    assert Prefixes(d) <= AllPrefixes(needed);
  }

  /** In a valid filesystem holding every directory of a set, all their
      ancestors are directories too. */
  lemma PrefixesCovered(fs: Fs, needed: set<Path>)
    requires Valid(fs)
    requires forall d :: d in needed ==> IsDir(fs, d)
    ensures AllPrefixes(needed) <= fs.dirs
  {
    forall q | q in AllPrefixes(needed)
      ensures q in fs.dirs
    {
      var p, k :| p in needed && 0 < k <= |p| && q == p[..k];
      AncestorsAreDirs(fs, p);
    }
  }

  /** `create_directories`: collect the directories of the files that need
      one, then create each of them. */
  method CreateDirectories(files: seq<RextFile>, base: Path, fs: Fs, faults: Faults)
    returns (out: Effect<RextCoreError>)
    ensures out.fs.files == fs.files
    ensures fs.dirs <= out.fs.dirs <= fs.dirs + AllPrefixes(NeededDirectories(files, base))
    ensures out.failure.None? ==>
      forall i :: 0 <= i < |files| && files[i].needsDirectory ==> IsDir(out.fs, DirectoryPath(files[i], base))
    ensures Valid(fs) && out.failure.None? ==>
      out.fs.dirs == fs.dirs + AllPrefixes(NeededDirectories(files, base))
    ensures out.failure.Some? ==> out.failure.value.DirectoryCreation?
    ensures Valid(fs) ==> Valid(out.fs)
    ensures (forall d :: d in NeededDirectories(files, base) ==> CanCreate(fs, faults, d)) ==> out.failure.None?
  {
    var needed := CollectDirectories(files, base);
    out := CreateEach(needed, fs, faults);
    if out.failure.None? {
      forall i | 0 <= i < |files| && files[i].needsDirectory
        ensures IsDir(out.fs, DirectoryPath(files[i], base))
      {
        assert DirectoryPath(files[i], base) in needed;
      }
    }
  }

  // ---------------------------------------------------------------------
  // create_files
  // ---------------------------------------------------------------------

  /** `std::fs::write`: create or truncate the file `p`. Resolving the path
      fails first: a file among its ancestors is "Not a directory", a
      missing parent is "No such file or directory"; then `p` must not be a
      directory. */
  function Write(fs: Fs, faults: Faults, p: Path, content: string): (r: Result<Fs, IoError>)
    ensures r.Ok? ==> r.value.files == fs.files[p := content] && r.value.dirs == fs.dirs
    ensures r.Ok? ==> |p| > 0 && IsDir(fs, Parent(p)) && !IsDir(fs, p)
    ensures Valid(fs) && r.Ok? ==> Valid(r.value)
  {
    if p in faults.write then Err(IoError(faults.write[p]))
    else if AncestorFile(fs, p) then Err(IoError(NotADirectoryText))
    else if IsDir(fs, p) then Err(IoError(IsADirectoryText))
    else if !IsDir(fs, Parent(p)) then Err(IoError(NotFoundText))
    else Ok(fs.(files := fs.files[p := content]))
  }

  /** The files after writing `files` one after the other into `m`: a later
      file with the same full path replaces an earlier one. */
  function AfterWrites(m: map<Path, string>, files: seq<RextFile>, base: Path): map<Path, string>
    decreases |files|
  {
    if |files| == 0 then m
    else
      var last := files[|files| - 1];
      AfterWrites(m, files[..|files| - 1], base)[FullPath(last, base) := last.content]
  }

  /** With distinct full paths, each file ends up with its own content and
      every other entry keeps its old one. */
  lemma {:induction false} AfterWritesDistinct(m: map<Path, string>, files: seq<RextFile>, base: Path)
    requires forall k, l :: 0 <= k < l < |files| ==> FullPath(files[k], base) != FullPath(files[l], base)
    ensures forall i :: 0 <= i < |files| ==>
      FullPath(files[i], base) in AfterWrites(m, files, base) &&
      AfterWrites(m, files, base)[FullPath(files[i], base)] == files[i].content
    ensures forall p :: p in m && (forall i :: 0 <= i < |files| ==> FullPath(files[i], base) != p) ==>
      p in AfterWrites(m, files, base) && AfterWrites(m, files, base)[p] == m[p]
    decreases |files|
  {
    if |files| > 0 {
      AfterWritesDistinct(m, files[..|files| - 1], base);
    }
  }

  /** The text a path is shown as in messages. */
  function PathText(p: Path): string {
    Join(p, "/")
  }

  /** `full_path.display()`: the path as it was joined. A root-level row's
      directory is `.`, and `Path::join` keeps that component in the text
      (`base/./rext.toml`), although it names the same file as
      `base/rext.toml`. */
  function DisplayPath(f: RextFile, base: Path): string {
    if f.path == [] then PathText(base + [".", f.name]) else PathText(FullPath(f, base))
  }

  /** The filesystem before the `j`-th write of `create_files`: the files
      `m` after the first `j` writes, over the directories `dirs`. */
  function Before(files: seq<RextFile>, base: Path, m: map<Path, string>, dirs: set<Path>, j: int): Fs
    requires 0 <= j <= |files|
  {
    Fs(AfterWrites(m, files[..j], base), dirs)
  }

  /** The `j`-th write of `create_files`. */
  function WriteStep(files: seq<RextFile>, base: Path, m: map<Path, string>, dirs: set<Path>,
                     faults: Faults, j: int): Result<Fs, IoError>
    requires 0 <= j < |files|
  {
    Write(Before(files, base, m, dirs, j), faults, FullPath(files[j], base), files[j].content)
  }

  /** A successful write leads to the state before the next one. */
  lemma WriteStepAdvances(files: seq<RextFile>, base: Path, m: map<Path, string>, dirs: set<Path>,
                          faults: Faults, j: int)
    requires 0 <= j < |files| && WriteStep(files, base, m, dirs, faults, j).Ok?
    ensures WriteStep(files, base, m, dirs, faults, j).value == Before(files, base, m, dirs, j + 1)
  {
    assert files[..j + 1][..j] == files[..j];
    assert files[..j + 1][j] == files[j];
  }

  /** The writes of `create_files` over the directories `dirs`, starting
      from the files `m`: the writes before `k` succeed, write `k` fails,
      and `message` is the failing path followed by the OS error. */
  predicate WriteFailedAt(files: seq<RextFile>, base: Path, m: map<Path, string>, dirs: set<Path>,
                          faults: Faults, k: int, message: string) {
    && 0 <= k < |files|
    && (forall j :: 0 <= j < k ==> WriteStep(files, base, m, dirs, faults, j).Ok?)
    && WriteStep(files, base, m, dirs, faults, k).Err?
    && message == DisplayPath(files[k], base) + ": " + WriteStep(files, base, m, dirs, faults, k).error.message
  }

  /** Nothing stands in the way of `create_files`: every directory can be
      created, and every file's path has no injected write failure, is not
      and will not become a directory, and its directory is either
      created or already there. */
  predicate WritesClear(files: seq<RextFile>, base: Path, fs: Fs, faults: Faults) {
    && (forall d :: d in NeededDirectories(files, base) ==> CanCreate(fs, faults, d))
    && forall i :: 0 <= i < |files| ==>
         && FullPath(files[i], base) !in faults.write
         && FullPath(files[i], base) !in fs.dirs
         && FullPath(files[i], base) !in AllPrefixes(NeededDirectories(files, base))
         && (files[i].needsDirectory || IsDir(fs, DirectoryPath(files[i], base)))
  }

  /** A write to `p` meets nothing in its way: no injected failure, `p`
      is not a directory, and its parent is one. */
  predicate WriteReady(fs: Fs, faults: Faults, p: Path) {
    |p| > 0 && p !in faults.write && !IsDir(fs, p) && IsDir(fs, Parent(p))
  }

  /** In a valid filesystem a write that meets nothing in its way succeeds. */
  lemma WriteReadyOk(fs: Fs, faults: Faults, p: Path, content: string)
    requires Valid(fs) && WriteReady(fs, faults, p)
    ensures Write(fs, faults, p, content).Ok?
  {
    AncestorsAreDirs(fs, Parent(p));
    forall k | 0 < k < |p|
      ensures p[..k] !in fs.files
    {
      assert p[..k] == Parent(p)[..k];
      assert p[..k] in Prefixes(Parent(p));
    }
  }

  /** The loop of `create_files`: write each file in order over the
      directories of `start`, stopping at the first failure. */
  method WriteFiles(files: seq<RextFile>, base: Path, start: Fs, faults: Faults)
    returns (out: Effect<RextCoreError>)
    ensures out.fs.dirs == start.dirs
    ensures out.failure.None? ==> out.fs.files == AfterWrites(start.files, files, base)
    ensures out.failure.Some? ==> out.failure.value.FileWrite?
    ensures out.failure.Some? ==>
      exists k :: WriteFailedAt(files, base, start.files, start.dirs, faults, k, out.failure.value.message) &&
        out.fs.files == AfterWrites(start.files, files[..k], base)
    ensures Valid(start) ==> Valid(out.fs)
    ensures Valid(start) && (forall i :: 0 <= i < |files| ==> WriteReady(start, faults, FullPath(files[i], base))) ==>
      out.failure.None?
  {
    var ready := Valid(start) && forall i :: 0 <= i < |files| ==> WriteReady(start, faults, FullPath(files[i], base));
    var cur := start;
    var i := 0;
    assert files[..0] == [];
    while i < |files|
      invariant 0 <= i <= |files|
      invariant cur == Before(files, base, start.files, start.dirs, i)
      invariant Valid(start) ==> Valid(cur)
      invariant forall j :: 0 <= j < i ==> WriteStep(files, base, start.files, start.dirs, faults, j).Ok?
    {
      var p := FullPath(files[i], base);
      var w := WriteStep(files, base, start.files, start.dirs, faults, i);
      if ready {
        assert WriteReady(cur, faults, p);
        WriteReadyOk(cur, faults, p, files[i].content);
      }
      if w.Err? {
        var message := DisplayPath(files[i], base) + ": " + w.error.message;
        assert WriteFailedAt(files, base, start.files, start.dirs, faults, i, message);
        return Effect(cur, Some(FileWrite(message)));
      }
      WriteStepAdvances(files, base, start.files, start.dirs, faults, i);
      assert forall j :: 0 <= j < i + 1 ==> WriteStep(files, base, start.files, start.dirs, faults, j).Ok? by {
        forall j | 0 <= j < i + 1
          ensures WriteStep(files, base, start.files, start.dirs, faults, j).Ok?
        {
          if j == i {
            assert w.Ok?;
          }
        }
      }
      cur := w.value;
      i := i + 1;
    }
    assert files[..i] == files;
    return Effect(cur, None);
  }

  /** `create_files`: create the directories first, then write the files in
      order. The first failed write stops the run with `FileWrite`, naming
      the failing path and the OS error; files written before it stay. */
  method CreateFiles(files: seq<RextFile>, base: Path, fs: Fs, faults: Faults)
    returns (out: Effect<RextCoreError>)
    ensures out.failure.None? ==> out.fs.files == AfterWrites(fs.files, files, base)
    ensures out.failure.None? ==>
      forall i :: 0 <= i < |files| && files[i].needsDirectory ==> IsDir(out.fs, DirectoryPath(files[i], base))
    ensures Valid(fs) && out.failure.None? ==>
      out.fs.dirs == fs.dirs + AllPrefixes(NeededDirectories(files, base))
    ensures out.failure.Some? && out.failure.value.DirectoryCreation? ==> out.fs.files == fs.files
    ensures out.failure.Some? && out.failure.value.FileWrite? ==>
      exists k :: WriteFailedAt(files, base, fs.files, out.fs.dirs, faults, k, out.failure.value.message) &&
        out.fs.files == AfterWrites(fs.files, files[..k], base)
    ensures out.failure != Some(AppAlreadyExists)
    ensures Valid(fs) ==> Valid(out.fs)
    ensures Valid(fs) && WritesClear(files, base, fs, faults) ==> out.failure.None?
  {
    var made := CreateDirectories(files, base, fs, faults);
    if made.failure.Some? {
      return made;
    }
    if Valid(fs) && WritesClear(files, base, fs, faults) {
      forall i | 0 <= i < |files|
        ensures WriteReady(made.fs, faults, FullPath(files[i], base))
      {
        ClearIsReady(files, base, fs, faults, made.fs, i);
      }
    }
    out := WriteFiles(files, base, made.fs, faults);
  }

  /** Under `WritesClear`, once the directories exist each file's write
      meets nothing in its way. */
  lemma ClearIsReady(files: seq<RextFile>, base: Path, fs: Fs, faults: Faults, made: Fs, i: int)
    requires WritesClear(files, base, fs, faults) && 0 <= i < |files|
    requires made.dirs == fs.dirs + AllPrefixes(NeededDirectories(files, base))
    requires forall j :: 0 <= j < |files| && files[j].needsDirectory ==> IsDir(made, DirectoryPath(files[j], base))
    ensures WriteReady(made, faults, FullPath(files[i], base))
  {
    var p := FullPath(files[i], base);
    assert Parent(p) == DirectoryPath(files[i], base);
  }

  // ---------------------------------------------------------------------
  // create_rext_app
  // ---------------------------------------------------------------------

  /** The guard of `create_rext_app`: an existing `rext.toml` or
      `Cargo.toml` in the target directory marks an existing project. */
  predicate AppPresent(fs: Fs, base: Path) {
    Exists(fs, base + ["rext.toml"]) || Exists(fs, base + ["Cargo.toml"])
  }

  /** `create_rext_app`: refuse an existing project without touching
      anything; otherwise generate the files for `config` and write them. On
      success every generated file is at its full path with its rendered
      content, and every other file is as it was. */
  method CreateRextApp(base: Path, config: FileCreationConfig, templates: RextFileType -> string,
                       fs: Fs, faults: Faults)
    returns (out: Effect<RextCoreError>)
    ensures AppPresent(fs, base) ==> out == Effect(fs, Some(AppAlreadyExists))
    ensures !AppPresent(fs, base) ==> out.failure != Some(AppAlreadyExists)
    ensures out.failure.None? ==> forall i :: 0 <= i < |GetRextFiles(config, templates)| ==>
      var f := GetRextFiles(config, templates)[i];
      FullPath(f, base) in out.fs.files &&
      out.fs.files[FullPath(f, base)] == ProcessTemplate(templates(Catalog[SelectedIndices(Catalog, config.modules)[i]].fileType), config)
    ensures out.failure.None? ==> forall p ::
      (p in fs.files && forall f :: f in GetRextFiles(config, templates) ==> FullPath(f, base) != p) ==>
      p in out.fs.files && out.fs.files[p] == fs.files[p]
    ensures out.failure.Some? && out.failure.value.DirectoryCreation? ==> out.fs.files == fs.files
    ensures out.failure.Some? && out.failure.value.FileWrite? ==>
      exists k :: WriteFailedAt(GetRextFiles(config, templates), base, fs.files, out.fs.dirs, faults, k, out.failure.value.message) &&
        out.fs.files == AfterWrites(fs.files, GetRextFiles(config, templates)[..k], base)
    ensures Valid(fs) && !AppPresent(fs, base) && WritesClear(GetRextFiles(config, templates), base, fs, faults) ==>
      out.failure.None?
    ensures Valid(fs) ==> Valid(out.fs)
  {
    if Exists(fs, base + ["rext.toml"]) {
      return Effect(fs, Some(AppAlreadyExists));
    }
    if Exists(fs, base + ["Cargo.toml"]) {
      return Effect(fs, Some(AppAlreadyExists));
    }
    var files := GetRextFiles(config, templates);
    out := CreateFiles(files, base, fs, faults);
    if out.failure.None? {
      GeneratedFilesWritten(config, templates, base, fs.files);
    }
  }

  /** Writing the generated files over `m` leaves each at its full path with
      its rendered content, and every other entry of `m` as it was. */
  lemma GeneratedFilesWritten(config: FileCreationConfig, templates: RextFileType -> string, base: Path,
                              m: map<Path, string>)
    ensures forall i :: 0 <= i < |GetRextFiles(config, templates)| ==>
      var f := GetRextFiles(config, templates)[i];
      FullPath(f, base) in AfterWrites(m, GetRextFiles(config, templates), base) &&
      AfterWrites(m, GetRextFiles(config, templates), base)[FullPath(f, base)] ==
        ProcessTemplate(templates(Catalog[SelectedIndices(Catalog, config.modules)[i]].fileType), config)
    ensures forall p ::
      (p in m && forall f :: f in GetRextFiles(config, templates) ==> FullPath(f, base) != p) ==>
      p in AfterWrites(m, GetRextFiles(config, templates), base) && AfterWrites(m, GetRextFiles(config, templates), base)[p] == m[p]
  {
    var files := GetRextFiles(config, templates);
    GeneratedPathsDistinct(config, templates, base);
    AfterWritesDistinct(m, files, base);
  }
}

=== FILE: permission_service.dfy ===
// The permission service of the generated backend: permission checks
// against the user and role tables, plus the pure catalogue functions
// (all permissions, grouping by category, validation of permission strings).
//
// The database is a value: the `users` and `roles` tables as maps and an
// optional fault that makes every query fail with the driver's message.

module PermissionService {
  import opened Basics
  import opened Permissions

  /** The JSON text in a role's `permissions` column: a list of strings, or
      text that does not decode as one. */
  datatype StoredPermissions = JsonList(items: seq<string>) | Unreadable

  /** `serde_json::from_str(..).unwrap_or_else(|_| vec![])`. */
  function Decoded(t: StoredPermissions): seq<string> {
    match t
    case JsonList(items) => items
    case Unreadable => []
  }

  datatype UserRow = UserRow(email: string, roleId: Option<int>)

  datatype RoleRow = RoleRow(
    name: string,
    description: Option<string>,
    permissions: StoredPermissions,
    updatedAt: Option<int>)

  datatype Db = Db(users: map<Uuid, UserRow>, roles: map<int, RoleRow>, fault: Option<string>)

  function DatabaseError(detail: string): AppError {
    AppError("Database error: " + detail, INTERNAL_SERVER_ERROR)
  }

  const UserNotFound := AppError("User not found", NOT_FOUND)

  /** The user exists, has a role id, and that role row exists. */
  predicate HasRole(db: Db, userId: Uuid) {
    userId in db.users && db.users[userId].roleId.Some? && db.users[userId].roleId.value in db.roles
  }

  /** The decoded permission strings of the user's role. */
  function RoleStrings(db: Db, userId: Uuid): seq<string>
    requires HasRole(db, userId)
  {
    Decoded(db.roles[db.users[userId].roleId.value].permissions)
  }

  /** The lookup every check starts with: the user row (a fault or a missing
      user is an error), then the role row; `None` when the user has no role
      or the role row is gone. */
  function RoleLookup(db: Db, userId: Uuid): Result<Option<seq<string>>, AppError> {
    if db.fault.Some? then Err(DatabaseError(db.fault.value))
    else if userId !in db.users then Err(UserNotFound)
    else
      match db.users[userId].roleId
      case None => Ok(None)
      case Some(rid) =>
        if rid in db.roles then Ok(Some(Decoded(db.roles[rid].permissions))) else Ok(None)
  }

  /** `has_permission`: granted when the role's list holds "*" or a string
      that parses to the permission. */
  function HasPermission(db: Db, userId: Uuid, p: Permission): (r: Result<bool, AppError>)
    ensures db.fault.Some? ==> r == Err(DatabaseError(db.fault.value))
    ensures db.fault.None? && userId !in db.users ==> r == Err(UserNotFound)
    ensures db.fault.None? && userId in db.users && !HasRole(db, userId) ==> r == Ok(false)
    ensures db.fault.None? && HasRole(db, userId) ==>
      r == Ok("*" in RoleStrings(db, userId) ||
              exists i :: 0 <= i < |RoleStrings(db, userId)| && FromString(RoleStrings(db, userId)[i]) == p)
  {
    match RoleLookup(db, userId)
    case Err(e) => Err(e)
    case Ok(None) => Ok(false)
    case Ok(Some(list)) =>
      ContainsFromStrings(list, p);
      Ok(Contains(FromStrings(list), p))
  }

  /** The role's strings parsed one by one, in list order. */
  function Parsed(list: seq<string>): (ps: seq<Permission>)
    ensures |ps| == |list|
    ensures forall i :: 0 <= i < |list| ==> ps[i] == FromString(list[i])
  {
    seq(|list|, i requires 0 <= i < |list| => FromString(list[i]))
  }

  /** `has_any_permission`: the `_permissions` argument is never read; the
      role's own parsed list is tested against the role's own set, so the
      answer is whether that list is non-empty. */
  function HasAnyPermission(db: Db, userId: Uuid, permissions: seq<Permission>): (r: Result<bool, AppError>)
    ensures db.fault.Some? ==> r == Err(DatabaseError(db.fault.value))
    ensures db.fault.None? && userId !in db.users ==> r == Err(UserNotFound)
    ensures db.fault.None? && userId in db.users && !HasRole(db, userId) ==> r == Ok(false)
    ensures db.fault.None? && HasRole(db, userId) ==> r == Ok(|RoleStrings(db, userId)| > 0)
  {
    match RoleLookup(db, userId)
    case Err(e) => Err(e)
    case Ok(None) => Ok(false)
    case Ok(Some(list)) =>
      var set_ := FromStrings(list);
      var ps := Parsed(list);
      assert |list| > 0 ==> Contains(set_, ps[0]);
      Ok(ContainsAny(set_, ps))
  }

  /** `has_all_permissions`: likewise ignores its argument; every parsed
      entry of the role's list is in the role's set, so any user whose role
      exists passes. */
  function HasAllPermissions(db: Db, userId: Uuid, permissions: seq<Permission>): (r: Result<bool, AppError>)
    ensures db.fault.Some? ==> r == Err(DatabaseError(db.fault.value))
    ensures db.fault.None? && userId !in db.users ==> r == Err(UserNotFound)
    ensures db.fault.None? && userId in db.users && !HasRole(db, userId) ==> r == Ok(false)
    ensures db.fault.None? && HasRole(db, userId) ==> r == Ok(true)
  {
    match RoleLookup(db, userId)
    case Err(e) => Err(e)
    case Ok(None) => Ok(false)
    case Ok(Some(list)) =>
      var set_ := FromStrings(list);
      var ps := Parsed(list);
      assert forall i :: 0 <= i < |ps| ==> Contains(set_, ps[i]);
      Ok(ContainsAll(set_, ps))
  }

  /** What `has_any_permission` evidently means: some requested permission
      is granted by the role, the per-permission check of `has_permission`. */
  function HasAnyPermissionIntended(db: Db, userId: Uuid, permissions: seq<Permission>): (r: Result<bool, AppError>)
    ensures db.fault.Some? ==> r == Err(DatabaseError(db.fault.value))
    ensures db.fault.None? && userId !in db.users ==> r == Err(UserNotFound)
    ensures r == Ok(true) <==>
      exists i :: 0 <= i < |permissions| && HasPermission(db, userId, permissions[i]) == Ok(true)
  {
    match RoleLookup(db, userId)
    case Err(e) => Err(e)
    case Ok(None) => Ok(false)
    case Ok(Some(list)) =>
      assert list == RoleStrings(db, userId);
      assert forall p :: HasPermission(db, userId, p) == Ok(Contains(FromStrings(list), p)) by {
        forall p ensures HasPermission(db, userId, p) == Ok(Contains(FromStrings(list), p)) {
          ContainsFromStrings(list, p);
        }
      }
      Ok(ContainsAny(FromStrings(list), permissions))
  }

  /** What `has_all_permissions` evidently means: the user has a role and
      it grants every requested permission. */
  function HasAllPermissionsIntended(db: Db, userId: Uuid, permissions: seq<Permission>): (r: Result<bool, AppError>)
    ensures db.fault.Some? ==> r == Err(DatabaseError(db.fault.value))
    ensures db.fault.None? && userId !in db.users ==> r == Err(UserNotFound)
    ensures r == Ok(true) <==>
      db.fault.None? && HasRole(db, userId) &&
      forall i :: 0 <= i < |permissions| ==> HasPermission(db, userId, permissions[i]) == Ok(true)
  {
    match RoleLookup(db, userId)
    case Err(e) => Err(e)
    case Ok(None) => Ok(false)
    case Ok(Some(list)) =>
      assert list == RoleStrings(db, userId);
      assert forall p :: HasPermission(db, userId, p) == Ok(Contains(FromStrings(list), p)) by {
        forall p ensures HasPermission(db, userId, p) == Ok(Contains(FromStrings(list), p)) {
          ContainsFromStrings(list, p);
        }
      }
      Ok(ContainsAll(FromStrings(list), permissions))
  }

  /** A one-user database whose role grants only "user:read". */
  function ReaderDb(u: Uuid): Db {
    Db(map[u := UserRow("reader@example.com", Some(1))],
       map[1 := RoleRow("reader", None, JsonList(["user:read"]), None)],
       None)
  }

  /** As written, both multi-permission checks answer `true` for a
      permission the role does not grant, where the intended checks answer
      `false`. */
  lemma MultiChecksIgnoreRequest(u: Uuid)
    ensures HasPermission(ReaderDb(u), u, SystemDatabase) == Ok(false)
    ensures HasAnyPermission(ReaderDb(u), u, [SystemDatabase]) == Ok(true)
    ensures HasAllPermissions(ReaderDb(u), u, [SystemDatabase]) == Ok(true)
    ensures HasAnyPermissionIntended(ReaderDb(u), u, [SystemDatabase]) == Ok(false)
    ensures HasAllPermissionsIntended(ReaderDb(u), u, [SystemDatabase]) == Ok(false)
  {
    var db := ReaderDb(u);
    assert HasRole(db, u);
    assert RoleStrings(db, u) == ["user:read"];
    assert ToString(SystemDatabase) == "system:database";
    assert "system:database"[0] != "user:read"[0];
    assert FromString("user:read") != SystemDatabase;
    assert "*" != "user:read";
  }

  /** `get_user_permissions`: the role's strings as a set; empty when the
      user has no role or the role row is gone. */
  function GetUserPermissions(db: Db, userId: Uuid): (r: Result<PermissionSet, AppError>)
    ensures db.fault.Some? ==> r == Err(DatabaseError(db.fault.value))
    ensures db.fault.None? && userId !in db.users ==> r == Err(UserNotFound)
    ensures db.fault.None? && userId in db.users && !HasRole(db, userId) ==> r == Ok({})
    ensures db.fault.None? && HasRole(db, userId) ==>
      (r.Ok? &&
       forall p :: p in r.value <==>
         exists i :: 0 <= i < |RoleStrings(db, userId)| && FromString(RoleStrings(db, userId)[i]) == p)
  {
    match RoleLookup(db, userId)
    case Err(e) => Err(e)
    case Ok(None) => Ok({})
    case Ok(Some(list)) =>
      assert list == RoleStrings(db, userId);
      Ok(FromStrings(list))
  }

  /** A single check agrees with asking the set of the user's permissions. */
  lemma HasPermissionViaUserPermissions(db: Db, userId: Uuid, p: Permission)
    ensures GetUserPermissions(db, userId).Err? ==>
      HasPermission(db, userId, p) == Err(GetUserPermissions(db, userId).error)
    ensures GetUserPermissions(db, userId).Ok? ==>
      HasPermission(db, userId, p) == Ok(Contains(GetUserPermissions(db, userId).value, p))
  {
    if db.fault.None? && HasRole(db, userId) {
      ContainsFromStrings(RoleStrings(db, userId), p);
    }
  }

  /** Parsing is injective: two strings parse to the same permission only
      when they are the same string. */
  lemma FromStringInjective(s: string, t: string)
    ensures FromString(s) == FromString(t) <==> s == t
  {
    assert ToString(FromString(s)) == s && ToString(FromString(t)) == t;
  }

  // ---------------------------------------------------------------------
  // The catalogue of named permissions
  // ---------------------------------------------------------------------

  const AdminNamed: seq<Permission> :=
    [AdminRead, AdminWrite, AdminDelete, AdminUsers, AdminRoles,
     AdminLogs, AdminDatabase, AdminHealth, AdminMetrics]
  const UserNamed: seq<Permission> := [UserRead, UserWrite, UserDelete, UserProfile, UserCreate]
  const SystemNamed: seq<Permission> := [SystemHealth, SystemMetrics, SystemLogs, SystemDatabase]

  /** `get_all_permissions`: the 19 named permissions, each once, in
      declaration order, and no custom one. */
  function GetAllPermissions(): (ps: seq<Permission>)
    ensures |ps| == 19
    ensures forall i :: 0 <= i < |ps| ==> !ps[i].Custom?
    ensures forall p: Permission :: !p.Custom? ==> p in ps
  {
    [All] + AdminNamed + UserNamed + SystemNamed
  }

  /** No permission appears twice in the catalogue. */
  lemma AllPermissionsDistinct()
    ensures forall i, j :: 0 <= i < j < |GetAllPermissions()| ==>
      GetAllPermissions()[i] != GetAllPermissions()[j]
  {
    var ps := GetAllPermissions();
    RankIsPosition();
    forall i, j | 0 <= i < j < |ps|
      ensures ps[i] != ps[j]
    {
      assert Rank(ps[i]) == i && Rank(ps[j]) == j;
    }
  }

  /** Each catalogue entry's rank is its position. */
  lemma RankIsPosition()
    ensures forall i :: 0 <= i < |GetAllPermissions()| ==> Rank(GetAllPermissions()[i]) == i
  {
  }

  /** The position of a named permission in the catalogue. */
  function Rank(p: Permission): int {
    match p
    case All => 0
    case AdminRead => 1
    case AdminWrite => 2
    case AdminDelete => 3
    case AdminUsers => 4
    case AdminRoles => 5
    case AdminLogs => 6
    case AdminDatabase => 7
    case AdminHealth => 8
    case AdminMetrics => 9
    case UserRead => 10
    case UserWrite => 11
    case UserDelete => 12
    case UserProfile => 13
    case UserCreate => 14
    case SystemHealth => 15
    case SystemMetrics => 16
    case SystemLogs => 17
    case SystemDatabase => 18
    case Custom(_) => 19
  }

  /** The members of `ps` in category `k`, in order. */
  function InCategory(ps: seq<Permission>, k: CategoryKind): (r: seq<Permission>)
    ensures |r| <= |ps|
    ensures forall i :: 0 <= i < |r| ==> KindOf(r[i]) == k && r[i] in ps
    decreases |ps|
  {
    if |ps| == 0 then []
    else if KindOf(ps[|ps| - 1]) == k then InCategory(ps[..|ps| - 1], k) + [ps[|ps| - 1]]
    else InCategory(ps[..|ps| - 1], k)
  }

  lemma {:induction false} InCategoryAppend(a: seq<Permission>, b: seq<Permission>, k: CategoryKind)
    ensures InCategory(a + b, k) == InCategory(a, k) + InCategory(b, k)
    decreases |b|
  {
    if |b| > 0 {
      var b' := b[..|b| - 1];
      assert (a + b)[..|a + b| - 1] == a + b';
      InCategoryAppend(a, b', k);
    } else {
      assert a + b == a;
    }
  }

  lemma {:induction false} InCategoryAll(ps: seq<Permission>, k: CategoryKind)
    requires forall i :: 0 <= i < |ps| ==> KindOf(ps[i]) == k
    ensures InCategory(ps, k) == ps
    decreases |ps|
  {
    if |ps| > 0 {
      InCategoryAll(ps[..|ps| - 1], k);
      assert ps[..|ps| - 1] + [ps[|ps| - 1]] == ps;
    }
  }

  lemma {:induction false} InCategoryNone(ps: seq<Permission>, k: CategoryKind)
    requires forall i :: 0 <= i < |ps| ==> KindOf(ps[i]) != k
    ensures InCategory(ps, k) == []
    decreases |ps|
  {
    if |ps| > 0 {
      InCategoryNone(ps[..|ps| - 1], k);
    }
  }

  /** One step of the grouping loop: push `p` onto the vector under its
      category name, creating the entry on first use. */
  function Push(m: map<string, seq<Permission>>, p: Permission): map<string, seq<Permission>> {
    var c := Category(p);
    m[c := (if c in m then m[c] else []) + [p]]
  }

  /** The grouping loop of `get_permissions_by_category` over `ps`. */
  function GroupByCategory(ps: seq<Permission>): map<string, seq<Permission>>
    decreases |ps|
  {
    if |ps| == 0 then map[] else Push(GroupByCategory(ps[..|ps| - 1]), ps[|ps| - 1])
  }

  /** Every key of the grouping is a category name. */
  lemma {:induction false} GroupKeysAreNames(ps: seq<Permission>)
    ensures forall c :: c in GroupByCategory(ps) ==> exists i :: 0 <= i < |ps| && Category(ps[i]) == c
    decreases |ps|
  {
    if |ps| > 0 {
      var front := ps[..|ps| - 1];
      GroupKeysAreNames(front);
      forall c | c in GroupByCategory(ps)
        ensures exists i :: 0 <= i < |ps| && Category(ps[i]) == c
      {
        if c == Category(ps[|ps| - 1]) {
          assert Category(ps[|ps| - 1]) == c;
        } else {
          assert c in GroupByCategory(front);
          var i :| 0 <= i < |front| && Category(front[i]) == c;
          assert ps[i] == front[i];
        }
      }
    }
  }

  /** The entry under a category's name is present exactly when some
      member has that category, and holds that category's members in their
      original order. */
  lemma {:induction false} GroupEntries(ps: seq<Permission>, k: CategoryKind)
    ensures KindName(k) in GroupByCategory(ps) <==> InCategory(ps, k) != []
    ensures KindName(k) in GroupByCategory(ps) ==> GroupByCategory(ps)[KindName(k)] == InCategory(ps, k)
    decreases |ps|
  {
    if |ps| > 0 {
      var front := ps[..|ps| - 1];
      var p := ps[|ps| - 1];
      GroupEntries(front, k);
      KindNameInjective(KindOf(p), k);
      assert GroupByCategory(ps) == Push(GroupByCategory(front), p);
    }
  }

  /** A category has members in `ps` exactly when some element of `ps` is
      in it. */
  lemma {:induction false} InCategoryNonEmpty(ps: seq<Permission>, k: CategoryKind)
    ensures InCategory(ps, k) != [] <==> exists i :: 0 <= i < |ps| && KindOf(ps[i]) == k
    decreases |ps|
  {
    if |ps| > 0 {
      var front := ps[..|ps| - 1];
      InCategoryNonEmpty(front, k);
      if exists i :: 0 <= i < |front| && KindOf(front[i]) == k {
        var i :| 0 <= i < |front| && KindOf(front[i]) == k;
        assert ps[i] == front[i];
      }
      if exists i :: 0 <= i < |ps| && KindOf(ps[i]) == k {
        var i :| 0 <= i < |ps| && KindOf(ps[i]) == k;
        if i < |front| {
          assert front[i] == ps[i];
        }
      }
    }
  }

  /** `get_permissions_by_category`. */
  function GetPermissionsByCategory(): map<string, seq<Permission>> {
    GroupByCategory(GetAllPermissions())
  }

  /** Filtering a sequence whose middle block is exactly the members of
      category `k` keeps that block. */
  lemma {:induction false} MiddleBlock(pre: seq<Permission>, mid: seq<Permission>, post: seq<Permission>, k: CategoryKind)
    requires forall i :: 0 <= i < |pre| ==> KindOf(pre[i]) != k
    requires forall i :: 0 <= i < |mid| ==> KindOf(mid[i]) == k
    requires forall i :: 0 <= i < |post| ==> KindOf(post[i]) != k
    ensures InCategory((pre + mid) + post, k) == mid
  {
    var front := pre + mid;
    InCategoryNone(pre, k);
    InCategoryAll(mid, k);
    InCategoryAppend(pre, mid, k);
    assert InCategory(front, k) == [] + mid;
    InCategoryNone(post, k);
    InCategoryAppend(front, post, k);
    assert InCategory(front + post, k) == mid + [];
  }

  lemma SuperBlock()
    ensures InCategory(GetAllPermissions(), SuperCategory) == [All]
  {
    assert GetAllPermissions() == ([] + [All]) + (AdminNamed + UserNamed + SystemNamed);
    MiddleBlock([], [All], AdminNamed + UserNamed + SystemNamed, SuperCategory);
  }

  lemma AdminBlock()
    ensures InCategory(GetAllPermissions(), AdminCategory) == AdminNamed
  {
    assert GetAllPermissions() == ([All] + AdminNamed) + (UserNamed + SystemNamed);
    MiddleBlock([All], AdminNamed, UserNamed + SystemNamed, AdminCategory);
  }

  lemma UserBlock()
    ensures InCategory(GetAllPermissions(), UserCategory) == UserNamed
  {
    assert GetAllPermissions() == ([All] + AdminNamed + UserNamed) + SystemNamed;
    MiddleBlock([All] + AdminNamed, UserNamed, SystemNamed, UserCategory);
  }

  lemma SystemBlock()
    ensures InCategory(GetAllPermissions(), SystemCategory) == SystemNamed
  {
    assert GetAllPermissions() == ([All] + AdminNamed + UserNamed + SystemNamed) + [];
    MiddleBlock([All] + AdminNamed + UserNamed, SystemNamed, [], SystemCategory);
  }

  /** The entry of a category with members is that category's members. */
  lemma GroupOf(ps: seq<Permission>, k: CategoryKind, block: seq<Permission>)
    requires InCategory(ps, k) == block && |block| > 0
    ensures KindName(k) in GroupByCategory(ps) && GroupByCategory(ps)[KindName(k)] == block
  {
    GroupEntries(ps, k);
    assert KindOf(block[0]) == k && block[0] in ps;
  }

  /** The keys of the grouping are the names of the categories present. */
  lemma {:induction false} GroupKeys(ps: seq<Permission>, kinds: set<CategoryKind>)
    requires forall i :: 0 <= i < |ps| ==> KindOf(ps[i]) in kinds
    requires forall k :: k in kinds ==> exists i :: 0 <= i < |ps| && KindOf(ps[i]) == k
    ensures forall c :: c in GroupByCategory(ps) <==> exists k :: k in kinds && KindName(k) == c
  {
    GroupKeysAreNames(ps);
    forall k | k in kinds
      ensures KindName(k) in GroupByCategory(ps)
    {
      InCategoryNonEmpty(ps, k);
      GroupEntries(ps, k);
    }
  }

  const NamedKinds: set<CategoryKind> := {SuperCategory, AdminCategory, UserCategory, SystemCategory}

  lemma CatalogKinds()
    ensures forall i :: 0 <= i < |GetAllPermissions()| ==> KindOf(GetAllPermissions()[i]) in NamedKinds
  {
    var all := GetAllPermissions();
    forall i | 0 <= i < |all|
      ensures KindOf(all[i]) in NamedKinds
    {
      assert !all[i].Custom?;
    }
  }

  lemma NamedKindKeys(m: map<string, seq<Permission>>)
    requires forall c :: c in m <==> exists k :: k in NamedKinds && KindName(k) == c
    ensures m.Keys == {"super", "admin", "user", "system"}
  {
    assert KindName(SuperCategory) in m && KindName(AdminCategory) in m;
    assert KindName(UserCategory) in m && KindName(SystemCategory) in m;
  }

  /** The grouping has exactly the keys super, admin, user and system:
      no "custom" entry. */
  lemma PermissionsByCategoryKeys()
    ensures GetPermissionsByCategory().Keys == {"super", "admin", "user", "system"}
  {
    CatalogKinds();
    NamedKindsPresent();
    GroupKeys(GetAllPermissions(), NamedKinds);
    NamedKindKeys(GetPermissionsByCategory());
  }

  /** Each of the four named categories has a member in the catalogue. */
  lemma NamedKindsPresent()
    ensures forall k :: k in NamedKinds ==>
      exists i :: 0 <= i < |GetAllPermissions()| && KindOf(GetAllPermissions()[i]) == k
  {
    forall k | k in NamedKinds
      ensures exists i :: 0 <= i < |GetAllPermissions()| && KindOf(GetAllPermissions()[i]) == k
    {
      var p := match k
        case SuperCategory => All
        case AdminCategory => AdminRead
        case UserCategory => UserRead
        case _ => SystemHealth;
      assert KindOf(p) == k;
      KindPresent(p);
    }
  }

  /** The kind of any named permission occurs in the catalogue. */
  lemma KindPresent(p: Permission)
    requires !p.Custom?
    ensures exists i :: 0 <= i < |GetAllPermissions()| && KindOf(GetAllPermissions()[i]) == KindOf(p)
  {
    var all := GetAllPermissions();
    assert p in all;
  }

  /** The grouping partitions the catalogue into super (1), admin (9),
      user (5) and system (4), keeping catalogue order within each group. */
  lemma PermissionsByCategory()
    ensures "super" in GetPermissionsByCategory() && GetPermissionsByCategory()["super"] == [All]
    ensures "admin" in GetPermissionsByCategory() && GetPermissionsByCategory()["admin"] == AdminNamed && |AdminNamed| == 9
    ensures "user" in GetPermissionsByCategory() && GetPermissionsByCategory()["user"] == UserNamed && |UserNamed| == 5
    ensures "system" in GetPermissionsByCategory() && GetPermissionsByCategory()["system"] == SystemNamed && |SystemNamed| == 4
  {
    var all := GetAllPermissions();
    SuperBlock();
    GroupOf(all, SuperCategory, [All]);
    AdminBlock();
    GroupOf(all, AdminCategory, AdminNamed);
    UserBlock();
    GroupOf(all, UserCategory, UserNamed);
    SystemBlock();
    GroupOf(all, SystemCategory, SystemNamed);
  }

  // ---------------------------------------------------------------------
  // Permission strings
  // ---------------------------------------------------------------------

  /** `validate_permission_strings`: every string is parsed and printed
      back, so the call never fails and returns its input. */
  method ValidatePermissionStrings(permissions: seq<string>) returns (r: Result<seq<string>, AppError>)
    ensures r == Ok(permissions)
  {
    var valid: seq<string> := [];
    var i := 0;
    while i < |permissions|
      invariant 0 <= i <= |permissions|
      invariant valid == permissions[..i]
    {
      var p := FromString(permissions[i]);
      valid := valid + [ToString(p)];
      i := i + 1;
    }
    assert permissions[..|permissions|] == permissions;
    r := Ok(valid);
  }

  /** `is_valid_permission`: a reserved string, or any string holding a
      colon. */
  function IsValidPermission(s: string): (b: bool)
    ensures b <==> s in ReservedNames || ':' in s
  {
    match s
    case "*" => true
    case "admin:read" => true
    case "admin:write" => true
    case "admin:delete" => true
    case "admin:users" => true
    case "admin:roles" => true
    case "admin:logs" => true
    case "admin:database" => true
    case "admin:health" => true
    case "admin:metrics" => true
    case "user:read" => true
    case "user:write" => true
    case "user:delete" => true
    case "user:profile" => true
    case "user:create" => true
    case "system:health" => true
    case "system:metrics" => true
    case "system:logs" => true
    case "system:database" => true
    case _ => ':' in s
  }

  /** Every permission in the catalogue prints as a valid string, and a
      custom permission is valid exactly when its name holds a colon or is
      reserved. */
  lemma ValidityOfPrintedPermissions(p: Permission)
    ensures !p.Custom? ==> IsValidPermission(ToString(p))
    ensures p.Custom? ==> (IsValidPermission(ToString(p)) <==> p.name in ReservedNames || ':' in p.name)
  {
  }
}

=== FILE: permissions.dfy ===
// The permission algebra of the generated backend: the `Permission` enum
// with its string form, categories and inclusion, `PermissionSet` (a hash
// set of permissions, where holding `All` grants everything), and the
// default permission sets of the standard roles.

module Permissions {
  import opened Text

  datatype Permission =
    | All
    | AdminRead | AdminWrite | AdminDelete | AdminUsers | AdminRoles
    | AdminLogs | AdminDatabase | AdminHealth | AdminMetrics
    | UserRead | UserWrite | UserDelete | UserProfile | UserCreate
    | SystemHealth | SystemMetrics | SystemLogs | SystemDatabase
    | Custom(name: string)

  /** The string forms of the 19 named permissions. A custom permission
      spelled like one of them cannot survive a round trip. */
  const ReservedNames: set<string> := {
    "*",
    "admin:read", "admin:write", "admin:delete", "admin:users", "admin:roles",
    "admin:logs", "admin:database", "admin:health", "admin:metrics",
    "user:read", "user:write", "user:delete", "user:profile", "user:create",
    "system:health", "system:metrics", "system:logs", "system:database"
  }

  /** `Permission::to_string`. */
  function ToString(p: Permission): (s: string)
    ensures p.Custom? ==> s == p.name
    ensures !p.Custom? ==> s in ReservedNames
  {
    match p
    case All => "*"
    case AdminRead => "admin:read"
    case AdminWrite => "admin:write"
    case AdminDelete => "admin:delete"
    case AdminUsers => "admin:users"
    case AdminRoles => "admin:roles"
    case AdminLogs => "admin:logs"
    case AdminDatabase => "admin:database"
    case AdminHealth => "admin:health"
    case AdminMetrics => "admin:metrics"
    case UserRead => "user:read"
    case UserWrite => "user:write"
    case UserDelete => "user:delete"
    case UserProfile => "user:profile"
    case UserCreate => "user:create"
    case SystemHealth => "system:health"
    case SystemMetrics => "system:metrics"
    case SystemLogs => "system:logs"
    case SystemDatabase => "system:database"
    case Custom(s) => s
  }

  /** `Permission::from_string`: never fails; a string that names no
      permission becomes a custom one. Turning the result back into a string
      gives the input. */
  function FromString(s: string): (p: Permission)
    ensures ToString(p) == s
    ensures p.Custom? <==> s !in ReservedNames
  {
    match s
    case "*" => All
    case "admin:read" => AdminRead
    case "admin:write" => AdminWrite
    case "admin:delete" => AdminDelete
    case "admin:users" => AdminUsers
    case "admin:roles" => AdminRoles
    case "admin:logs" => AdminLogs
    case "admin:database" => AdminDatabase
    case "admin:health" => AdminHealth
    case "admin:metrics" => AdminMetrics
    case "user:read" => UserRead
    case "user:write" => UserWrite
    case "user:delete" => UserDelete
    case "user:profile" => UserProfile
    case "user:create" => UserCreate
    case "system:health" => SystemHealth
    case "system:metrics" => SystemMetrics
    case "system:logs" => SystemLogs
    case "system:database" => SystemDatabase
    case _ => Custom(s)
  }

  /** Parsing the string form gives back the permission, except for a custom
      permission spelled like a named one. */
  lemma FromStringToString(p: Permission)
    ensures FromString(ToString(p)) == p <==> !(p.Custom? && p.name in ReservedNames)
  {
    var q := FromString(ToString(p));
    assert ToString(q) == ToString(p);
    if !p.Custom? {
      assert !q.Custom?;
    }
  }

  /** Only the string "*" means every permission. */
  lemma FromStringAll(s: string)
    ensures FromString(s) == All <==> s == "*"
  {
    assert ToString(FromString(s)) == s;
  }

  /** The five categories a permission falls into. */
  datatype CategoryKind = SuperCategory | AdminCategory | UserCategory | SystemCategory | CustomCategory

  function KindOf(p: Permission): CategoryKind {
    match p
    case All => SuperCategory
    case AdminRead | AdminWrite | AdminDelete | AdminUsers | AdminRoles
      | AdminLogs | AdminDatabase | AdminHealth | AdminMetrics => AdminCategory
    case UserRead | UserWrite | UserDelete | UserProfile | UserCreate => UserCategory
    case SystemHealth | SystemMetrics | SystemLogs | SystemDatabase => SystemCategory
    case Custom(_) => CustomCategory
  }

  /** The name a category is reported under. */
  function KindName(k: CategoryKind): string {
    match k
    case SuperCategory => "super"
    case AdminCategory => "admin"
    case UserCategory => "user"
    case SystemCategory => "system"
    case CustomCategory => "custom"
  }

  /** Distinct categories have distinct names. */
  lemma KindNameInjective(a: CategoryKind, b: CategoryKind)
    ensures KindName(a) == KindName(b) <==> a == b
  {
    if a != b {
      var x, y := KindName(a), KindName(b);
      assert |x| != |y| || x[0] != y[0];
    }
  }

  /** `Permission::category`. The category of a named permission other than
      `All` is the part of its string form before the colon. */
  function Category(p: Permission): (c: string)
    ensures c in {"super", "admin", "user", "system", "custom"}
    ensures c == "super" <==> p == All
    ensures c == "custom" <==> p.Custom?
    ensures !p.All? && !p.Custom? ==> StartsWith(ToString(p), c + ":")
  {
    CategoryPrefix(p);
    KindName(KindOf(p))
  }

  /** The printed form of a named permission starts with its category's
      name and a colon. */
  lemma CategoryPrefix(p: Permission)
    ensures !p.All? && !p.Custom? ==> StartsWith(ToString(p), KindName(KindOf(p)) + ":")
  {
    match KindOf(p)
    case AdminCategory => AdminPrefix(p);
    case UserCategory => UserPrefix(p);
    case SystemCategory => SystemPrefix(p);
    case _ =>
  }

  lemma PrefixOf(pre: string, rest: string)
    ensures StartsWith(pre + rest, pre)
  {
    assert (pre + rest)[..|pre|] == pre;
  }

  lemma AdminPrefix(p: Permission)
    requires KindOf(p) == AdminCategory
    ensures StartsWith(ToString(p), "admin:")
  {
    var rest := match p
      case AdminRead => "read" case AdminWrite => "write" case AdminDelete => "delete"
      case AdminUsers => "users" case AdminRoles => "roles" case AdminLogs => "logs"
      case AdminDatabase => "database" case AdminHealth => "health" case _ => "metrics";
    assert ToString(p) == "admin:" + rest;
    PrefixOf("admin:", rest);
  }

  lemma UserPrefix(p: Permission)
    requires KindOf(p) == UserCategory
    ensures StartsWith(ToString(p), "user:")
  {
    var rest := match p
      case UserRead => "read" case UserWrite => "write" case UserDelete => "delete"
      case UserProfile => "profile" case _ => "create";
    assert ToString(p) == "user:" + rest;
    PrefixOf("user:", rest);
  }

  lemma SystemPrefix(p: Permission)
    requires KindOf(p) == SystemCategory
    ensures StartsWith(ToString(p), "system:")
  {
    var rest := match p
      case SystemHealth => "health" case SystemMetrics => "metrics" case SystemLogs => "logs"
      case _ => "database";
    assert ToString(p) == "system:" + rest;
    PrefixOf("system:", rest);
  }

  /** `Permission::includes`: `All` includes everything, any other
      permission only itself. */
  predicate Includes(a: Permission, b: Permission) {
    match a
    case All => true
    case _ => a == b
  }

  // ---------------------------------------------------------------------
  // PermissionSet
  // ---------------------------------------------------------------------

  /** `PermissionSet`: the permissions a holder was given. */
  type PermissionSet = set<Permission>

  /** `PermissionSet::contains`: granted directly or through `All`. */
  predicate Contains(s: PermissionSet, p: Permission) {
    All in s || p in s
  }

  /** A set grants a permission exactly when one of its members includes it. */
  lemma ContainsViaIncludes(s: PermissionSet, p: Permission)
    ensures Contains(s, p) <==> exists q :: q in s && Includes(q, p)
  {
    if Contains(s, p) {
      if All in s {
        assert Includes(All, p);
      } else {
        assert Includes(p, p);
      }
    }
  }

  /** `PermissionSet::from_vec`: duplicates collapse. */
  function FromVec(ps: seq<Permission>): (s: PermissionSet)
    ensures forall p :: p in s <==> p in ps
    ensures |s| <= |ps|
    decreases |ps|
  {
    if |ps| == 0 then {}
    else FromVec(ps[..|ps| - 1]) + {ps[|ps| - 1]}
  }

  /** Distinct permissions stay distinct: nothing collapses. */
  lemma {:induction false} FromVecDistinct(ps: seq<Permission>)
    requires forall i, j :: 0 <= i < j < |ps| ==> ps[i] != ps[j]
    ensures |FromVec(ps)| == |ps|
    decreases |ps|
  {
    if |ps| > 0 {
      var front := ps[..|ps| - 1];
      FromVecDistinct(front);
      assert ps[|ps| - 1] !in front;
    }
  }

  /** `PermissionSet::from_strings`: parse each string; duplicates collapse. */
  function FromStrings(ss: seq<string>): (s: PermissionSet)
    ensures forall p :: p in s <==> exists i :: 0 <= i < |ss| && FromString(ss[i]) == p
    ensures |s| <= |ss|
    decreases |ss|
  {
    if |ss| == 0 then {}
    else
      var front := FromStrings(ss[..|ss| - 1]);
      assert forall i :: 0 <= i < |ss| - 1 ==> ss[..|ss| - 1][i] == ss[i];
      front + {FromString(ss[|ss| - 1])}
  }

  /** A string list grants a permission exactly when it holds "*" or a
      string that parses to that permission. */
  lemma ContainsFromStrings(ss: seq<string>, p: Permission)
    ensures Contains(FromStrings(ss), p) <==>
      ("*" in ss || exists i :: 0 <= i < |ss| && FromString(ss[i]) == p)
  {
    if All in FromStrings(ss) {
      var i :| 0 <= i < |ss| && FromString(ss[i]) == All;
      FromStringAll(ss[i]);
    }
    if "*" in ss {
      var i :| 0 <= i < |ss| && ss[i] == "*";
      FromStringAll(ss[i]);
    }
  }

  /** `PermissionSet::add`: afterwards the set grants what it granted before
      and what the new permission includes. */
  function Add(s: PermissionSet, p: Permission): (r: PermissionSet)
    ensures p in r && s <= r && |r| <= |s| + 1
    ensures forall q :: Contains(r, q) <==> Contains(s, q) || Includes(p, q)
  {
    s + {p}
  }

  /** `PermissionSet::remove`: the permission is gone and nothing else is;
      removing anything but `All` leaves every other grant in place. */
  function Remove(s: PermissionSet, p: Permission): (r: PermissionSet)
    ensures p !in r && r <= s
    ensures forall q :: q != p ==> (q in r <==> q in s)
    ensures forall q :: Contains(r, q) ==> Contains(s, q)
    ensures p != All ==> forall q :: q != p ==> (Contains(r, q) <==> Contains(s, q))
  {
    s - {p}
  }

  /** `PermissionSet::merge`: the union, granting what either side grants. */
  function Merge(s: PermissionSet, other: PermissionSet): (r: PermissionSet)
    ensures s <= r && other <= r
    ensures forall q :: q in r ==> q in s || q in other
    ensures forall q :: Contains(r, q) <==> Contains(s, q) || Contains(other, q)
  {
    s + other
  }

  /** `PermissionSet::contains_any`: some listed permission is granted. */
  function ContainsAny(s: PermissionSet, ps: seq<Permission>): (r: bool)
    ensures r <==> exists i :: 0 <= i < |ps| && Contains(s, ps[i])
    decreases |ps|
  {
    if |ps| == 0 then false
    else Contains(s, ps[0]) || ContainsAny(s, ps[1..])
  }

  /** `PermissionSet::contains_all`: every listed permission is granted. */
  function ContainsAll(s: PermissionSet, ps: seq<Permission>): (r: bool)
    ensures r <==> forall i :: 0 <= i < |ps| ==> Contains(s, ps[i])
    decreases |ps|
  {
    if |ps| == 0 then true
    else Contains(s, ps[0]) && ContainsAll(s, ps[1..])
  }

  /** `PermissionSet::to_vec`: the members, each once, in the set's own
      (unspecified) order. */
  method ToVec(s: PermissionSet) returns (v: seq<Permission>)
    ensures |v| == |s|
    ensures forall p :: p in v <==> p in s
    ensures forall i, j :: 0 <= i < j < |v| ==> v[i] != v[j]
  {
    v := [];
    var rest := s;
    while rest != {}
      invariant rest <= s
      invariant forall p :: p in v <==> p in s - rest
      invariant forall i, j :: 0 <= i < j < |v| ==> v[i] != v[j]
      invariant |v| + |rest| == |s|
      decreases |rest|
    {
      var p :| p in rest;
      v := v + [p];
      rest := rest - {p};
    }
  }

  /** `PermissionSet::to_strings`: the string forms of the members, in the
      set's own order. */
  method ToStrings(s: PermissionSet) returns (ss: seq<string>)
    ensures |ss| == |s|
    ensures forall p :: p in s ==> ToString(p) in ss
    ensures forall i :: 0 <= i < |ss| ==> exists p :: p in s && ToString(p) == ss[i]
  {
    var v := ToVec(s);
    ss := [];
    var i := 0;
    while i < |v|
      invariant 0 <= i <= |v|
      invariant |ss| == i
      invariant forall k :: 0 <= k < i ==> ss[k] == ToString(v[k])
    {
      ss := ss + [ToString(v[i])];
      i := i + 1;
    }
    forall p | p in s
      ensures ToString(p) in ss
    {
      var k :| 0 <= k < |v| && v[k] == p;
      assert ss[k] == ToString(p);
    }
    forall k | 0 <= k < |ss|
      ensures exists p :: p in s && ToString(p) == ss[k]
    {
      assert v[k] in s && ToString(v[k]) == ss[k];
    }
  }

  // ---------------------------------------------------------------------
  // DefaultPermissions
  // ---------------------------------------------------------------------

  function SuperAdminPermissions(): PermissionSet {
    FromVec([All])
  }

  const AdminList: seq<Permission> :=
    [AdminRead, AdminWrite, AdminUsers, AdminRoles, AdminLogs, AdminDatabase,
     AdminHealth, AdminMetrics, UserRead, UserWrite, UserDelete, UserCreate]

  function AdminPermissions(): PermissionSet {
    FromVec(AdminList)
  }

  function UserPermissions(): PermissionSet {
    FromVec([UserProfile, UserRead])
  }

  function AdminReadonlyPermissions(): PermissionSet {
    FromVec([AdminRead, AdminLogs, AdminHealth, AdminMetrics, UserRead])
  }

  /** The super admin holds only the wildcard and so is granted everything. */
  lemma SuperAdminGrantsEverything()
    ensures SuperAdminPermissions() == {All}
    ensures forall p :: Contains(SuperAdminPermissions(), p)
  {
  }

  /** The admin set has twelve members. */
  lemma AdminPermissionCount()
    ensures |AdminPermissions()| == 12
  {
    AdminListDistinct();
    FromVecDistinct(AdminList);
  }

  /** The admin set lacks the wildcard, `AdminDelete` and `UserProfile`. */
  lemma AdminPermissionGaps()
    ensures All !in AdminPermissions() && AdminDelete !in AdminPermissions()
    ensures UserProfile !in AdminPermissions()
    ensures !Contains(AdminPermissions(), AdminDelete)
  {
  }

  lemma AdminListDistinct()
    ensures forall i, j :: 0 <= i < j < |AdminList| ==> AdminList[i] != AdminList[j]
  {
  }

  /** The read-only admin set lies inside the admin set. */
  lemma AdminReadonlyWithinAdmin()
    ensures AdminReadonlyPermissions() <= AdminPermissions()
    ensures forall p :: Contains(AdminReadonlyPermissions(), p) ==> Contains(AdminPermissions(), p)
  {
  }

  /** The user set is profile and read, and grants no write. */
  lemma UserPermissionFacts()
    ensures UserPermissions() == {UserProfile, UserRead}
    ensures !Contains(UserPermissions(), UserWrite)
  {
  }
}

=== FILE: scaffold.dfy ===
// The scaffolding engine: the catalog of files a new application consists
// of, the module filter that selects from it, and the renderer that fills
// the application name into each template.

module Scaffold {
  import opened Text

  /** A path as its sequence of components. The component "." is dropped, so
      `base.join(".")` and `base` are the same path, as they are for
      `std::path::Path` equality and for the filesystem. */
  type Path = seq<string>

  /** Every file the generator knows how to produce. */
  datatype RextFileType =
    RextConfig | ExampleEnv | DockerComposeYml | DockerIgnore | Dockerfile
    | GitIgnore | ReadmeMd | BuildRs | CargoToml | MainRs | BridgeModRs
    | HandlersModRs | HanlderWebsocketRs | HandlersAdminRs | HandlersRolesRs
    | HandlersAuthRs | MiddlewareModRs | MiddlewareAuthRs | MiddlewareAdminRs
    | MiddlewareLoggingRs | RoutesModRs | RoutesAuthRs | RoutesAdminRs
    | BridgeTypesModRs | BridgeTypesAdminRs | BridgeTypesAuthRs
    | BridgeTypesLoggingRs | ControlModRs | ServicesModRs | ServerConfigRs
    | StartupRs | UserServiceRs | DatabaseServiceRs | AdminServiceRs
    | TokenServiceRs | SessionServiceRs | AuthServiceRs | PermissionServiceRs
    | SystemMonitorServiceRs | DomainModRs | DomainPermissionsRs | DomainUserRs
    | DomainValidationRs | DomainAuthRs | EntityModRs | InfrastructureModRs
    | InfrastructureJobQueueRs | InfrastructureLoggingRs | InfrastructureSchedulerRs
    | InfrastructureWebsocketRs | InfrastructureAppErrorRs
    | InfrastructureDatabaseRs | InfrastructureEmailRs
    | InfrastructureQueryPerformanceRs | InfrastructureServerRs
    | InfrastructureCorsRs | InfrastructureOpenApiRs | InfrastructureJwtClaimsRs
    | MacrosModRs | PermissionMacroRs | PackageJson | ViteConfigTs | UnifiedConfigTs
    | OpenApiConfigTs | TsConfigTs | MigrationLibRs | MigrationMainRs
    | InitialMigrationRs | MigrationCargoToml

  /** The optional feature a file belongs to. */
  datatype RextModule = RextCore | RextAdmin | RextVue | RextQueue | RextEmail

  /** One row of the file table: the type, the file name, the directory
      relative to the project root, the owning module and whether the
      directory has to be created first. */
  datatype FileDef = FileDef(
    fileType: RextFileType,
    name: string,
    path: Path,
    owner: RextModule,
    needsDirectory: bool)

  /** The file table, in its declared order: the groups below, concatenated. */
  const Catalog: seq<FileDef> :=
    RootFiles + BackendFiles + ControlFiles + DomainFiles
    + InfrastructureFiles + MacroFiles + FrontendFiles + MigrationFiles

  /** Files in the project directory itself. */
  const RootFiles: seq<FileDef> := [
    FileDef(RextConfig, "rext.toml", [], RextCore, false),
    FileDef(ExampleEnv, "example.env", [], RextCore, false),
    FileDef(DockerComposeYml, "docker-compose.yml", [], RextCore, false),
    FileDef(DockerIgnore, "dockerignore", [], RextCore, false),
    FileDef(Dockerfile, "Dockerfile", [], RextCore, false),
    FileDef(GitIgnore, ".gitignore", [], RextCore, false),
    FileDef(ReadmeMd, "README.md", [], RextCore, false),
    FileDef(BuildRs, "build.rs", [], RextCore, false),
    FileDef(CargoToml, "Cargo.toml", [], RextCore, false)
  ]

  /** The backend entry point and its bridge layer (handlers, middleware,
      routes, types). */
  const BackendFiles: seq<FileDef> := HandlerFiles + PlumbingFiles

  /** The entry point, the bridge module and the request handlers. */
  const HandlerFiles: seq<FileDef> := [
    FileDef(MainRs, "main.rs", ["backend"], RextCore, true),
    FileDef(BridgeModRs, "mod.rs", ["backend", "bridge"], RextCore, true),
    FileDef(HandlersModRs, "mod.rs", ["backend", "bridge", "handlers"], RextCore, true),
    FileDef(HanlderWebsocketRs, "websocket.rs", ["backend", "bridge", "handlers"], RextCore, true),
    FileDef(HandlersAdminRs, "admin.rs", ["backend", "bridge", "handlers"], RextCore, true),
    FileDef(HandlersRolesRs, "roles.rs", ["backend", "bridge", "handlers"], RextCore, true),
    FileDef(HandlersAuthRs, "auth.rs", ["backend", "bridge", "handlers"], RextCore, true)
  ]

  /** Middleware, routes and the shared request and response types. */
  const PlumbingFiles: seq<FileDef> := [
    FileDef(MiddlewareModRs, "mod.rs", ["backend", "bridge", "middleware"], RextCore, true),
    FileDef(MiddlewareAuthRs, "auth.rs", ["backend", "bridge", "middleware"], RextCore, true),
    FileDef(MiddlewareAdminRs, "admin.rs", ["backend", "bridge", "middleware"], RextCore, true),
    FileDef(MiddlewareLoggingRs, "logging.rs", ["backend", "bridge", "middleware"], RextCore, true),
    FileDef(RoutesModRs, "mod.rs", ["backend", "bridge", "routes"], RextCore, true),
    FileDef(RoutesAdminRs, "admin.rs", ["backend", "bridge", "routes"], RextCore, true),
    FileDef(RoutesAuthRs, "auth.rs", ["backend", "bridge", "routes"], RextCore, true),
    FileDef(BridgeTypesModRs, "mod.rs", ["backend", "bridge", "types"], RextCore, true),
    FileDef(BridgeTypesAdminRs, "admin.rs", ["backend", "bridge", "types"], RextCore, true),
    FileDef(BridgeTypesAuthRs, "auth.rs", ["backend", "bridge", "types"], RextCore, true),
    FileDef(BridgeTypesLoggingRs, "logging.rs", ["backend", "bridge", "types"], RextCore, true)
  ]

  /** The control layer and its services. */
  const ControlFiles: seq<FileDef> := [
    FileDef(ControlModRs, "mod.rs", ["backend", "control"], RextCore, true),
    FileDef(ServicesModRs, "mod.rs", ["backend", "control", "services"], RextCore, true),
    FileDef(ServerConfigRs, "server_config.rs", ["backend", "control", "services"], RextCore, true),
    FileDef(StartupRs, "startup.rs", ["backend", "control", "services"], RextCore, true),
    FileDef(UserServiceRs, "user_service.rs", ["backend", "control", "services"], RextCore, true),
    FileDef(DatabaseServiceRs, "database_service.rs", ["backend", "control", "services"], RextCore, true),
    FileDef(AdminServiceRs, "admin_service.rs", ["backend", "control", "services"], RextCore, true),
    FileDef(TokenServiceRs, "token_service.rs", ["backend", "control", "services"], RextCore, true),
    FileDef(SessionServiceRs, "session_service.rs", ["backend", "control", "services"], RextCore, true),
    FileDef(AuthServiceRs, "auth_service.rs", ["backend", "control", "services"], RextCore, true),
    FileDef(PermissionServiceRs, "permission_service.rs", ["backend", "control", "services"], RextCore, true),
    FileDef(SystemMonitorServiceRs, "system_monitor.rs", ["backend", "control", "services"], RextCore, true)
  ]

  /** The domain layer and the entity module. */
  const DomainFiles: seq<FileDef> := [
    FileDef(DomainModRs, "mod.rs", ["backend", "domain"], RextCore, true),
    FileDef(DomainPermissionsRs, "permissions.rs", ["backend", "domain"], RextCore, true),
    FileDef(DomainUserRs, "user.rs", ["backend", "domain"], RextCore, true),
    FileDef(DomainValidationRs, "validation.rs", ["backend", "domain"], RextCore, true),
    FileDef(DomainAuthRs, "auth.rs", ["backend", "domain"], RextCore, true),
    FileDef(EntityModRs, "mod.rs", ["backend", "entity"], RextCore, true)
  ]

  /** The infrastructure layer. */
  const InfrastructureFiles: seq<FileDef> := [
    FileDef(InfrastructureModRs, "mod.rs", ["backend", "infrastructure"], RextCore, true),
    FileDef(InfrastructureJobQueueRs, "job_queue.rs", ["backend", "infrastructure"], RextCore, true),
    FileDef(InfrastructureLoggingRs, "logging.rs", ["backend", "infrastructure"], RextCore, true),
    FileDef(InfrastructureSchedulerRs, "scheduler.rs", ["backend", "infrastructure"], RextCore, true),
    FileDef(InfrastructureWebsocketRs, "websocket.rs", ["backend", "infrastructure"], RextCore, true),
    FileDef(InfrastructureAppErrorRs, "app_error.rs", ["backend", "infrastructure"], RextCore, true),
    FileDef(InfrastructureEmailRs, "email.rs", ["backend", "infrastructure"], RextCore, true),
    FileDef(InfrastructureDatabaseRs, "database.rs", ["backend", "infrastructure"], RextCore, true),
    FileDef(InfrastructureQueryPerformanceRs, "query_performance.rs", ["backend", "infrastructure"], RextCore, true),
    FileDef(InfrastructureServerRs, "server.rs", ["backend", "infrastructure"], RextCore, true),
    FileDef(InfrastructureCorsRs, "cors.rs", ["backend", "infrastructure"], RextCore, true),
    FileDef(InfrastructureOpenApiRs, "openapi.rs", ["backend", "infrastructure"], RextCore, true),
    FileDef(InfrastructureJwtClaimsRs, "jwt_claims.rs", ["backend", "infrastructure"], RextCore, true)
  ]

  /** The permission macros inside the infrastructure layer. */
  const MacroFiles: seq<FileDef> := [
    FileDef(MacrosModRs, "mod.rs", ["backend", "infrastructure", "macros"], RextCore, true),
    FileDef(PermissionMacroRs, "permission_macro.rs", ["backend", "infrastructure", "macros"], RextCore, true)
  ]

  /** The frontend build and configuration files. */
  const FrontendFiles: seq<FileDef> := [
    FileDef(PackageJson, "package.json", ["frontend"], RextCore, true),
    FileDef(ViteConfigTs, "vite.config.ts", ["frontend"], RextCore, true),
    FileDef(UnifiedConfigTs, "unified.config.ts", ["frontend", "config"], RextCore, true),
    FileDef(OpenApiConfigTs, "openapi-ts.config.ts", ["frontend"], RextCore, true),
    FileDef(TsConfigTs, "tsconfig.json", ["frontend"], RextCore, true)
  ]

  /** The database migration crate. */
  const MigrationFiles: seq<FileDef> := [
    FileDef(MigrationLibRs, "lib.rs", ["migration", "src"], RextCore, true),
    FileDef(MigrationMainRs, "main.rs", ["migration", "src"], RextCore, true),
    FileDef(InitialMigrationRs, "initial_migration.rs", ["migration", "src"], RextCore, true),
    FileDef(MigrationCargoToml, "Cargo.toml", ["migration"], RextCore, true)
  ]

  // ---------------------------------------------------------------------
  // Facts about the table
  // ---------------------------------------------------------------------

  lemma CatalogSize()
    ensures |Catalog| == 69
  {
  }

  /** Every row of the table belongs to the core module. */
  lemma CatalogAllCore()
    ensures forall i :: 0 <= i < |Catalog| ==> Catalog[i].owner == RextCore
  {
    CatalogRowsShaped();
  }

  /** A row asks for its directory to be created exactly when that directory
      is not the project root. */
  lemma CatalogNeedsDirectory()
    ensures forall i :: 0 <= i < |Catalog| ==> (Catalog[i].needsDirectory <==> Catalog[i].path != [])
  {
    CatalogRowsShaped();
  }

  /** Every row belongs to the core module and needs its directory created
      exactly when it is not at the root. */
  predicate RowsShaped(defs: seq<FileDef>) {
    forall i :: 0 <= i < |defs| ==> defs[i].owner == RextCore && (defs[i].needsDirectory <==> defs[i].path != [])
  }

  lemma ShapedAppend(a: seq<FileDef>, b: seq<FileDef>)
    requires RowsShaped(a) && RowsShaped(b)
    ensures RowsShaped(a + b)
  {
    forall i | 0 <= i < |a + b|
      ensures (a + b)[i].owner == RextCore && ((a + b)[i].needsDirectory <==> (a + b)[i].path != [])
    {
      if i < |a| {
        assert (a + b)[i] == a[i];
      } else {
        assert (a + b)[i] == b[i - |a|];
      }
    }
  }

  lemma CatalogRowsShaped()
    ensures RowsShaped(Catalog)
  {
    RootRowsShaped();
    HandlerRowsShaped();
    PlumbingRowsShaped();
    ControlRowsShaped();
    DomainRowsShaped();
    InfrastructureRowsShaped();
    MacroRowsShaped();
    FrontendRowsShaped();
    MigrationRowsShaped();
    ShapedAppend(HandlerFiles, PlumbingFiles);
    var front := RootFiles;
    ShapedAppend(front, BackendFiles);
    front := front + BackendFiles;
    ShapedAppend(front, ControlFiles);
    front := front + ControlFiles;
    ShapedAppend(front, DomainFiles);
    front := front + DomainFiles;
    ShapedAppend(front, InfrastructureFiles);
    front := front + InfrastructureFiles;
    ShapedAppend(front, MacroFiles);
    front := front + MacroFiles;
    ShapedAppend(front, FrontendFiles);
    front := front + FrontendFiles;
    ShapedAppend(front, MigrationFiles);
  }

  lemma RootRowsShaped()
    ensures RowsShaped(RootFiles)
  {
  }

  lemma HandlerRowsShaped()
    ensures RowsShaped(HandlerFiles)
  {
  }

  lemma PlumbingRowsShaped()
    ensures RowsShaped(PlumbingFiles)
  {
  }

  lemma ControlRowsShaped()
    ensures RowsShaped(ControlFiles)
  {
  }

  lemma DomainRowsShaped()
    ensures RowsShaped(DomainFiles)
  {
  }

  lemma InfrastructureRowsShaped()
    ensures RowsShaped(InfrastructureFiles)
  {
  }

  lemma MacroRowsShaped()
    ensures RowsShaped(MacroFiles)
  {
  }

  lemma FrontendRowsShaped()
    ensures RowsShaped(FrontendFiles)
  {
  }

  lemma MigrationRowsShaped()
    ensures RowsShaped(MigrationFiles)
  {
  }

  /** Where a row's file lands, relative to the project directory. */
  function RelativePath(d: FileDef): Path {
    d.path + [d.name]
  }

  predicate DistinctRelativePaths(defs: seq<FileDef>) {
    forall i, j :: 0 <= i < j < |defs| ==> RelativePath(defs[i]) != RelativePath(defs[j])
  }

  /** No two rows of the table name the same file. */
  lemma CatalogPathsDistinct()
    ensures DistinctRelativePaths(Catalog)
  {
    RootPrints(); BackendPrints(); ControlPrints(); DomainPrints();
    InfrastructurePrints(); MacroPrints(); FrontendPrints(); MigrationPrints();
    RootDirsCover(); ControlDirsCover(); DomainDirsCover();
    InfrastructureDirsCover(); MacroDirsCover(); FrontendDirsCover(); MigrationDirsCover();
    var dirs := RootDirs;
    ExtendDistinct(RootFiles, BackendFiles, dirs, BackendDirs);
    dirs := dirs + BackendDirs;
    ExtendDistinct(RootFiles + BackendFiles, ControlFiles, dirs, ControlDirs);
    dirs := dirs + ControlDirs;
    ExtendDistinct(RootFiles + BackendFiles + ControlFiles, DomainFiles, dirs, DomainDirs);
    dirs := dirs + DomainDirs;
    var front := RootFiles + BackendFiles + ControlFiles + DomainFiles;
    ExtendDistinct(front, InfrastructureFiles, dirs, InfrastructureDirs);
    dirs := dirs + InfrastructureDirs;
    ExtendDistinct(front + InfrastructureFiles, MacroFiles, dirs, MacroDirs);
    dirs := dirs + MacroDirs;
    front := front + InfrastructureFiles + MacroFiles;
    ExtendDistinct(front, FrontendFiles, dirs, FrontendDirs);
    dirs := dirs + FrontendDirs;
    ExtendDistinct(front + FrontendFiles, MigrationFiles, dirs, MigrationDirs);
    forall i, j | 0 <= i < j < |Catalog|
      ensures RelativePath(Catalog[i]) != RelativePath(Catalog[j])
    {
      PrintOfRelativePath(Catalog[i], Catalog[j]);
    }
  }

  // The distinctness proof compares cheap summaries of the rows instead of
  // the strings themselves: the depth of the directory, the length and first
  // letter of its last component, and the length and first letter of the
  // file name. Within the table these summaries are already pairwise
  // different.

  datatype DirPrint = DirPrint(depth: nat, lastLength: nat, lastHead: char)
  datatype RowPrint = RowPrint(depth: nat, lastLength: nat, lastHead: char, nameLength: nat, nameHead: char)

  function Head(s: string): char {
    if |s| == 0 then ' ' else s[0]
  }

  function DirPrintOf(d: FileDef): DirPrint {
    if |d.path| == 0 then DirPrint(0, 0, ' ')
    else DirPrint(|d.path|, |d.path[|d.path| - 1]|, Head(d.path[|d.path| - 1]))
  }

  function RowPrintOf(d: FileDef): RowPrint {
    var dir := DirPrintOf(d);
    RowPrint(dir.depth, dir.lastLength, dir.lastHead, |d.name|, Head(d.name))
  }

  lemma PrintOfRelativePath(a: FileDef, b: FileDef)
    ensures RelativePath(a) == RelativePath(b) ==> RowPrintOf(a) == RowPrintOf(b)
  {
    if RelativePath(a) == RelativePath(b) {
      assert |a.path| == |b.path|;
      assert a.path == RelativePath(a)[..|a.path|] == RelativePath(b)[..|b.path|] == b.path;
      assert a.name == RelativePath(a)[|a.path|] == RelativePath(b)[|b.path|] == b.name;
    }
  }

  predicate DistinctPrints(defs: seq<FileDef>) {
    forall i, j :: 0 <= i < j < |defs| ==> RowPrintOf(defs[i]) != RowPrintOf(defs[j])
  }

  /** Two lists of rows with distinct prints, none shared between them,
      make a list with distinct prints. */
  lemma AppendDistinct(a: seq<FileDef>, b: seq<FileDef>)
    requires DistinctPrints(a) && DistinctPrints(b)
    requires forall i, j :: 0 <= i < |a| && 0 <= j < |b| ==> RowPrintOf(a[i]) != RowPrintOf(b[j])
    ensures DistinctPrints(a + b)
  {
    var all := a + b;
    forall i, j | 0 <= i < j < |all|
      ensures RowPrintOf(all[i]) != RowPrintOf(all[j])
    {
      if j < |a| {
        assert all[i] == a[i] && all[j] == a[j];
      } else if i < |a| {
        assert all[i] == a[i] && all[j] == b[j - |a|];
      } else {
        assert all[i] == b[i - |a|] && all[j] == b[j - |a|];
      }
    }
  }

  predicate DirsWithin(defs: seq<FileDef>, dirs: set<DirPrint>) {
    forall i :: 0 <= i < |defs| ==> DirPrintOf(defs[i]) in dirs
  }

  const RootDirs: set<DirPrint> := {DirPrint(0, 0, ' ')}
  const HandlerDirs: set<DirPrint> := {DirPrint(1, 7, 'b'), DirPrint(2, 6, 'b'), DirPrint(3, 8, 'h')}
  const PlumbingDirs: set<DirPrint> := {DirPrint(3, 10, 'm'), DirPrint(3, 6, 'r'), DirPrint(3, 5, 't')}
  const BackendDirs: set<DirPrint> := HandlerDirs + PlumbingDirs
  const ControlDirs: set<DirPrint> := {DirPrint(2, 7, 'c'), DirPrint(3, 8, 's')}
  const DomainDirs: set<DirPrint> := {DirPrint(2, 6, 'd'), DirPrint(2, 6, 'e')}
  const InfrastructureDirs: set<DirPrint> := {DirPrint(2, 14, 'i')}
  const MacroDirs: set<DirPrint> := {DirPrint(3, 6, 'm')}
  const FrontendDirs: set<DirPrint> := {DirPrint(1, 8, 'f'), DirPrint(2, 6, 'c')}
  const MigrationDirs: set<DirPrint> := {DirPrint(2, 3, 's'), DirPrint(1, 9, 'm')}

  lemma RootPrints()
    ensures DistinctPrints(RootFiles)
  {
  }

  lemma RootDirsCover()
    ensures DirsWithin(RootFiles, RootDirs)
  {
  }

  lemma HandlerPrints()
    ensures DistinctPrints(HandlerFiles)
  {
    var n := |HandlerFiles| / 2;
    HandlerHeadPrints(); HandlerTailPrints(); HandlerCrossPrints();
    AppendDistinct(HandlerFiles[..n], HandlerFiles[n..]);
    assert HandlerFiles == HandlerFiles[..n] + HandlerFiles[n..];
  }

  lemma HandlerHeadPrints()
    ensures DistinctPrints(HandlerFiles[..|HandlerFiles| / 2])
  {
  }

  lemma HandlerTailPrints()
    ensures DistinctPrints(HandlerFiles[|HandlerFiles| / 2..])
  {
  }

  lemma HandlerCrossPrints()
    ensures forall i, j :: 0 <= i < |HandlerFiles| / 2 <= j < |HandlerFiles| ==>
      RowPrintOf(HandlerFiles[i]) != RowPrintOf(HandlerFiles[j])
  {
  }

  lemma HandlerDirsCover()
    ensures DirsWithin(HandlerFiles, HandlerDirs)
  {
  }

  lemma PlumbingPrints()
    ensures DistinctPrints(PlumbingFiles)
  {
    var n := |PlumbingFiles| / 2;
    PlumbingHeadPrints(); PlumbingTailPrints(); PlumbingCrossPrints();
    AppendDistinct(PlumbingFiles[..n], PlumbingFiles[n..]);
    assert PlumbingFiles == PlumbingFiles[..n] + PlumbingFiles[n..];
  }

  lemma PlumbingHeadPrints()
    ensures DistinctPrints(PlumbingFiles[..|PlumbingFiles| / 2])
  {
  }

  lemma PlumbingTailPrints()
    ensures DistinctPrints(PlumbingFiles[|PlumbingFiles| / 2..])
  {
  }

  lemma PlumbingCrossPrints()
    ensures forall i, j :: 0 <= i < |PlumbingFiles| / 2 <= j < |PlumbingFiles| ==>
      RowPrintOf(PlumbingFiles[i]) != RowPrintOf(PlumbingFiles[j])
  {
  }

  lemma PlumbingDirsCover()
    ensures DirsWithin(PlumbingFiles, PlumbingDirs)
  {
  }

  lemma BackendPrints()
    ensures DistinctPrints(BackendFiles)
    ensures DirsWithin(BackendFiles, BackendDirs)
  {
    HandlerPrints(); HandlerDirsCover(); PlumbingPrints(); PlumbingDirsCover();
    ExtendDistinct(HandlerFiles, PlumbingFiles, HandlerDirs, PlumbingDirs);
  }

  lemma ControlPrints()
    ensures DistinctPrints(ControlFiles)
  {
    var n := |ControlFiles| / 2;
    ControlHeadPrints(); ControlTailPrints(); ControlCrossPrints();
    AppendDistinct(ControlFiles[..n], ControlFiles[n..]);
    assert ControlFiles == ControlFiles[..n] + ControlFiles[n..];
  }

  lemma ControlHeadPrints()
    ensures DistinctPrints(ControlFiles[..|ControlFiles| / 2])
  {
  }

  lemma ControlTailPrints()
    ensures DistinctPrints(ControlFiles[|ControlFiles| / 2..])
  {
  }

  lemma ControlCrossPrints()
    ensures forall i, j :: 0 <= i < |ControlFiles| / 2 <= j < |ControlFiles| ==>
      RowPrintOf(ControlFiles[i]) != RowPrintOf(ControlFiles[j])
  {
  }

  lemma ControlDirsCover()
    ensures DirsWithin(ControlFiles, ControlDirs)
  {
  }

  lemma DomainPrints()
    ensures DistinctPrints(DomainFiles)
  {
  }

  lemma DomainDirsCover()
    ensures DirsWithin(DomainFiles, DomainDirs)
  {
  }

  lemma InfrastructurePrints()
    ensures DistinctPrints(InfrastructureFiles)
  {
    var n := |InfrastructureFiles| / 2;
    InfrastructureHeadPrints(); InfrastructureTailPrints(); InfrastructureCrossPrints();
    AppendDistinct(InfrastructureFiles[..n], InfrastructureFiles[n..]);
    assert InfrastructureFiles == InfrastructureFiles[..n] + InfrastructureFiles[n..];
  }

  lemma InfrastructureHeadPrints()
    ensures DistinctPrints(InfrastructureFiles[..|InfrastructureFiles| / 2])
  {
  }

  lemma InfrastructureTailPrints()
    ensures DistinctPrints(InfrastructureFiles[|InfrastructureFiles| / 2..])
  {
  }

  lemma InfrastructureCrossPrints()
    ensures forall i, j :: 0 <= i < |InfrastructureFiles| / 2 <= j < |InfrastructureFiles| ==>
      RowPrintOf(InfrastructureFiles[i]) != RowPrintOf(InfrastructureFiles[j])
  {
  }

  lemma InfrastructureDirsCover()
    ensures DirsWithin(InfrastructureFiles, InfrastructureDirs)
  {
  }

  lemma MacroPrints()
    ensures DistinctPrints(MacroFiles)
  {
  }

  lemma MacroDirsCover()
    ensures DirsWithin(MacroFiles, MacroDirs)
  {
  }

  lemma FrontendPrints()
    ensures DistinctPrints(FrontendFiles)
  {
  }

  lemma FrontendDirsCover()
    ensures DirsWithin(FrontendFiles, FrontendDirs)
  {
  }

  lemma MigrationPrints()
    ensures DistinctPrints(MigrationFiles)
  {
  }

  lemma MigrationDirsCover()
    ensures DirsWithin(MigrationFiles, MigrationDirs)
  {
  }

  lemma ExtendDistinct(front: seq<FileDef>, group: seq<FileDef>, a: set<DirPrint>, b: set<DirPrint>)
    requires DistinctPrints(front) && DirsWithin(front, a)
    requires DistinctPrints(group) && DirsWithin(group, b)
    requires a !! b
    ensures DistinctPrints(front + group) && DirsWithin(front + group, a + b)
  {
    var all := front + group;
    forall i, j | 0 <= i < j < |all|
      ensures RowPrintOf(all[i]) != RowPrintOf(all[j])
    {
      if j < |front| {
      } else if i >= |front| {
        assert all[i] == group[i - |front|] && all[j] == group[j - |front|];
      } else {
        assert DirPrintOf(all[i]) in a && DirPrintOf(all[j]) in b;
      }
    }
  }

  // ---------------------------------------------------------------------
  // Generated files
  // ---------------------------------------------------------------------

  /** A file ready to be written: its name, rendered content, directory
      relative to the project root, owning module and directory flag. */
  datatype RextFile = RextFile(
    name: string,
    content: string,
    path: Path,
    owner: RextModule,
    needsDirectory: bool)

  /** `RextFile::directory_path`: the file's directory under `base`. */
  function DirectoryPath(f: RextFile, base: Path): (p: Path)
    ensures |p| == |base| + |f.path|
    ensures p[..|base|] == base && p[|base|..] == f.path
  {
    base + f.path
  }

  /** `RextFile::full_path`: the file's own path under `base`, which is its
      directory followed by its name. */
  function FullPath(f: RextFile, base: Path): (p: Path)
    ensures p == DirectoryPath(f, base) + [f.name]
    ensures p[..|base|] == base
  {
    base + f.path + [f.name]
  }

  /** The application name and the modules to generate files for. */
  datatype FileCreationConfig = FileCreationConfig(appName: string, modules: seq<RextModule>)

  /** `FileCreationConfig::default()`. */
  const DefaultConfig: FileCreationConfig := FileCreationConfig("my-rext-app", [RextCore])

  /** The placeholder the templates use for the application name. */
  const AppNameToken: string := "{app_name}"

  /** `process_template`: every `{app_name}` in the template, found in one
      left-to-right pass, becomes the application name. Equivalently the
      template is cut at each occurrence of the token and glued back with the
      name in between; a template without the token comes back unchanged. */
  function ProcessTemplate(content: string, config: FileCreationConfig): (r: string)
    ensures r == Join(Split(content, AppNameToken), config.appName)
    ensures !Contains(content, AppNameToken) ==> r == content
  {
    ReplaceIsSplitJoin(content, AppNameToken, config.appName);
    if Contains(content, AppNameToken) then ReplaceAll(content, AppNameToken, config.appName)
    else
      ReplaceAbsent(content, AppNameToken, config.appName);
      ReplaceAll(content, AppNameToken, config.appName)
  }

  /** The inserted name is never scanned again: an application literally
      named `{app_name}` keeps every placeholder as it was. */
  lemma ProcessTemplateSelfNamed(content: string, config: FileCreationConfig)
    requires config.appName == AppNameToken
    ensures ProcessTemplate(content, config) == content
  {
    ReplaceBySelf(content, AppNameToken);
  }

  /** Rendering is one pass, so a placeholder can survive it: with an empty
      name, `{app_{app_name}name}` renders to a fresh `{app_name}`. */
  lemma ProcessTemplateCanLeaveToken(x: string, y: string, config: FileCreationConfig)
    requires x == "{app_" && y == "name}" && config.appName == ""
    ensures ProcessTemplate(x + AppNameToken + y, config) == AppNameToken
  {
    SplitTokenGlued(x, y);
  }

  lemma SplitTokenGlued(x: string, y: string)
    requires x == "{app_" && y == "name}"
    ensures ReplaceAll(x + AppNameToken + y, AppNameToken, "") == AppNameToken
  {
    NoTokenInGlue(x, y);
    GluedPatternRemoved(x, AppNameToken, y);
  }

  /** Removing a pattern from `x + pat + y`, when no occurrence starts in
      `x` and `y` is too short to hold one, leaves `x + y`. */
  lemma GluedPatternRemoved(x: string, pat: string, y: string)
    requires |pat| > 0 && |y| < |pat|
    requires forall i :: 0 <= i < |x| ==> !OccursAt(x + (pat + y), pat, i)
    ensures ReplaceAll(x + pat + y, pat, "") == x + y
  {
    ReplaceSkipsPrefix(x, pat + y, pat, "");
    ReplaceLeadingShort(pat, y);
    assert x + pat + y == x + (pat + y);
  }

  /** No occurrence of the token starts inside `{app_`, even with the
      token glued after it. */
  lemma NoTokenInGlue(x: string, y: string)
    requires x == "{app_" && y == "name}"
    ensures forall i :: 0 <= i < |x| ==> !OccursAt(x + (AppNameToken + y), AppNameToken, i)
    ensures x + y == AppNameToken
  {
    var s := x + (AppNameToken + y);
    forall i | 0 <= i < |x|
      ensures !OccursAt(s, AppNameToken, i)
    {
      if i == 0 {
        assert s[5] != AppNameToken[5];
      } else {
        assert s[i] != AppNameToken[0];
      }
    }
  }

  /** A leading pattern followed by text too short to hold it is removed. */
  lemma ReplaceLeadingShort(pat: string, y: string)
    requires |pat| > 0 && |y| < |pat|
    ensures ReplaceAll(pat + y, pat, "") == y
  {
    assert (pat + y)[..|pat|] == pat;
    assert (pat + y)[|pat|..] == y;
  }

  /** A table row turned into a file, with its template rendered. The
      template bodies are opaque text, supplied by `templates`. */
  function Render(d: FileDef, config: FileCreationConfig, templates: RextFileType -> string): (f: RextFile)
    ensures f.name == d.name && f.path == d.path && f.owner == d.owner
    ensures f.needsDirectory == d.needsDirectory
    ensures f.content == ProcessTemplate(templates(d.fileType), config)
  {
    RextFile(d.name, ProcessTemplate(templates(d.fileType), config), d.path, d.owner, d.needsDirectory)
  }

  /** The positions of the rows whose module is enabled: increasing, each an
      enabled row, and every enabled row among them. */
  function SelectedIndices(defs: seq<FileDef>, modules: seq<RextModule>): (idx: seq<nat>)
    ensures forall k :: 0 <= k < |idx| ==> idx[k] < |defs| && defs[idx[k]].owner in modules
    ensures forall k, l :: 0 <= k < l < |idx| ==> idx[k] < idx[l]
    ensures forall i :: 0 <= i < |defs| && defs[i].owner in modules ==> i in idx
    decreases |defs|
  {
    if |defs| == 0 then []
    else
      var front := SelectedIndices(defs[..|defs| - 1], modules);
      if defs[|defs| - 1].owner in modules then front + [|defs| - 1] else front
  }

  /** The loop of `get_rext_files` over a table: the enabled rows, rendered,
      in table order. */
  function SelectFiles(defs: seq<FileDef>, config: FileCreationConfig,
                       templates: RextFileType -> string): (files: seq<RextFile>)
    ensures |files| == |SelectedIndices(defs, config.modules)|
    ensures forall k :: 0 <= k < |files| ==>
      files[k] == Render(defs[SelectedIndices(defs, config.modules)[k]], config, templates)
    decreases |defs|
  {
    if |defs| == 0 then []
    else
      var front := SelectFiles(defs[..|defs| - 1], config, templates);
      if defs[|defs| - 1].owner in config.modules
      then front + [Render(defs[|defs| - 1], config, templates)]
      else front
  }

  /** `get_rext_files`: the table rows whose module is enabled, in table
      order, each rendered for the configuration. */
  function GetRextFiles(config: FileCreationConfig, templates: RextFileType -> string): (files: seq<RextFile>)
    ensures |files| == |SelectedIndices(Catalog, config.modules)|
    ensures forall k :: 0 <= k < |files| ==>
      files[k] == Render(Catalog[SelectedIndices(Catalog, config.modules)[k]], config, templates)
  {
    SelectFiles(Catalog, config, templates)
  }

  /** When every row is enabled, every row is selected, in order. */
  lemma {:induction false} AllRowsSelected(defs: seq<FileDef>, modules: seq<RextModule>)
    requires forall i :: 0 <= i < |defs| ==> defs[i].owner in modules
    ensures SelectedIndices(defs, modules) == seq(|defs|, i => i)
    decreases |defs|
  {
    if |defs| > 0 {
      AllRowsSelected(defs[..|defs| - 1], modules);
    }
  }

  /** When no row is enabled, no row is selected. */
  lemma {:induction false} NoRowSelected(defs: seq<FileDef>, modules: seq<RextModule>)
    requires forall i :: 0 <= i < |defs| ==> defs[i].owner !in modules
    ensures SelectedIndices(defs, modules) == []
    decreases |defs|
  {
    if |defs| > 0 {
      NoRowSelected(defs[..|defs| - 1], modules);
    }
  }

  /** Without the core module nothing is generated, since the whole table
      belongs to it. */
  lemma NoCoreNoFiles(config: FileCreationConfig, templates: RextFileType -> string)
    requires RextCore !in config.modules
    ensures GetRextFiles(config, templates) == []
  {
    CatalogAllCore();
    NoRowSelected(Catalog, config.modules);
  }

  /** With the core module every table row is generated, in table order. */
  lemma CoreSelectsWholeCatalog(config: FileCreationConfig, templates: RextFileType -> string)
    requires RextCore in config.modules
    ensures |GetRextFiles(config, templates)| == |Catalog|
    ensures forall i :: 0 <= i < |Catalog| ==>
      GetRextFiles(config, templates)[i] == Render(Catalog[i], config, templates)
  {
    CatalogAllCore();
    AllRowsSelected(Catalog, config.modules);
  }

  /** The default configuration generates all 69 files. */
  lemma DefaultConfigGeneratesAll(templates: RextFileType -> string)
    ensures |GetRextFiles(DefaultConfig, templates)| == 69
  {
    CatalogSize();
    CoreSelectsWholeCatalog(DefaultConfig, templates);
  }

  /** No two generated files share a full path, whatever the base directory
      and configuration. */
  lemma GeneratedPathsDistinct(config: FileCreationConfig, templates: RextFileType -> string, base: Path)
    ensures forall k, l :: 0 <= k < l < |GetRextFiles(config, templates)| ==>
      FullPath(GetRextFiles(config, templates)[k], base) != FullPath(GetRextFiles(config, templates)[l], base)
  {
    var files := GetRextFiles(config, templates);
    var idx := SelectedIndices(Catalog, config.modules);
    CatalogPathsDistinct();
    forall k, l | 0 <= k < l < |files|
      ensures FullPath(files[k], base) != FullPath(files[l], base)
    {
      assert idx[k] < idx[l];
      assert RelativePath(Catalog[idx[k]]) != RelativePath(Catalog[idx[l]]);
      assert FullPath(files[k], base) == base + RelativePath(Catalog[idx[k]]);
      assert FullPath(files[l], base) == base + RelativePath(Catalog[idx[l]]);
      assert (base + RelativePath(Catalog[idx[k]]))[|base|..] == RelativePath(Catalog[idx[k]]);
      assert (base + RelativePath(Catalog[idx[l]]))[|base|..] == RelativePath(Catalog[idx[l]]);
    }
  }
}

=== FILE: system_monitor.dfy ===
// Uptime formatting of the generated backend's system monitor.

module SystemMonitor {
  import opened Text

  const SECONDS_PER_MINUTE: nat := 60
  const SECONDS_PER_HOUR: nat := 3600
  const SECONDS_PER_DAY: nat := 86400

  /** Whole days, hours and minutes of an uptime. */
  datatype Uptime = Uptime(days: nat, hours: nat, minutes: nat)

  /** The split `format_uptime` makes: days, the hours left over, the
      minutes left over; leftover seconds are dropped. */
  function UptimeParts(seconds: nat): (u: Uptime)
    ensures u.hours < 24 && u.minutes < 60
    ensures u.days * SECONDS_PER_DAY + u.hours * SECONDS_PER_HOUR + u.minutes * SECONDS_PER_MINUTE <= seconds
    ensures seconds < u.days * SECONDS_PER_DAY + u.hours * SECONDS_PER_HOUR + u.minutes * SECONDS_PER_MINUTE + 60
  {
    UptimeDecomposition(seconds);
    Uptime(seconds / 86400, (seconds % 86400) / 3600, (seconds % 3600) / 60)
  }

  /** The seconds are the days, hours and minutes `format_uptime` computes
      plus fewer than 60 leftover seconds. */
  lemma UptimeDecomposition(seconds: nat)
    ensures (seconds % 86400) / 3600 < 24 && (seconds % 3600) / 60 < 60 && seconds % 60 < 60
    ensures seconds == 86400 * (seconds / 86400) + 3600 * ((seconds % 86400) / 3600)
                       + 60 * ((seconds % 3600) / 60) + seconds % 60
  {
    var m, r0 := seconds / 60, seconds % 60;
    var d, r1 := m / 1440, m % 1440;
    var h, mm := r1 / 60, r1 % 60;
    DivMod(seconds, 60);
    DivMod(m, 1440);
    DivMod(r1, 60);
    HoursBelowDay(r1);
    Compose(seconds, m, r0, d, r1, h, mm);
    var x := 3600 * h + 60 * mm + r0;
    DivUnique(seconds, 86400, d, x);
    DivUnique(x, 3600, h, 60 * mm + r0);
    DivUnique(seconds, 3600, 24 * d + h, 60 * mm + r0);
    DivUnique(60 * mm + r0, 60, mm, r0);
  }

  lemma DivMod(n: int, divisor: int)
    requires divisor > 0
    ensures n == divisor * (n / divisor) + n % divisor && 0 <= n % divisor < divisor
  {
  }

  lemma HoursBelowDay(r1: int)
    requires 0 <= r1 < 1440
    ensures r1 / 60 < 24
  {
  }

  /** Minutes split into days and hours, put back together as seconds. */
  lemma Compose(s: int, m: int, r0: int, d: int, r1: int, h: int, mm: int)
    requires s == 60 * m + r0 && m == 1440 * d + r1 && r1 == 60 * h + mm
    ensures s == 86400 * d + 3600 * h + 60 * mm + r0
  {
  }

  /** The three quotients agree with splitting the whole minutes into
      days of 1440 minutes and hours of 60. */
  lemma PartsFromMinutes(seconds: nat)
    ensures seconds / 86400 == (seconds / 60) / 1440
    ensures (seconds % 86400) / 3600 == ((seconds / 60) % 1440) / 60
    ensures (seconds % 3600) / 60 == (seconds / 60) % 60
  {
    var m, r0 := seconds / 60, seconds % 60;
    var d, r1 := m / 1440, m % 1440;
    var h, mm := r1 / 60, r1 % 60;
    assert seconds == 86400 * d + (3600 * h + 60 * mm + r0);
    DivUnique(seconds, 86400, d, 3600 * h + 60 * mm + r0);
    DivUnique(3600 * h + 60 * mm + r0, 3600, h, 60 * mm + r0);
    assert seconds == 3600 * (24 * d + h) + (60 * mm + r0);
    DivUnique(seconds, 3600, 24 * d + h, 60 * mm + r0);
    DivUnique(60 * mm + r0, 60, mm, r0);
    assert m == 60 * (24 * d + h) + mm;
    DivUnique(m, 60, 24 * d + h, mm);
  }

  /** Quotient and remainder are the only such pair. */
  lemma DivUnique(n: int, divisor: int, q: int, r: int)
    requires divisor > 0 && 0 <= r < divisor && n == divisor * q + r
    ensures n / divisor == q && n % divisor == r
  {
    var q', r' := n / divisor, n % divisor;
    assert divisor * (q' - q) == r - r';
    if q' > q {
      MulAtLeast(q' - q, divisor);
    } else if q' < q {
      MulAtLeast(q - q', divisor);
    }
  }

  lemma MulAtLeast(a: int, b: int)
    requires a >= 1 && b > 0
    ensures b * a >= b
  {
  }

  /** A number followed by its unit text. */
  function Tagged(n: nat, tag: string): string {
    NatToString(n) + tag
  }

  /** The text for a split uptime: "Dd Hh Mm" once there is a day,
      "Hh Mm" once there is an hour, "Mm" below that; zero hours and
      minutes are still printed after a larger unit. */
  function Render(u: Uptime): (r: string)
    ensures 'd' in r <==> u.days > 0
    ensures 'h' in r <==> u.days > 0 || u.hours > 0
    ensures |r| >= 2 && r[|r| - 1] == 'm'
  {
    var d, h, m := NatToString(u.days), NatToString(u.hours), NatToString(u.minutes);
    assert 'd' !in d && 'h' !in d && 'd' !in h && 'h' !in h && 'd' !in m && 'h' !in m;
    if u.days > 0 then Tagged(u.days, "d ") + (Tagged(u.hours, "h ") + Tagged(u.minutes, "m"))
    else if u.hours > 0 then Tagged(u.hours, "h ") + Tagged(u.minutes, "m")
    else Tagged(u.minutes, "m")
  }

  /** `format_uptime`: the rendered split of the seconds. */
  function FormatUptime(seconds: nat): (r: string)
    ensures 'd' in r <==> seconds >= SECONDS_PER_DAY
    ensures 'h' in r <==> seconds >= SECONDS_PER_HOUR
    ensures |r| >= 2 && r[|r| - 1] == 'm'
  {
    Render(UptimeParts(seconds))
  }

  /** Digits followed by a non-digit determine the number and the rest. */
  lemma DigitsThenTag(a: nat, b: nat, t1: string, t2: string)
    requires NatToString(a) + t1 == NatToString(b) + t2
    requires |t1| > 0 && !('0' <= t1[0] <= '9')
    requires |t2| > 0 && !('0' <= t2[0] <= '9')
    ensures a == b && t1 == t2
  {
    var sa, sb := NatToString(a), NatToString(b);
    var s := sa + t1;
    assert s[|sa|] == t1[0];
    assert s == sb + t2;
    assert s[|sb|] == t2[0];
    assert |sa| == |sb|;
    assert sa == s[..|sa|] == sb;
    assert t1 == s[|sa|..] == t2;
    NatToStringInjective(a, b);
  }

  /** A tagged number followed by more text determines the number and
      the text after it. */
  lemma TagPeel(a: nat, b: nat, tag: string, r1: string, r2: string)
    requires Tagged(a, tag) + r1 == Tagged(b, tag) + r2
    requires |tag| > 0 && !('0' <= tag[0] <= '9')
    ensures a == b && r1 == r2
  {
    assert Tagged(a, tag) + r1 == NatToString(a) + (tag + r1);
    assert Tagged(b, tag) + r2 == NatToString(b) + (tag + r2);
    DigitsThenTag(a, b, tag + r1, tag + r2);
    assert r1 == (tag + r1)[|tag|..] == (tag + r2)[|tag|..] == r2;
  }

  /** "Nh Mm" determines both numbers. */
  lemma HoursMinutesText(h1: nat, m1: nat, h2: nat, m2: nat)
    requires Tagged(h1, "h ") + Tagged(m1, "m") == Tagged(h2, "h ") + Tagged(m2, "m")
    ensures h1 == h2 && m1 == m2
  {
    TagPeel(h1, h2, "h ", Tagged(m1, "m"), Tagged(m2, "m"));
    DigitsThenTag(m1, m2, "m", "m");
  }

  /** The text determines the split it was rendered from. */
  lemma RenderInjective(u: Uptime, v: Uptime)
    requires Render(u) == Render(v)
    ensures u == v
  {
    if u.days > 0 {
      TagPeel(u.days, v.days, "d ", Tagged(u.hours, "h ") + Tagged(u.minutes, "m"),
              Tagged(v.hours, "h ") + Tagged(v.minutes, "m"));
      HoursMinutesText(u.hours, u.minutes, v.hours, v.minutes);
    } else if u.hours > 0 {
      HoursMinutesText(u.hours, u.minutes, v.hours, v.minutes);
    } else {
      DigitsThenTag(u.minutes, v.minutes, "m", "m");
    }
  }

  /** Reading a formatted uptime back: two uptimes print the same text
      exactly when they agree in whole minutes. */
  lemma FormatUptimeInjective(a: nat, b: nat)
    ensures FormatUptime(a) == FormatUptime(b) <==> a / 60 == b / 60
  {
    PartsFromMinutes(a);
    PartsFromMinutes(b);
    var ua, ub := UptimeParts(a), UptimeParts(b);
    assert a / 60 == ua.days * 1440 + ua.hours * 60 + ua.minutes;
    assert b / 60 == ub.days * 1440 + ub.hours * 60 + ub.minutes;
    if FormatUptime(a) == FormatUptime(b) {
      RenderInjective(ua, ub);
    }
  }

  /** Anything under a minute prints as "0m". */
  lemma UnderAMinute(seconds: nat)
    requires seconds < 60
    ensures FormatUptime(seconds) == "0m"
  {
    assert UptimeParts(seconds) == Uptime(0, 0, 0);
  }

  /** The examples the module's own tests check. */
  lemma FormatUptimeExamples()
    ensures FormatUptime(3661) == "1h 1m"
    ensures FormatUptime(86400) == "1d 0h 0m"
    ensures FormatUptime(3600) == "1h 0m"
    ensures FormatUptime(120) == "2m"
  {
    HourAndMinute();
    WholeDay();
    WholeHour();
    TwoMinutes();
  }

  lemma HourAndMinute()
    ensures FormatUptime(3661) == "1h 1m"
  {
    assert UptimeParts(3661) == Uptime(0, 1, 1);
  }

  lemma WholeDay()
    ensures FormatUptime(86400) == "1d 0h 0m"
  {
    assert UptimeParts(86400) == Uptime(1, 0, 0);
  }

  lemma WholeHour()
    ensures FormatUptime(3600) == "1h 0m"
  {
    assert UptimeParts(3600) == Uptime(0, 1, 0);
  }

  lemma TwoMinutes()
    ensures FormatUptime(120) == "2m"
  {
    assert UptimeParts(120) == Uptime(0, 0, 2);
  }
}

=== FILE: text.dfy ===
/** String operations the Rust sources take from the standard library:
    `str::replace`, `contains`, `starts_with`, `trim`, `split_once`, byte
    length, and decimal formatting of unsigned integers.  A Rust `&str` is
    a sequence of Unicode scalar values here; its byte length is `Utf8Len`. */
module Text {
  import opened Basics

  /** `p` occurs in `s` starting at index `i`. */
  predicate OccursAt(s: string, p: string, i: int) {
    0 <= i && i + |p| <= |s| && s[i..i + |p|] == p
  }

  /** `s.contains(p)` for a string pattern. */
  predicate Contains(s: string, p: string) {
    exists i | 0 <= i <= |s| - |p| :: OccursAt(s, p, i)
  }

  /** `s.starts_with(p)`. */
  predicate StartsWith(s: string, p: string) {
    |p| <= |s| && s[..|p|] == p
  }

  lemma OccursInTail(s: string, p: string, i: int)
    requires |s| > 0 && OccursAt(s[1..], p, i)
    ensures OccursAt(s, p, i + 1)
  {
    assert s[i + 1..i + 1 + |p|] == s[1..][i..i + |p|];
  }

  lemma OccursInSuffix(s: string, p: string, k: nat, i: int)
    requires k <= |s| && OccursAt(s[k..], p, i)
    ensures OccursAt(s, p, i + k)
  {
    assert s[i + k..i + k + |p|] == s[k..][i..i + |p|];
  }

  /** An occurrence of `q` inside an occurrence of `p` is an occurrence in `s`. */
  lemma ContainsTransitive(s: string, p: string, q: string)
    requires Contains(s, p) && Contains(p, q)
    ensures Contains(s, q)
  {
    var i :| 0 <= i <= |s| - |p| && OccursAt(s, p, i);
    var j :| 0 <= j <= |p| - |q| && OccursAt(p, q, j);
    assert forall k | 0 <= k < |q| :: s[i + j + k] == p[j + k] == q[k];
    assert s[i + j..i + j + |q|] == q;
    assert OccursAt(s, q, i + j);
  }

  // ---------------------------------------------------------------------
  // str::replace
  // ---------------------------------------------------------------------

  /** `s.replace(pat, rep)`: one left-to-right pass over `s`, replacing each
      leftmost non-overlapping occurrence of `pat`; the inserted text is
      never scanned again.  Every pattern the sources pass is a non-empty
      literal. */
  function ReplaceAll(s: string, pat: string, rep: string): string
    requires |pat| > 0
    decreases |s|
  {
    if |s| < |pat| then s
    else if s[..|pat|] == pat then rep + ReplaceAll(s[|pat|..], pat, rep)
    else [s[0]] + ReplaceAll(s[1..], pat, rep)
  }

  /** Text without the pattern comes back unchanged. */
  lemma {:induction false} ReplaceAbsent(s: string, pat: string, rep: string)
    requires |pat| > 0 && !Contains(s, pat)
    ensures ReplaceAll(s, pat, rep) == s
    decreases |s|
  {
    if |s| < |pat| {
    } else {
      assert !OccursAt(s, pat, 0);
      if Contains(s[1..], pat) {
        var i :| 0 <= i <= |s[1..]| - |pat| && OccursAt(s[1..], pat, i);
        OccursInTail(s, pat, i);
      }
      ReplaceAbsent(s[1..], pat, rep);
    }
  }

  lemma OccursShift(s: string, p: string, i: nat)
    requires |s| > 0
    ensures OccursAt(s[1..], p, i) <==> OccursAt(s, p, i + 1)
  {
    if i + 1 + |p| <= |s| {
      assert s[i + 1..i + 1 + |p|] == s[1..][i..i + |p|];
    }
  }

  /** A prefix in which no occurrence of `pat` starts is copied through
      unchanged. */
  lemma {:induction false} ReplaceSkipsPrefix(x: string, s: string, pat: string, rep: string)
    requires |pat| > 0
    requires forall i :: 0 <= i < |x| ==> !OccursAt(x + s, pat, i)
    ensures ReplaceAll(x + s, pat, rep) == x + ReplaceAll(s, pat, rep)
    decreases |x|
  {
    if |x| > 0 {
      var t := x + s;
      assert t[1..] == x[1..] + s;
      forall i | 0 <= i < |x| - 1
        ensures !OccursAt(x[1..] + s, pat, i)
      {
        OccursShift(t, pat, i);
      }
      ReplaceSkipsPrefix(x[1..], s, pat, rep);
      assert !OccursAt(t, pat, 0);
      if |t| >= |pat| {
        assert t[..|pat|] != pat by { assert t[0..|pat|] == t[..|pat|]; }
        assert x == [x[0]] + x[1..];
        assert ReplaceAll(t, pat, rep) == [x[0]] + (x[1..] + ReplaceAll(s, pat, rep));
      } else {
        assert ReplaceAll(s, pat, rep) == s;
      }
    } else {
      assert x + s == s;
    }
  }

  /** The pieces of `s` between the leftmost non-overlapping occurrences of
      `pat` (Rust's `s.split(pat)`); there is always at least one piece. */
  function Split(s: string, pat: string): (parts: seq<string>)
    requires |pat| > 0
    ensures |parts| >= 1
    decreases |s|
  {
    if |s| < |pat| then [s]
    else if s[..|pat|] == pat then [""] + Split(s[|pat|..], pat)
    else
      var rest := Split(s[1..], pat);
      [[s[0]] + rest[0]] + rest[1..]
  }

  /** The pieces joined with `sep` between consecutive pieces. */
  function Join(parts: seq<string>, sep: string): string
    decreases |parts|
  {
    if |parts| == 0 then ""
    else if |parts| == 1 then parts[0]
    else parts[0] + sep + Join(parts[1..], sep)
  }

  lemma JoinExtendHead(c: string, parts: seq<string>, sep: string)
    requires |parts| >= 1
    ensures Join([c + parts[0]] + parts[1..], sep) == c + Join(parts, sep)
  {
    var ps := [c + parts[0]] + parts[1..];
    assert ps[1..] == parts[1..];
  }

  /** Replacing is splitting on the pattern and joining with the replacement. */
  lemma {:induction false} ReplaceIsSplitJoin(s: string, pat: string, rep: string)
    requires |pat| > 0
    ensures ReplaceAll(s, pat, rep) == Join(Split(s, pat), rep)
    decreases |s|
  {
    if |s| < |pat| {
    } else if s[..|pat|] == pat {
      ReplaceIsSplitJoin(s[|pat|..], pat, rep);
      var ps := [""] + Split(s[|pat|..], pat);
      assert ps[1..] == Split(s[|pat|..], pat);
    } else {
      ReplaceIsSplitJoin(s[1..], pat, rep);
      JoinExtendHead([s[0]], Split(s[1..], pat), rep);
    }
  }

  /** Replacing a pattern by itself changes nothing. */
  lemma {:induction false} ReplaceBySelf(s: string, pat: string)
    requires |pat| > 0
    ensures ReplaceAll(s, pat, pat) == s
    decreases |s|
  {
    if |s| < |pat| {
    } else if s[..|pat|] == pat {
      ReplaceBySelf(s[|pat|..], pat);
      assert s == s[..|pat|] + s[|pat|..];
    } else {
      ReplaceBySelf(s[1..], pat);
      assert s == [s[0]] + s[1..];
    }
  }

  /** Joining the pieces with the pattern rebuilds the input. */
  lemma SplitJoinRoundTrip(s: string, pat: string)
    requires |pat| > 0
    ensures Join(Split(s, pat), pat) == s
  {
    ReplaceIsSplitJoin(s, pat, pat);
    ReplaceBySelf(s, pat);
  }

  /** The first piece is a prefix of the input. */
  lemma {:induction false} SplitHeadIsPrefix(s: string, pat: string)
    requires |pat| > 0
    ensures StartsWith(s, Split(s, pat)[0])
    decreases |s|
  {
    if |s| < |pat| {
    } else if s[..|pat|] == pat {
    } else {
      SplitHeadIsPrefix(s[1..], pat);
    }
  }

  /** No occurrence of the pattern starts inside the first piece: the split
      is at the leftmost occurrence. */
  lemma {:induction false} SplitHeadIsLeftmost(s: string, pat: string)
    requires |pat| > 0
    ensures forall i :: 0 <= i < |Split(s, pat)[0]| ==> !OccursAt(s, pat, i)
    decreases |s|
  {
    if |s| < |pat| {
    } else if s[..|pat|] == pat {
    } else {
      SplitHeadIsLeftmost(s[1..], pat);
      forall i | 0 < i < |Split(s, pat)[0]|
        ensures !OccursAt(s, pat, i)
      {
        if OccursAt(s, pat, i) {
          assert s[1..][i - 1..i - 1 + |pat|] == s[i..i + |pat|];
          assert OccursAt(s[1..], pat, i - 1);
        }
      }
    }
  }

  /** No piece contains the pattern. */
  lemma {:induction false} SplitPiecesAreFree(s: string, pat: string)
    requires |pat| > 0
    ensures forall k :: 0 <= k < |Split(s, pat)| ==> !Contains(Split(s, pat)[k], pat)
    decreases |s|
  {
    var parts := Split(s, pat);
    if |s| < |pat| {
      assert forall i :: !OccursAt(s, pat, i);
    } else if s[..|pat|] == pat {
      SplitPiecesAreFree(s[|pat|..], pat);
      assert forall i :: !OccursAt("", pat, i);
      assert forall k :: 1 <= k < |parts| ==> parts[k] == Split(s[|pat|..], pat)[k - 1];
    } else {
      var rest := Split(s[1..], pat);
      SplitPiecesAreFree(s[1..], pat);
      assert forall k :: 1 <= k < |parts| ==> parts[k] == rest[k];
      var head := [s[0]] + rest[0];
      SplitHeadIsPrefix(s[1..], pat);
      forall i | OccursAt(head, pat, i)
        ensures false
      {
        if i > 0 {
          assert rest[0][i - 1..i - 1 + |pat|] == head[i..i + |pat|];
          assert OccursAt(rest[0], pat, i - 1);
        }
      }
    }
  }

  // ---------------------------------------------------------------------
  // Whitespace trimming (`str::trim`)
  // ---------------------------------------------------------------------

  /** The characters with the Unicode White_Space property, which
      `str::trim` strips. */
  const WHITESPACE: set<char> := {
    '\U{9}', '\U{A}', '\U{B}', '\U{C}', '\U{D}', '\U{20}', '\U{85}', '\U{A0}',
    '\U{1680}', '\U{2000}', '\U{2001}', '\U{2002}', '\U{2003}', '\U{2004}', '\U{2005}',
    '\U{2006}', '\U{2007}', '\U{2008}', '\U{2009}', '\U{200A}', '\U{2028}', '\U{2029}',
    '\U{202F}', '\U{205F}', '\U{3000}'
  }

  predicate IsWhitespace(c: char) {
    c in WHITESPACE
  }

  /** Number of whitespace characters `s` starts with. */
  function LeadingWhitespace(s: string): (n: nat)
    ensures n <= |s|
    ensures forall i :: 0 <= i < n ==> IsWhitespace(s[i])
    ensures n == |s| || !IsWhitespace(s[n])
    decreases |s|
  {
    if |s| > 0 && IsWhitespace(s[0]) then 1 + LeadingWhitespace(s[1..]) else 0
  }

  /** Number of whitespace characters `s` ends with. */
  function TrailingWhitespace(s: string): (n: nat)
    ensures n <= |s|
    ensures forall i :: |s| - n <= i < |s| ==> IsWhitespace(s[i])
    ensures n == |s| || !IsWhitespace(s[|s| - n - 1])
    decreases |s|
  {
    if |s| > 0 && IsWhitespace(s[|s| - 1]) then 1 + TrailingWhitespace(s[..|s| - 1]) else 0
  }

  /** Every character of `t` is whitespace. */
  predicate AllWhitespace(t: string) {
    forall i :: 0 <= i < |t| ==> IsWhitespace(t[i])
  }

  /** `s.trim()`: `s` with only whitespace cut off around the result, and the
      result neither starts nor ends with whitespace. */
  function Trim(s: string): (r: string)
    ensures exists pre, post :: AllWhitespace(pre) && AllWhitespace(post) && s == pre + r + post
    ensures |r| == 0 || (!IsWhitespace(r[0]) && !IsWhitespace(r[|r| - 1]))
  {
    var a := LeadingWhitespace(s);
    var b := TrailingWhitespace(s[a..]);
    TrimFacts(s, a, b);
    s[a..][..|s| - a - b]
  }

  lemma TrimFacts(s: string, a: nat, b: nat)
    requires a == LeadingWhitespace(s) && b == TrailingWhitespace(s[a..])
    ensures a + b <= |s|
    ensures exists pre, post :: AllWhitespace(pre) && AllWhitespace(post) && s == pre + s[a..][..|s| - a - b] + post
    ensures |s[a..][..|s| - a - b]| == 0 ||
      (!IsWhitespace(s[a..][..|s| - a - b][0]) && !IsWhitespace(s[a..][..|s| - a - b][|s| - a - b - 1]))
  {
    var t := s[a..];
    forall i | |s| - b <= i < |s|
      ensures IsWhitespace(s[i])
    {
      assert s[i] == t[i - a];
    }
    var r := t[..|t| - b];
    TrimWitness(s, a, b, r);
    if |r| > 0 {
      assert r[0] == s[a];
      assert r[|r| - 1] == t[|t| - b - 1];
    }
  }

  /** Whitespace cut from both ends leaves the middle, with whitespace
      around it. */
  lemma TrimWitness(s: string, a: nat, b: nat, r: string)
    requires a <= |s| && b <= |s| - a
    requires forall i :: 0 <= i < a ==> IsWhitespace(s[i])
    requires forall i :: |s| - b <= i < |s| ==> IsWhitespace(s[i])
    requires r == s[a..][..|s| - a - b]
    ensures exists pre, post :: AllWhitespace(pre) && AllWhitespace(post) && s == pre + r + post
  {
    TrimShape(s, a, b);
    var pre, post := s[..a], s[a..][|s| - a - b..];
    assert AllWhitespace(pre) && AllWhitespace(post) && s == pre + r + post;
  }

  /** Neither end of `s` is whitespace. */
  predicate IsTrimmed(s: string) {
    |s| == 0 || (!IsWhitespace(s[0]) && !IsWhitespace(s[|s| - 1]))
  }

  /** Trimming is idempotent: trimmed text is its own trim, and every trim
      result is trimmed. */
  lemma TrimTrimmed(s: string)
    ensures IsTrimmed(Trim(s))
    ensures IsTrimmed(s) ==> Trim(s) == s
  {
    if IsTrimmed(s) {
      assert LeadingWhitespace(s) == 0;
      assert s[0..] == s;
      assert TrailingWhitespace(s) == 0;
    }
  }

  lemma TrimShape(s: string, a: nat, b: nat)
    requires a <= |s| && b <= |s| - a
    requires forall i :: 0 <= i < a ==> IsWhitespace(s[i])
    requires forall i :: |s| - b <= i < |s| ==> IsWhitespace(s[i])
    ensures AllWhitespace(s[..a]) && AllWhitespace(s[a..][|s| - a - b..])
    ensures s == s[..a] + s[a..][..|s| - a - b] + s[a..][|s| - a - b..]
  {
    ThreeWaySplit(s, a, b);
  }

  lemma ThreeWaySplit(s: string, a: nat, b: nat)
    requires a <= |s| && b <= |s| - a
    ensures s == s[..a] + s[a..][..|s| - a - b] + s[a..][|s| - a - b..]
  {
  }

  // ---------------------------------------------------------------------
  // split_once on a character
  // ---------------------------------------------------------------------

  /** `s.split_once(c)`: the text before and after the first `c`. */
  function SplitOnce(s: string, c: char): (r: Option<(string, string)>)
    ensures r.None? <==> c !in s
    ensures r.Some? ==> s == r.value.0 + [c] + r.value.1 && c !in r.value.0
    decreases |s|
  {
    if |s| == 0 then None
    else if s[0] == c then Some(([], s[1..]))
    else
      match SplitOnce(s[1..], c)
      case None => None
      case Some((a, b)) => Some(([s[0]] + a, b))
  }

  // ---------------------------------------------------------------------
  // UTF-8 length (`str::len`)
  // ---------------------------------------------------------------------

  /** Bytes one scalar value takes in UTF-8. */
  function Utf8Width(c: char): nat {
    var n := c as int;
    if n < 0x80 then 1
    else if n < 0x800 then 2
    else if n < 0x1_0000 then 3
    else 4
  }

  /** `s.len()`: the UTF-8 byte length. */
  function Utf8Len(s: string): nat
    decreases |s|
  {
    if |s| == 0 then 0 else Utf8Width(s[0]) + Utf8Len(s[1..])
  }

  /** Every character takes at least one byte, so the byte length is at
      least the character count; the two agree on ASCII text. */
  lemma {:induction false} Utf8LenBounds(s: string)
    ensures |s| <= Utf8Len(s) <= 4 * |s|
    ensures (forall i :: 0 <= i < |s| ==> s[i] as int < 0x80) ==> Utf8Len(s) == |s|
    decreases |s|
  {
    if |s| > 0 {
      Utf8LenBounds(s[1..]);
    }
  }

  // ---------------------------------------------------------------------
  // Decimal formatting of unsigned integers (`{}` on u64)
  // ---------------------------------------------------------------------

  function DigitChar(d: nat): char
    requires d < 10
  {
    ('0' as int + d) as char
  }

  /** Decimal digits of `n`, no sign, no leading zeros. */
  function NatToString(n: nat): (r: string)
    ensures |r| >= 1
    ensures forall i :: 0 <= i < |r| ==> '0' <= r[i] <= '9'
    ensures |r| > 1 ==> r[0] != '0'
    decreases n
  {
    if n < 10 then [DigitChar(n)] else NatToString(n / 10) + [DigitChar(n % 10)]
  }

  function DigitValue(c: char): nat
    requires '0' <= c <= '9'
  {
    (c as int - '0' as int) as nat
  }

  /** The value of a string of decimal digits. */
  function ParseDecimal(s: string): nat
    requires forall i :: 0 <= i < |s| ==> '0' <= s[i] <= '9'
    decreases |s|
  {
    if |s| == 0 then 0 else 10 * ParseDecimal(s[..|s| - 1]) + DigitValue(s[|s| - 1])
  }

  /** Formatting a number and reading the digits back gives the number. */
  lemma {:induction false} NatToStringRoundTrip(n: nat)
    ensures ParseDecimal(NatToString(n)) == n
    decreases n
  {
    if n >= 10 {
      NatToStringRoundTrip(n / 10);
      var s := NatToString(n);
      assert s[..|s| - 1] == NatToString(n / 10);
      assert DigitValue(s[|s| - 1]) == n % 10;
    }
  }

  /** Distinct numbers format differently. */
  lemma NatToStringInjective(m: nat, n: nat)
    requires NatToString(m) == NatToString(n)
    ensures m == n
  {
    NatToStringRoundTrip(m);
    NatToStringRoundTrip(n);
  }
}

=== FILE: token_service.dfy ===
// The token service of the generated backend: reading the bearer token out
// of the Authorization header and the checks made on a decoded token.
// JWT decoding, the clock, UUID parsing and the session lookup are
// parameters.

module TokenService {
  import opened Basics
  import opened Text

  type Byte = b: nat | b < 256

  /** The bytes `HeaderValue::to_str` accepts: visible ASCII and tab. */
  predicate VisibleAscii(b: Byte) {
    (32 <= b < 127) || b == 9
  }

  /** `HeaderValue::to_str`: the header as text when every byte is
      visible ASCII. */
  function HeaderText(bytes: seq<Byte>): (r: Option<string>)
    ensures r.Some? <==> forall i :: 0 <= i < |bytes| ==> VisibleAscii(bytes[i])
    ensures r.Some? ==> |r.value| == |bytes| && forall i :: 0 <= i < |bytes| ==> r.value[i] as int == bytes[i]
  {
    if forall i :: 0 <= i < |bytes| ==> VisibleAscii(bytes[i])
    then Some(seq(|bytes|, i requires 0 <= i < |bytes| => bytes[i] as char))
    else None
  }

  /** The bytes of ASCII text. */
  function AsciiBytes(s: string): (bytes: seq<Byte>)
    requires forall i :: 0 <= i < |s| ==> s[i] as int < 256
    ensures |bytes| == |s| && forall i :: 0 <= i < |s| ==> bytes[i] == s[i] as int
  {
    seq(|s|, i requires 0 <= i < |s| => s[i] as int)
  }

  const BearerPrefix := "Bearer "

  const MissingHeader := AppError("Missing Authorization header", UNAUTHORIZED)
  const InvalidHeaderFormat := AppError("Invalid Authorization header format", UNAUTHORIZED)
  const InvalidToken := AppError("Invalid token", UNAUTHORIZED)
  const TokenExpired := AppError("Token expired", UNAUTHORIZED)
  const InvalidUserIdInToken := AppError("Invalid user ID in token", UNAUTHORIZED)
  const InvalidSessionIdInToken := AppError("Invalid session ID in token", UNAUTHORIZED)

  /** `extract_token_from_header`: the Authorization header (`None` when
      absent) must read as text and start with exactly "Bearer "; the token
      is the rest, untouched. */
  function ExtractTokenFromHeader(header: Option<seq<Byte>>): (r: Result<string, AppError>)
    ensures (header.None? || HeaderText(header.value).None?) ==> r == Err(MissingHeader)
    ensures header.Some? && HeaderText(header.value).Some? && !StartsWith(HeaderText(header.value).value, BearerPrefix) ==>
      r == Err(InvalidHeaderFormat)
    ensures r.Ok? ==> header.Some? && HeaderText(header.value) == Some(BearerPrefix + r.value)
  {
    if header.None? then Err(MissingHeader)
    else
      match HeaderText(header.value)
      case None => Err(MissingHeader)
      case Some(text) =>
        if StartsWith(text, BearerPrefix) then
          assert text == BearerPrefix + text[|BearerPrefix|..];
          Ok(text[|BearerPrefix|..])
        else Err(InvalidHeaderFormat)
  }

  /** A header built as "Bearer " + token hands back the token, for every
      token of visible ASCII. */
  lemma ExtractTokenRoundTrip(token: string)
    requires forall i :: 0 <= i < |token| ==> (32 <= token[i] as int < 127 || token[i] == '\t')
    ensures ExtractTokenFromHeader(Some(AsciiBytes(BearerPrefix + token))) == Ok(token)
  {
    var s := BearerPrefix + token;
    var bytes := AsciiBytes(s);
    assert forall i :: 0 <= i < |bytes| ==> VisibleAscii(bytes[i]) by {
      forall i | 0 <= i < |bytes|
        ensures VisibleAscii(bytes[i])
      {
        if i >= |BearerPrefix| {
          assert s[i] == token[i - |BearerPrefix|];
        }
      }
    }
    var text := HeaderText(bytes).value;
    assert text == s;
    assert StartsWith(text, BearerPrefix);
    assert text[|BearerPrefix|..] == token;
  }

  /** The prefix is case-sensitive and needs its space; a missing header is
      refused with 401. */
  lemma ExtractTokenExamples()
    ensures ExtractTokenFromHeader(None) == Err(MissingHeader)
    ensures ExtractTokenFromHeader(Some(AsciiBytes("bearer abc"))) == Err(InvalidHeaderFormat)
    ensures ExtractTokenFromHeader(Some(AsciiBytes("Bearer"))) == Err(InvalidHeaderFormat)
    ensures ExtractTokenFromHeader(Some(NonAscii)) == Err(MissingHeader)
  {
    assert !VisibleAscii(NonAscii[0]);
    assert HeaderText(NonAscii).None?;
    var a := AsciiBytes("bearer abc");
    assert HeaderText(a).Some?;
    assert HeaderText(a).value == "bearer abc";
    assert HeaderText(a).value[0] != BearerPrefix[0];
    var b := AsciiBytes("Bearer");
    assert HeaderText(b).Some?;
    assert |HeaderText(b).value| < |BearerPrefix|;
  }

  /** A header holding one byte outside ASCII. */
  const NonAscii: seq<Byte> := [0x80]

  /** The claims a decoded token carries. */
  datatype Claims = Claims(sub: string, exp: nat, sessionId: string)

  /** `validate_token_claims`: `decode` stands for JWT decoding and
      signature checking; `now` is the clock in seconds. A token is expired
      strictly after its `exp` second. */
  function ValidateTokenClaims(token: string, decode: string -> Option<Claims>, now: nat): (r: Result<Claims, AppError>)
    ensures decode(token).None? ==> r == Err(InvalidToken)
    ensures decode(token).Some? && decode(token).value.exp < now ==> r == Err(TokenExpired)
    ensures r.Ok? <==> decode(token).Some? && now <= decode(token).value.exp
    ensures r.Ok? ==> r.value == decode(token).value
  {
    match decode(token)
    case None => Err(InvalidToken)
    case Some(claims) => if claims.exp < now then Err(TokenExpired) else Ok(claims)
  }

  /** `validate_token`: the claims checks, then the subject must parse as
      a UUID. */
  function ValidateToken(token: string, decode: string -> Option<Claims>, now: nat,
                         parseUuid: string -> Option<Uuid>): (r: Result<Uuid, AppError>)
    ensures decode(token).None? ==> r == Err(InvalidToken)
    ensures decode(token).Some? && decode(token).value.exp < now ==> r == Err(TokenExpired)
    ensures r.Ok? <==> ValidateTokenClaims(token, decode, now).Ok? && parseUuid(decode(token).value.sub).Some?
    ensures ValidateTokenClaims(token, decode, now).Ok? && parseUuid(decode(token).value.sub).None? ==>
      r == Err(InvalidUserIdInToken)
    ensures r.Ok? ==> r.value == parseUuid(decode(token).value.sub).value
    ensures r.Err? ==> r.error.status == UNAUTHORIZED
  {
    match decode(token)
    case None => Err(InvalidToken)
    case Some(claims) =>
      if claims.exp < now then Err(TokenExpired)
      else
        match parseUuid(claims.sub)
        case None => Err(InvalidUserIdInToken)
        case Some(id) => Ok(id)
  }

  /** A token valid now was valid at every earlier moment, and it is still
      valid in its `exp` second. */
  lemma ExpiryIsMonotone(token: string, decode: string -> Option<Claims>, now: nat, earlier: nat)
    requires earlier <= now
    ensures ValidateTokenClaims(token, decode, now).Ok? ==> ValidateTokenClaims(token, decode, earlier).Ok?
    ensures decode(token).Some? ==> ValidateTokenClaims(token, decode, decode(token).value.exp).Ok?
  {
  }

  /** `extract_and_validate_token`: the header step, then the token step,
      stopping at the first error. */
  function ExtractAndValidateToken(header: Option<seq<Byte>>, decode: string -> Option<Claims>, now: nat,
                                   parseUuid: string -> Option<Uuid>): (r: Result<Uuid, AppError>)
    ensures ExtractTokenFromHeader(header).Err? ==> r == Err(ExtractTokenFromHeader(header).error)
    ensures ExtractTokenFromHeader(header).Ok? ==>
      r == ValidateToken(ExtractTokenFromHeader(header).value, decode, now, parseUuid)
    ensures r.Err? ==> r.error.status == UNAUTHORIZED
  {
    match ExtractTokenFromHeader(header)
    case Err(e) => Err(e)
    case Ok(token) => ValidateToken(token, decode, now, parseUuid)
  }

  /** `extract_and_validate_token_with_session`: the claims checks, both
      ids must parse, and `validateSession` (the session service) must
      accept the session id. */
  function ExtractAndValidateTokenWithSession(token: string, decode: string -> Option<Claims>, now: nat,
                                              parseUuid: string -> Option<Uuid>,
                                              validateSession: string -> Result<(), AppError>): (r: Result<(Uuid, Uuid), AppError>)
    ensures ValidateTokenClaims(token, decode, now).Err? ==> r == Err(ValidateTokenClaims(token, decode, now).error)
    ensures r.Ok? <==>
      (ValidateTokenClaims(token, decode, now).Ok? &&
       parseUuid(decode(token).value.sub).Some? &&
       parseUuid(decode(token).value.sessionId).Some? &&
       validateSession(decode(token).value.sessionId).Ok?)
    ensures r.Ok? ==> r.value == (parseUuid(decode(token).value.sub).value, parseUuid(decode(token).value.sessionId).value)
  {
    match ValidateTokenClaims(token, decode, now)
    case Err(e) => Err(e)
    case Ok(claims) =>
      match parseUuid(claims.sub)
      case None => Err(InvalidUserIdInToken)
      case Some(userId) =>
        match parseUuid(claims.sessionId)
        case None => Err(InvalidSessionIdInToken)
        case Some(sessionId) =>
          match validateSession(claims.sessionId)
          case Err(e) => Err(e)
          case Ok(_) => Ok((userId, sessionId))
  }

  /** Both entry points agree on the user: when the session-checking one
      succeeds, the header-free check of the same token yields the same
      user id. */
  lemma SessionCheckRefinesTokenCheck(token: string, decode: string -> Option<Claims>, now: nat,
                                      parseUuid: string -> Option<Uuid>,
                                      validateSession: string -> Result<(), AppError>)
    ensures ExtractAndValidateTokenWithSession(token, decode, now, parseUuid, validateSession).Ok? ==>
      ValidateToken(token, decode, now, parseUuid) ==
      Ok(ExtractAndValidateTokenWithSession(token, decode, now, parseUuid, validateSession).value.0)
  {
  }
}

=== FILE: validation.dfy ===
// Input validation of the generated backend: the email and password checks
// and the two request validators built from them.

module Validation {
  import opened Basics
  import opened Text

  const EmailRequired := AppError("Email is required", BAD_REQUEST)
  const InvalidEmailFormat := AppError("Invalid email format", BAD_REQUEST)
  const PasswordRequired := AppError("Password is required", BAD_REQUEST)
  const PasswordTooShort := AppError("Password must be at least 6 characters", BAD_REQUEST)

  /** The shortest accepted password, in UTF-8 bytes. */
  const MIN_PASSWORD_BYTES: nat := 6

  /** `validate_email`: an empty address is missing; otherwise it must hold
      an '@' and a '.', anywhere and in any order. */
  function ValidateEmail(email: string): (r: Result<(), AppError>)
    ensures r.Ok? <==> |email| > 0 && '@' in email && '.' in email
    ensures r.Err? ==> r.error.status == BAD_REQUEST
    ensures |email| == 0 ==> r == Err(EmailRequired)
    ensures |email| > 0 && r.Err? ==> r == Err(InvalidEmailFormat)
  {
    if |email| == 0 then Err(EmailRequired)
    else if '@' !in email || '.' !in email then Err(InvalidEmailFormat)
    else Ok(())
  }

  /** Only which characters occur matters, not where: rearranging an
      address never changes the verdict. */
  lemma EmailCheckIgnoresOrder(a: string, b: string)
    requires multiset(a) == multiset(b)
    ensures ValidateEmail(a) == ValidateEmail(b)
  {
    assert |a| == |multiset(a)| == |multiset(b)| == |b|;
    assert '@' in a <==> '@' in multiset(a);
    assert '@' in b <==> '@' in multiset(b);
    assert '.' in a <==> '.' in multiset(a);
    assert '.' in b <==> '.' in multiset(b);
  }

  /** Every address shaped `local@domain.tld` passes, and so does the bare
      ".@", which no mail system would deliver. */
  lemma EmailCheckExamples(local: string, domain: string, tld: string)
    ensures ValidateEmail(local + "@" + domain + "." + tld).Ok?
    ensures ValidateEmail(".@").Ok?
    ensures ValidateEmail("user.example.com") == Err(InvalidEmailFormat)
  {
    var s := local + "@" + domain + "." + tld;
    assert s[|local|] == '@';
    assert s[|local| + 1 + |domain|] == '.';
    var t := "user.example.com";
    assert forall i :: 0 <= i < |t| ==> t[i] != '@';
  }

  /** `validate_password`: an empty password is missing; otherwise its
      UTF-8 byte length (`str::len`) must be at least six. */
  function ValidatePassword(password: string): (r: Result<(), AppError>)
    ensures r.Ok? <==> Utf8Len(password) >= MIN_PASSWORD_BYTES
    ensures |password| == 0 ==> r == Err(PasswordRequired)
    ensures |password| > 0 && r.Err? ==> r == Err(PasswordTooShort)
    ensures r.Err? ==> r.error.status == BAD_REQUEST
  {
    Utf8LenBounds(password);
    if |password| == 0 then Err(PasswordRequired)
    else if Utf8Len(password) < MIN_PASSWORD_BYTES then Err(PasswordTooShort)
    else Ok(())
  }

  /** For ASCII text the byte length is the character count; beyond ASCII
      fewer than six characters can pass: three two-byte letters do. */
  lemma PasswordLengthIsBytes(password: string)
    ensures (forall i :: 0 <= i < |password| ==> password[i] as int < 0x80) ==>
      (ValidatePassword(password).Ok? <==> |password| >= 6)
    ensures |password| >= 6 ==> ValidatePassword(password).Ok?
    ensures ValidatePassword("ééé").Ok?
  {
    Utf8LenBounds(password);
    var e := "ééé";
    assert e[1..][1..][1..] == [];
    assert Utf8Len(e) == 6;
  }

  /** `validate_registration_input`: the email check first, then the
      password check. */
  function ValidateRegistrationInput(email: string, password: string): (r: Result<(), AppError>)
    ensures r.Ok? <==> ValidateEmail(email).Ok? && ValidatePassword(password).Ok?
    ensures ValidateEmail(email).Err? ==> r == ValidateEmail(email)
    ensures ValidateEmail(email).Ok? ==> r == ValidatePassword(password)
  {
    match ValidateEmail(email)
    case Err(e) => Err(e)
    case Ok(_) =>
      match ValidatePassword(password)
      case Err(e) => Err(e)
      case Ok(_) => Ok(())
  }

  /** `validate_login_input`: the same two checks in the same order, so
      the registration check is reused rather than written out again. */
  function ValidateLoginInput(email: string, password: string): (r: Result<(), AppError>)
    ensures r.Ok? <==> ValidateEmail(email).Ok? && ValidatePassword(password).Ok?
    ensures ValidateEmail(email).Err? ==> r == ValidateEmail(email)
    ensures ValidateEmail(email).Ok? ==> r == ValidatePassword(password)
  {
    ValidateRegistrationInput(email, password)
  }

  /** Login and registration validate identically; when both fields are
      bad, the email error is the one reported. */
  lemma LoginMatchesRegistration(email: string, password: string)
    ensures ValidateLoginInput(email, password) == ValidateRegistrationInput(email, password)
    ensures ValidateEmail(email).Err? && ValidatePassword(password).Err? ==>
      ValidateLoginInput(email, password).error.message != PasswordRequired.message &&
      ValidateLoginInput(email, password).error.message != PasswordTooShort.message
  {
  }
}
